=== FILE: README.md ===
# Portfolio builder front end: a Dafny model of its decision logic

This project models the parts of the portfolio builder's web front end
that decide things, leaving out the parts that only draw a page. There
are four of them.

- **Schema-less section editor.** A section's content is arbitrary JSON.
  A field's widget is chosen from the shape of its value and from
  heuristics on its key and its text. Editing a list element or an
  object member rebuilds the value around the edit. The page keeps
  three forms: the section, a new item and the item being edited. It
  also keeps a registry of uploaded image paths, and it validates
  required keys before saving.
- **Session state machine.** The authentication store mirrors its token,
  its user and the e-mail awaiting verification into browser storage.
  The authentication hooks layer their success reducers on top. The
  authentication service normalises loosely shaped server answers and
  generates a temporary `temp-` subdomain for a new account that did not
  choose one. The subdomain card sanitises the typed name and decides
  when an update may be sent.
- **Onboarding gate.** Each page decides, from the session and portfolio
  state, whether to render or where to redirect. A visitor moves from
  signed out, to a chosen subdomain, to a language mode, to the
  dashboard.
- **Small utilities.** These are the translation lookup and text
  direction, the portfolio store's active-section toggle, and the HTTP
  client's rules: the bearer header (section 2.1 of RFC 6750), the 401
  hook and the error-message precedence.

The model is made of immutable datatypes and pure functions.

- JSON is a recursive datatype. An object is an ordered list of entries,
  because `Object.entries` order is visible in the editor.
- Browser storage is a `map<string, string>`.
- A remote call's result is an input: `Ok(value)` or `Err(failure)`.
- A component's effect is a state transition, or a list of effects in
  the order they happen.

Modules follow the source files:

| module | models |
|---|---|
| `Json` | JSON values and the object operations the editor uses |
| `TitleCase` | field labels |
| `EditorHelpers` | the helpers at the top of the editor |
| `FieldEdits` | one field's widget and edits |
| `EditorPage` | the page's reducers |
| `Api` | the HTTP client |
| `AuthService` | normalising answers and generating subdomains |
| `SubdomainText` | the subdomain character class |
| `SubdomainCard` | the subdomain card |
| `AuthStore` | the session store |
| `AuthHooks` | the success reducers and availability query |
| `Language` | translation and direction |
| `PortfolioStore` | the portfolio store |
| `Onboarding` | the route guards and onboarding pages |

`Options`, `Seqs` and `Text` hold shared helpers.

Three behaviours of the code are easy to miss:

- A key that is both date-like and image-like, such as `photo`, gets a
  date input. The date test is checked first
  (src/pages/SectionEditor.tsx:227-241).
- A list's "Add" copies a first element that is `null` or an array, as
  well as an object, because `typeof` is `'object'` for all three
  (src/pages/SectionEditor.tsx:89-99).
- `addImageToNewItem` looks only for a key matching `/image/i`, not for
  the wider set of image words `isImageKey` uses
  (src/pages/SectionEditor.tsx:450-460).

## Model

| member | source | states |
|---|---|---|
| EditorHelpers.ImageFromPath | src/pages/SectionEditor.tsx:25-30 | empty stays empty; a URL or data URI is kept; a leading `/` gets the API origin and becomes a URL; anything else is kept |
| EditorHelpers.ImageFromPathIdempotent | src/pages/SectionEditor.tsx:25-30 | resolving a resolved reference changes nothing |
| EditorHelpers.EnsureLocalized | src/pages/SectionEditor.tsx:41-44 | the result always has `ar` or `en`; a value that has one is returned as is, anything else becomes `{ar:"",en:""}` |
| EditorHelpers.DefaultItemTemplate | src/pages/SectionEditor.tsx:46-73 | distinct keys, all values blank; an empty localized `title` exactly when the lower-cased name is not `skills`, and then an empty localized `desc`; `projects` gives `title, desc, images` with `images: []`; `services` gives `title, desc, image` with `image: ''`; an unknown name gives `title, desc` |
| EditorHelpers.SkillsTemplate | src/pages/SectionEditor.tsx:47-54 | for `skills` in any letter case: the four keys in order, `skillRate` 0, `skillImage` the empty string, name and category empty localized texts |
| EditorHelpers.ImageSuffixedKeys | src/pages/SectionEditor.tsx:37 | every camel-case key ending in `Image` passes the image-key test |
| EditorHelpers.ImageFileNames | src/pages/SectionEditor.tsx:32-35 | every name ending in an image extension, in any letter case, looks like an image |
| EditorHelpers.UploadPathsLookLikeImages | src/pages/SectionEditor.tsx:32-35 | every path through an `/uploads/` directory looks like an image, whatever its ending |
| EditorHelpers.PhotoKeysAreDateKeys | src/pages/SectionEditor.tsx:37-39 | every key mentioning `photo` passes both the image-key and the date-key test, since `photo` contains `to` |
| TitleCase.SpaceBeforeCapitals | src/pages/SectionEditor.tsx:19 | never shorter than the key, and never starting with a capital |
| TitleCase.SpaceBeforeCapitalsShape | src/pages/SectionEditor.tsx:19 | afterwards every inner capital follows white space, and the word characters are the key's |
| TitleCase.SeparatorsToSpaces | src/pages/SectionEditor.tsx:20 | same length; exactly the `_` and `-` characters become spaces |
| TitleCase.CollapseSpaces | src/pages/SectionEditor.tsx:21 | empty iff the input is; a leading run of white space becomes one space, any other first character stays |
| TitleCase.CollapseShape | src/pages/SectionEditor.tsx:21 | after collapsing, all white space is plain spaces and no two are adjacent |
| TitleCase.CollapseSpacesAppend | src/pages/SectionEditor.tsx:21 | collapsing `a + b` is collapsing `a` and `b` apart when `a` is empty or ends in a non-space: no run crosses the join |
| TitleCase.CollapseOfBlank | src/pages/SectionEditor.tsx:21 | a non-empty run of white space alone becomes exactly one space |
| TitleCase.CollapseBlankPrefix | src/pages/SectionEditor.tsx:21 | a leading run becomes one space and swallows the white space after it |
| TitleCase.CollapseKeepsWords | src/pages/SectionEditor.tsx:21 | collapsing leaves the non-space characters unchanged and in order, and a capital that started a word still does |
| TitleCase.CapitalizeFirst | src/pages/SectionEditor.tsx:23 | same length; the first character upper-cased unless it is a line terminator (which `.` does not match); the rest unchanged |
| TitleCase.TitleCaseShape | src/pages/SectionEditor.tsx:17-23 | a label has no space at either end, single plain spaces, a space before each inner capital, no `_` or `-`, and its non-space text is the key's word characters with the first upper-cased |
| TitleCase.CollapseMarked | src/pages/SectionEditor.tsx:19-21 | the first three rewrites agree with the one-pass reference `Spacing`: after a blank run, with a pending space exactly when the run is non-empty |
| TitleCase.TitleCaseBySpacing | src/pages/SectionEditor.tsx:17-23 | the label is the trimmed reference spacing, first character capitalised: one space stands for each run of white space, `_` or `-`, and one goes before each capital |
| TitleCase.SpacingOfPlain | src/pages/SectionEditor.tsx:19-21 | a word of no white space, separators or capitals is copied as it is, after one space if a run is pending |
| TitleCase.SpacingOfGap | src/pages/SectionEditor.tsx:20-21 | a run of white space, `_` and `-` writes nothing yet and leaves one space pending |
| TitleCase.TitleCaseOfSeparatedWords | src/pages/SectionEditor.tsx:17-23 | two words joined by any run of white space, `_` or `-` become the words with one space between, the first capitalised (`a_b` gives `A b`) |
| TitleCase.TitleCaseOfCamelWords | src/pages/SectionEditor.tsx:17-23 | a capital inside a key starts a new word after one space (`skillName` gives `Skill Name`) |
| FieldEdits.ChooseStringControl | src/pages/SectionEditor.tsx:227-253 | date input iff the key is date-like; otherwise textarea iff over 80 characters or containing a newline; exactly 80 without newline stays single-line |
| FieldEdits.Render | src/pages/SectionEditor.tsx:88-293 | each JSON kind has its own widget, both ways (null unsupported, boolean switch, number input, list editor, object editor, text field); a list offers upload iff it is an image list and an uploader exists, and element `i` previews the image of its path iff the list is an image list and the element is non-empty; a string gets the control `ChooseStringControl` picks, offers upload iff it is image-like and an uploader exists, and previews its image iff image-like and non-empty |
| FieldEdits.PhotoFieldIsDateInput | src/pages/SectionEditor.tsx:227-283 | any string field whose key mentions `photo` gets a date input and an upload button, and a preview of the resolved path once it holds a value |
| FieldEdits.DefaultNext | src/pages/SectionEditor.tsx:89-99 | `""` for an empty list; otherwise the first element's kind; an object-like first element is copied; anything else is falsy (0, false, "") |
| FieldEdits.AddItem | src/pages/SectionEditor.tsx:135 | one longer, old list as prefix, the new element is `DefaultNext` of the list (a copy of an object-like first element, else the falsy value of its kind), `[""]` from empty |
| FieldEdits.AddKeepsShape | src/pages/SectionEditor.tsx:89-103 | a one-kind list stays one kind and an image list stays an image list after Add |
| FieldEdits.RemoveItem | src/pages/SectionEditor.tsx:149 | one shorter; elements before `i` in place, later ones shifted down by one |
| FieldEdits.RemoveUndoesAdd | src/pages/SectionEditor.tsx:135-149 | removing the element Add appended gives the list back |
| FieldEdits.ReplaceItem | src/pages/SectionEditor.tsx:162-166 | same length, index `i` holds the new value, every other index unchanged |
| FieldEdits.ReplaceItemLaws | src/pages/SectionEditor.tsx:162-166 | writing back an element's own value is no change; of two edits to one element the later wins |
| FieldEdits.UploadIntoList | src/pages/SectionEditor.tsx:118-124 | a non-empty returned path is appended; otherwise the list is unchanged |
| FieldEdits.UploadKeepsImageList | src/pages/SectionEditor.tsx:101-124 | an upload keeps an image list an image list |
| FieldEdits.UploadIntoString | src/pages/SectionEditor.tsx:262-268 | a non-empty returned path becomes the value; otherwise the value is kept |
| FieldEdits.SetMember | src/pages/SectionEditor.tsx:196 | the member holds the new value, every other member is unchanged, an existing key keeps its position, keys stay distinct |
| FieldEdits.SetMemberOwnValue | src/pages/SectionEditor.tsx:196 | writing back a member's own value leaves the object identical |
| FieldEdits.ReplaceTwice | src/pages/SectionEditor.tsx:196 | of two writes to one member the later wins |
| FieldEdits.ChildrenInheritHeuristics | src/pages/SectionEditor.tsx:156-196 | elements and members under an image-like or date-like key are image-like or date-like too |
| FieldEdits.WithChild | src/pages/SectionEditor.tsx:162-196 | one child replaced: same shape, same length or key order, the child holds the new value |
| FieldEdits.WithChildLeavesSiblings | src/pages/SectionEditor.tsx:162-196 | every other child is unchanged |
| FieldEdits.SetAt | src/pages/SectionEditor.tsx:156-196 | an edit at a nested path succeeds iff the path exists, and the path then holds the new value |
| FieldEdits.SetAtKeepsOutline | src/pages/SectionEditor.tsx:156-196 | a nested edit keeps the root's length or key order |
| FieldEdits.SetAtLeavesOthers | src/pages/SectionEditor.tsx:156-196 | a nested edit leaves every diverging path's value unchanged |
| Json.Put | src/pages/SectionEditor.tsx:536 | `{...prev, [key]: next}`: the key holds the value, other keys unchanged, an existing key keeps its place, a new one goes last |
| Json.Delete | src/pages/SectionEditor.tsx:349 | `delete o.k`: the key is gone, key order otherwise kept, other values unchanged |
| Json.ToDisplayString | src/pages/Dashboard.tsx:40 | `String(v)`: `null`, `true`/`false` and `[object Object]` as JavaScript writes them; a string is itself; a number is a `-` exactly when negative, then the digits of its magnitude with no leading zero; an empty list is empty text |
| Json.ArrayTextSingle | src/pages/Dashboard.tsx:40 | a one-element list reads as its element, a `null` element as nothing |
| Json.ArrayTextSnoc | src/pages/Dashboard.tsx:40 | each further element adds `,` and its text, so a list reads as its elements joined by `,` in order |
| Text.NatToString | src/pages/Dashboard.tsx:41 | the index keys of a string's entries: the decimal digits that denote the number, with no leading zero |
| Text.IntToString | src/pages/SectionEditor.tsx:390 | `String(n)` of a whole number: `-` exactly when negative, then the text of the magnitude |
| Text.IntToStringInjective | src/pages/SectionEditor.tsx:390 | two numeric ids get the same text only when they are equal |
| EditorPage.LoadSectionForm | src/pages/SectionEditor.tsx:346-351 | loaded object data becomes the form without `_id`, otherwise the form is unchanged |
| EditorPage.StripIds | src/pages/SectionEditor.tsx:358-360 | no `id` or `_id`, other keys in order with their values |
| EditorPage.NewItemTemplate | src/pages/SectionEditor.tsx:353-362 | the first item without `id` and `_id`, its other keys in their order with their values; the section's default template when there are no items |
| EditorPage.ItemsOf | src/pages/SectionEditor.tsx:321-324 | an array's elements, otherwise no items |
| EditorPage.SectionMeta | src/pages/SectionEditor.tsx:326-330 | the section's metadata exactly when the metadata of all sections is an object whose entry for the section is an object |
| EditorPage.Strings | src/pages/SectionEditor.tsx:335 | every string entry of the list is kept and nothing else; a list of strings keeps its length |
| EditorPage.StringsAppend | src/pages/SectionEditor.tsx:335 | the filter keeps the list's order: it works piecewise over concatenation |
| EditorPage.StringsSingle | src/pages/SectionEditor.tsx:335 | one element at a time: a string is kept as its text, anything else dropped |
| EditorPage.RequiredKeys | src/pages/SectionEditor.tsx:326-336 | the string entries of the section metadata's `required` list; none when there is no section metadata or no `required` list |
| EditorPage.MissingKeys | src/pages/SectionEditor.tsx:366-372 | exactly the required keys whose `payload[key]` is undefined, null, a blank string or an empty list; an inherited member such as `constructor` is not undefined |
| EditorPage.MissingKeysAppend | src/pages/SectionEditor.tsx:366-372 | the missing keys keep the required keys' order |
| EditorPage.MissingKeysSingle | src/pages/SectionEditor.tsx:366-375 | one required key is reported iff it is missing; with `MissingKeysAppend` this fixes the report's order and repeats |
| EditorPage.ValidateRequired | src/pages/SectionEditor.tsx:364-378 | valid iff no required key is missing; otherwise the missing list is `MissingKeys` (the missing required keys in the required order, repeats as in `required`), non-empty, and the message `Required fields missing: a, b` |
| EditorPage.NothingRequiredPasses | src/pages/SectionEditor.tsx:365 | with no required keys every payload passes |
| EditorPage.FalseAndZeroArePresent | src/pages/SectionEditor.tsx:366-371 | `false` and `0` count as filled in |
| EditorPage.InheritedNamesArePresent | src/pages/SectionEditor.tsx:364-372 | a required key naming a member every object inherits passes when the payload has no own member of that name |
| EditorPage.OwnBlankShadowsInherited | src/pages/SectionEditor.tsx:364-372 | an own blank member of such a name is still missing |
| EditorPage.OnSaveSection | src/pages/SectionEditor.tsx:380-383 | the upsert is issued, with the form, iff validation passes; otherwise only the toast, which is the validation message |
| EditorPage.EditItemId | src/pages/SectionEditor.tsx:390 | the first truthy of `id`, `_id` as text, else empty |
| EditorPage.StringIdIsKept | src/pages/SectionEditor.tsx:390 | a server `_id` string is used verbatim |
| EditorPage.OnEditItem | src/pages/SectionEditor.tsx:389-396 | the item's id, and as the form the item without `id` and `_id`: the other keys in their order with their values |
| EditorPage.OnUpdateItem | src/pages/SectionEditor.tsx:398-405 | an update call iff an item id is chosen, carrying that id and form |
| EditorPage.AppendUniquePath | src/pages/SectionEditor.tsx:407-415 | old registry as prefix; only new non-empty paths appended; every non-empty path listed afterwards; no duplicates introduced |
| EditorPage.AppendUniquePathIdempotent | src/pages/SectionEditor.tsx:407-415 | registering the same paths twice is registering them once |
| EditorPage.AppendUniquePathAppend | src/pages/SectionEditor.tsx:407-415 | registering `a + b` is registering `a` and then `b`: the paths are taken in the order given |
| EditorPage.AppendUniquePathSingle | src/pages/SectionEditor.tsx:407-415 | one path is pushed last iff it is non-empty and not yet listed; with `AppendUniquePathAppend` this fixes the order of the added paths |
| EditorPage.AlreadyListed | src/pages/SectionEditor.tsx:407-415 | paths already listed or empty leave the registry unchanged |
| EditorPage.SinglePath | src/pages/SectionEditor.tsx:421 | a non-empty `filePath`, else `url`, else empty |
| EditorPage.UploadImageAndGetPath | src/pages/SectionEditor.tsx:417-431 | a failed upload changes nothing; a success registers a non-empty path and returns it, or returns nothing |
| EditorPage.MultiplePaths | src/pages/SectionEditor.tsx:437 | a non-empty `filePaths`, else `urls`, else none |
| EditorPage.OnUploadMultiple | src/pages/SectionEditor.tsx:433-440 | no files or a failure changes nothing; otherwise the old registry stays as prefix, only returned non-empty unlisted paths are added, every returned non-empty path is listed, no duplicates introduced; the result is `AppendUniquePath` of the returned paths, so they are added in the order returned |
| EditorPage.OnUploadMultipleIdempotent | src/pages/SectionEditor.tsx:433-440 | handling the same completed upload twice registers nothing more |
| EditorPage.ImagesOf | src/pages/SectionEditor.tsx:444 | the form's `images` when it is a list, otherwise none |
| EditorPage.AddImageToSection | src/pages/SectionEditor.tsx:442-448 | an existing path changes nothing; otherwise `images` becomes the old images plus the path; other keys unchanged and in order, `images` added last only when it was absent |
| EditorPage.AddImageToSectionIdempotent | src/pages/SectionEditor.tsx:442-448 | adding an image twice is adding it once |
| EditorPage.RemoveImageFromSection | src/pages/SectionEditor.tsx:462-467 | every copy of the path leaves `images`, other keys unchanged |
| EditorPage.RemoveUndoesAddImage | src/pages/SectionEditor.tsx:442-467 | removing a path just attached restores the form |
| EditorPage.FirstImageKey | src/pages/SectionEditor.tsx:452 | the first key matching `/image/i`, none iff no key matches |
| EditorPage.NewItemImageKey | src/pages/SectionEditor.tsx:452 | the first key matching `/image/i` when there is one, and `image` only when none matches |
| EditorPage.AddImageToNewItem | src/pages/SectionEditor.tsx:450-460 | a list field gains the path unless present, any other field becomes the path; other keys unchanged and in order, the image key added last only when it was absent |
| EditorPage.AddImageToNewItemHoldsPath | src/pages/SectionEditor.tsx:450-460 | afterwards the image field holds the path, as its value or in its list |
| EditorPage.DeleteUploaded | src/pages/SectionEditor.tsx:469-473 | a failed delete changes nothing; a success drops every copy of the path from the registry and from the section's images, the other images kept in order, other keys unchanged and in order |
| EditorPage.DeleteUndoesUpload | src/pages/SectionEditor.tsx:407-473 | deleting a path just registered and attached to a section restores both registry and form |
| EditorPage.IsSectionActive | src/pages/SectionEditor.tsx:338-344 | true iff the section is an object whose `active` is boolean `true` |
| Seqs.RemoveIndex | src/pages/SectionEditor.tsx:149 | index `i` dropped when in range, otherwise unchanged |
| Seqs.RemoveAll | src/store/portfolio.store.ts:23 | every occurrence dropped, every other element kept |
| SubdomainText.KeepSubdomainChars | src/components/auth/SubdomainManagerCard.tsx:5 | a character is kept iff it is in `[a-z0-9-]`; never longer; an already clean name is unchanged |
| SubdomainText.KeepAppend | src/components/auth/SubdomainManagerCard.tsx:5 | filtering works piecewise over concatenation |
| SubdomainText.KeepSingle | src/components/auth/SubdomainManagerCard.tsx:5 | on one character: kept iff allowed, which with the piecewise law fixes the whole filter |
| SubdomainCard.Sanitize | src/components/auth/SubdomainManagerCard.tsx:5 | only `[a-z0-9-]`, at most 40, a prefix of the kept characters that stops only at 40 |
| SubdomainCard.SanitizeFixedPoint | src/components/auth/SubdomainManagerCard.tsx:5 | a name is unchanged iff it is already clean and at most 40 long |
| SubdomainCard.SanitizeIdempotent | src/components/auth/SubdomainManagerCard.tsx:5 | sanitising twice is sanitising once |
| SubdomainCard.StaleAnswerEnablesUpdate | src/components/auth/SubdomainManagerCard.tsx:25-59 | as written, an answer for `abc` enables the update of `abd`: the card sends `abd` and calls back, where the corrected card does nothing |
| SubdomainCard.CanUpdateIsChecked | src/components/auth/SubdomainManagerCard.tsx:27-30 | the corrected rule enables only a name the server called available |
| SubdomainCard.AvailabilityMessage | src/components/auth/SubdomainManagerCard.tsx:32-41 | each of the five messages iff its condition in strict priority: empty, short, checking, available, unavailable |
| SubdomainCard.AvailabilityTone | src/components/auth/SubdomainManagerCard.tsx:43-48 | muted iff short or checking; green only when available; red only when not |
| SubdomainCard.ToneMatchesMessage | src/components/auth/SubdomainManagerCard.tsx:32-48 | green iff "Available", red iff "Unavailable", muted iff one of the neutral lines |
| SubdomainCard.UpdateEnabledMessage | src/components/auth/SubdomainManagerCard.tsx:27-41 | with `canUpdate` true the line reads "Checking" or "Available" |
| SubdomainCard.HandleUpdate | src/components/auth/SubdomainManagerCard.tsx:50-59 | nothing unless `canUpdate` (as written) holds; then the update call first; the success callback iff allowed, succeeded and provided; at most these two effects |
| SubdomainCard.HandleUpdateChecked | src/components/auth/SubdomainManagerCard.tsx:27-59 | corrected: a name is sent iff the corrected rule holds, first, and then the last answer called that very name available; at most that call and the success callback |
| SubdomainCard.HandlersDifferOnlyOnStaleAnswer | src/components/auth/SubdomainManagerCard.tsx:27-59 | the card as written and the corrected one act differently exactly when `canUpdate` holds on an answer for another name |
| AuthService.FirstPresent | src/services/auth.service.ts:18-22 | none iff every candidate is absent; otherwise a candidate with only absent ones before it |
| AuthService.NormalizeAuthResponse | src/services/auth.service.ts:15-25 | top-level message; token `token ?? accessToken ?? data.token ?? data.accessToken`; user `user ?? data.user`; all absent for no payload |
| AuthService.NormalizedTokenPresence | src/services/auth.service.ts:18-22 | a token is found iff one of the four places holds one |
| AuthService.DropLeadingHyphens | src/services/auth.service.ts:28 | a suffix without a leading `-`; only `-` was dropped |
| AuthService.DropTrailingHyphens | src/services/auth.service.ts:28 | a prefix without a trailing `-`; only `-` was dropped |
| AuthService.SanitizePart | src/services/auth.service.ts:27-28 | only `[a-z0-9-]`, at most 24, no leading `-`; the result is the lower-cased input's `[a-z0-9-]` characters with the hyphens at both ends stripped, cut only at 24 |
| AuthService.SanitizePartFixedPoint | src/services/auth.service.ts:27-28 | a part is unchanged iff it is clean, at most 24 long and has no `-` at either end |
| AuthService.GenerateTemporary | src/services/auth.service.ts:30-34 | `temp-`, the sanitised seed (or `user`), `-` and the nonce, cut to 48 characters; the prefix up to the `-` always survives the cut |
| AuthService.RegisterSeed | src/services/auth.service.ts:41 | name, else e-mail, else `user` |
| AuthService.RegisterRequest | src/services/auth.service.ts:37-47 | the form unchanged except the subdomain: a non-blank supplied one verbatim, else a generated `temp-` one from the seed |
| AuthService.GoogleRequest | src/services/auth.service.ts:54-64 | a non-blank supplied subdomain verbatim, else a generated one seeded `google-user` |
| AuthStore.Lookup | src/store/auth.store.ts:30-32 | a value iff the key is stored, and then the stored value |
| AuthStore.StoredUser | src/store/auth.store.ts:19-27 | none for a missing or empty entry, otherwise what the entry decodes to |
| AuthStore.Initial | src/store/auth.store.ts:29-38 | token, user and pending e-mail read from storage; signed in iff a non-empty token is stored |
| AuthStore.SetAuth | src/store/auth.store.ts:39-51 | omitted fields keep their values; signed in iff the token is non-empty; storage written only for a non-empty token or a present user; every other storage key, present or absent, unchanged; pending e-mail untouched |
| AuthStore.SetPendingEmail | src/store/auth.store.ts:52-59 | state holds exactly the value; storage holds a non-empty one, else loses the key; other keys untouched |
| AuthStore.Login | src/store/auth.store.ts:60-68 | token held and stored, user the given one or none, signed in; other keys untouched |
| AuthStore.Logout | src/store/auth.store.ts:69-79 | state emptied, the three keys removed, other keys untouched |
| AuthStore.InitialSynced | src/store/auth.store.ts:29-38 | a freshly loaded store agrees with storage |
| AuthStore.ReloadRestores | src/store/auth.store.ts:19-38 | reloading an agreeing store restores token, flag, pending e-mail and a held user |
| AuthStore.SetAuthKeepsSynced | src/store/auth.store.ts:39-51 | with no token or a non-empty one, setAuth keeps the store and storage in agreement |
| AuthStore.EmptyTokenSplitsStore | src/store/auth.store.ts:40-50 | an empty token leaves the store signed out while a reload signs back in |
| AuthStore.SetPendingEmailKeepsSynced | src/store/auth.store.ts:52-59 | setPendingEmail keeps the agreement |
| AuthStore.LoginKeepsSynced | src/store/auth.store.ts:60-68 | login with a non-empty token keeps the agreement |
| AuthStore.LoginWithoutUserKeepsStoredUser | src/store/auth.store.ts:60-68 | login without a user leaves the previous user in storage, to be restored on reload |
| AuthStore.LogoutKeepsSynced | src/store/auth.store.ts:69-79 | logout keeps the agreement |
| AuthStore.LogoutSurvivesReload | src/store/auth.store.ts:69-79 | after logout a reload finds an empty, signed-out store |
| AuthHooks.OnRegisterSuccess | src/hooks/useAuth.ts:34-39 | pending e-mail becomes exactly the registered address; nothing else in the state changes |
| AuthHooks.OnSignInSuccess | src/hooks/useAuth.ts:43-63 | login with the answer's token and user iff the token is non-empty, otherwise no change |
| AuthHooks.OnVerifySuccess | src/hooks/useAuth.ts:65-74 | a token signs in with the answer's user, else a user is adopted; the pending e-mail is cleared in state and storage in every case |
| AuthHooks.OnUpdateSubdomainSuccess | src/hooks/useAuth.ts:97-105 | a returned user replaces the held one, else a held user gets the new subdomain; a returned token is applied |
| AuthHooks.UpdateSubdomainKeepsProfile | src/hooks/useAuth.ts:102-103 | without a returned user only the held user's subdomain changes |
| AuthHooks.HooksKeepSynced | src/hooks/useAuth.ts:34-109 | every success reducer keeps store and storage in agreement |
| AuthHooks.VerifiedSessionSurvivesReload | src/hooks/useAuth.ts:65-74 | after verification with a token a reload is signed in with nothing pending |
| AuthHooks.AvailabilityInput | src/hooks/useAuth.ts:129 | the lower-cased input with the white space at both ends cut off: no capital, no white space at either end, empty iff the input is blank |
| AuthHooks.AvailabilityInputIsSlice | src/hooks/useAuth.ts:129 | the key is the lower-cased input from its first non-blank character on, with only white space left after it |
| AuthHooks.AvailabilityInputIdempotent | src/hooks/useAuth.ts:129 | normalising a normalised key changes nothing |
| AuthHooks.SanitizedNameIsQueryKey | src/hooks/useAuth.ts:128-137 | a sanitised name is its own query key, so the query runs iff the card's length check passes |
| AuthHooks.OnApiFailure | src/hooks/useAuth.ts:29-32 | the failure always reaches the caller; a 401 while the hooks are mounted logs out, anything else changes nothing |
| AuthHooks.UnauthorizedEndsSession | src/hooks/useAuth.ts:29-32 | a 401 ends the session in the store and for the next load |
| Api.ParseApiError | src/api/axios.ts:39-46 | body `message`, else body `error`, else the error's message; another `Error` its message; anything else the fallback |
| Api.ParseApiErrorEmpty | src/api/axios.ts:39-46 | the message is empty only when neither the server nor the error said anything |
| Api.OnResponseError | src/api/axios.ts:29-37 | always rejected; the registered handler runs iff there is one and the status is 401 |
| Api.SetUnauthorizedHandler | src/api/axios.ts:9-11 | the handler, or none, replaces the old one |
| Api.LastHandlerWins | src/api/axios.ts:7-37 | a 401 runs exactly the last handler registered |
| Api.WithAuthorization | src/api/axios.ts:21-27 | `Authorization: Bearer <token>` iff a non-empty token is stored; other headers kept |
| Api.BearerCarriesToken | src/api/axios.ts:21-27 | the stored token reads back from the header after `Bearer ` |
| Language.Dir | src/contexts/LanguageContext.tsx:196 | right-to-left iff Arabic |
| Language.StartsRightToLeft | src/contexts/LanguageContext.tsx:194-196 | a visit starts in Arabic, right to left |
| Language.T | src/contexts/LanguageContext.tsx:203-205 | the entry when present and non-empty, otherwise the key; so only the empty key can read as empty text |
| Language.EnteringTranslation | src/contexts/LanguageContext.tsx:203-205 | entering a non-empty translation changes what that key reads as in that language and nothing else; an empty one makes the key read as itself |
| PortfolioStore.SetPortfolio | src/store/portfolio.store.ts:16 | portfolio replaced, sections untouched |
| PortfolioStore.SetActiveSections | src/store/portfolio.store.ts:17 | sections replaced wholesale, portfolio untouched |
| PortfolioStore.Toggle | src/store/portfolio.store.ts:18-26 | only the key's membership flips; an absent key goes last; a present key is removed everywhere, the rest in order |
| PortfolioStore.ToggleTwiceRestores | src/store/portfolio.store.ts:18-26 | toggling an absent key twice restores the list |
| PortfolioStore.ToggleTwiceMovesLast | src/store/portfolio.store.ts:18-26 | toggling a listed key twice moves it to the end |
| PortfolioStore.ToggleKeepsNoDup | src/store/portfolio.store.ts:18-26 | a list without repeats keeps having none |
| PortfolioStore.Clear | src/store/portfolio.store.ts:27 | no portfolio and no sections |
| Onboarding.GuestOnly | src/components/GuestOnly.tsx:9-19 | renders iff signed out; a signed-in user goes to the dashboard with a configured subdomain, else to choose one |
| Onboarding.RequireAuth | src/components/RequireAuth.tsx:8-18 | signed out goes to login, replacing history and carrying `from` = the path; otherwise the page as it is |
| Onboarding.ChooseSubdomain | src/pages/ChooseSubdomain.tsx:11-21 | no session and no user goes to login; a configured user waits, then goes to dashboard or language choice; the picker renders iff neither |
| Onboarding.ChooseSubdomainSubmit | src/pages/ChooseSubdomain.tsx:28-33 | moves to the language choice iff the card's `canUpdate` (as written) held and the update succeeded |
| Onboarding.SelectLanguageMode | src/pages/SelectLanguageMode.tsx:14-24 | login, then choose subdomain, then dashboard when loaded with a mode, in that order; renders otherwise |
| Onboarding.HandleSelect | src/pages/SelectLanguageMode.tsx:26-36 | bootstrap iff no portfolio, and first; the update iff the bootstrap was skipped or succeeded; the dashboard iff every step succeeded, and last; nothing else, one effect per step taken |
| Onboarding.HandleSelectIsPrefix | src/pages/SelectLanguageMode.tsx:26-36 | the effects are always a prefix of the full run, the full run exactly when no step fails, and a cut run never navigates |
| Onboarding.VerifyEmail | src/pages/VerifyEmail.tsx:34-36 | renders iff signed out; otherwise dashboard with a subdomain, else choose one |
| Onboarding.EmailToUse | src/pages/VerifyEmail.tsx:14-17 | handed-over address, else pending one, else typed |
| Onboarding.OnResend | src/pages/VerifyEmail.tsx:29-32 | no request iff the address is empty |
| Onboarding.OnVerify | src/pages/VerifyEmail.tsx:19-27 | the request first; the move to choose a subdomain iff it succeeded; nothing else |
| Onboarding.EffectiveSubdomain | src/pages/Dashboard.tsx:30 | the user's subdomain when non-empty, else the portfolio's |
| Onboarding.Dashboard | src/pages/Dashboard.tsx:26-37 | login, then choose subdomain for a missing or `temp-` one, then language choice when loaded without a mode, in that order |
| Onboarding.DashboardShowsOnlyWhenOnboarded | src/pages/Dashboard.tsx:26-37 | the dashboard renders only for a signed-in user with a configured subdomain and a mode set or loading |
| Onboarding.GeneratedSubdomainMustBeChosen | src/components/GuestOnly.tsx:12-16 | a user holding the generated sign-up subdomain is sent to choose one by login and dashboard alike |
| Onboarding.GeneratedIsNeverConfigured | src/components/GuestOnly.tsx:12 | no generated `temp-` subdomain counts as configured, whatever its seed |
| Onboarding.Page | src/App.tsx:45-53 | every redirect replaces history; public routes render |
| Onboarding.RedirectsSettle | src/App.tsx:45-53 | from any route and state at most two redirects lead to a page that renders or waits |
| Onboarding.SectionEntries | src/pages/Dashboard.tsx:39-41 | a list gives `(String(x), {active:false})` per element, an object its entries in order, a string `(index, character)` per character, anything else none |
| Onboarding.ListedSectionsStartClosed | src/pages/Dashboard.tsx:39-41 | entries from a plain list of names are never switched on |
| Onboarding.SectionActive | src/pages/Dashboard.tsx:103-109 | on iff the metadata is an object whose `active` is boolean `true` |
| Onboarding.IsToggling | src/pages/Dashboard.tsx:110-112 | true iff the request in flight names this section |
| Onboarding.OneCardToggling | src/pages/Dashboard.tsx:110-112 | on a dashboard whose sections are an object, no two cards show "Updating..." together |
| Onboarding.RepeatedNameTogglesTwice | src/pages/Dashboard.tsx:39-41 | a list of names may repeat a name, and then two cards show "Updating..." together |

## Left out

- Rendering, styling, animation, toasts and the marketing and static pages.
  They take no decision.
- HTTP itself, including the react-query mutations, cache invalidation
  and `staleTime`. A remote result is an `Ok`/`Err` input.
- The debounce timers (450 ms default, 500 ms for availability). The
  model keeps only their consequence, a possibly stale answer, in
  `SubdomainCard.AvailabilityView`.
- `Date.now()` and `Math.random()` in the temporary subdomain. The nonce
  is a parameter.
- The contents of the translation dictionaries. They are a parameter.
- Writes to `document.documentElement`.
- The `useLanguage` guard that throws outside its provider.
- The JSON encoding of the stored user. Encoding and decoding are
  parameters, assumed to round-trip where a lemma needs it.
- The numeric input's parsing (`Number(...)`, `NaN`, `Infinity`). JSON
  numbers are integers here, so fractions and floating point are not
  modelled.
- JavaScript's ordering of integer-like keys first in objects. Objects
  keep insertion order.
- Strings are sequences of Unicode scalar values, not UTF-16 code units.
  Lengths differ for characters outside the Basic Multilingual Plane.
- Case mapping is ASCII-only. This is exact for the `/i` regexes and
  approximate for `toLowerCase` on non-ASCII letters.
- Translation keys that name `Object.prototype` members, such as
  `constructor`. The model sees only own entries.
- Section items that are not objects. The items list is typed as a list
  of records.
- The item cards' captions. The first eight characters of the id and
  four title-cased keys are display only.
- The bootstrap request the dashboard sends when it mounts.
- Concurrent uploads and mutations. Each completion is applied on its
  own, in sequence.
- AuthService.SanitizePart: does not promise the absence of a trailing
  `-`. Cutting to 24 characters after the hyphens are stripped can leave
  one, so the code does not guarantee it.

## Findings

| source | as written | input that shows it | evidently intended | confidence | as-written member | corrected member |
|---|---|---|---|---|---|---|
| src/components/auth/SubdomainManagerCard.tsx:25-30 | `canUpdate` asks only whether the last availability answer said `available`. It does not ask which name that answer was for. The query key trails the typed name by a 500 ms debounce. | Type `abc` and get the answer available. Then type `abd` and submit within 500 ms, before the new query starts fetching. | Enable the update only when the answer is about the name on screen. | not executed | SubdomainCard.StaleAnswerEnablesUpdate | SubdomainCard.HandleUpdateChecked |

=== FILE: api.dfy ===
/** The HTTP client's own rules: the bearer header taken from storage, the
    401 hook, and turning a failed call into a message. Remote calls
    themselves are not modelled; their results arrive as an `Outcome`. */
module Api {
  import opened Options
  import opened Text

  /** The storage key the session token lives under. */
  const TokenStorageKey := "auth_token"

  /** The error body the server sends (`{ message?, error? }`). */
  datatype ErrorBody = ErrorBody(message: Option<string>, error: Option<string>)

  datatype HttpResponse = HttpResponse(status: int, body: Option<ErrorBody>)

  /** What a rejected call carries: an HTTP client error with its message and
      maybe a response, some other `Error`, or any other thrown value. */
  datatype Failure =
    | AxiosFailure(message: string, response: Option<HttpResponse>)
    | ErrorFailure(message: string)
    | OtherFailure

  /** The result of a remote call. */
  datatype Outcome<T> = Ok(value: T) | Err(error: Failure)

  const DefaultFallback := "Something went wrong"

  /** A field of the error body, when present and non-empty. */
  function BodyField(error: Failure, useMessage: bool): Option<string>
    requires error.AxiosFailure?
  {
    if error.response.Some? && error.response.value.body.Some? then
      var b := error.response.value.body.value;
      var f := if useMessage then b.message else b.error;
      if f.Some? && f.value != "" then f else None
    else None
  }

  /** `parseApiError`: the server's `message`, else its `error`, else the
      error's own message; a value that is no `Error` at all gives the fallback. */
  function ParseApiError(error: Failure, fallback: string): (r: string)
    ensures error.AxiosFailure? && BodyField(error, true).Some? ==>
      r == BodyField(error, true).value
    ensures error.AxiosFailure? && BodyField(error, true).None? && BodyField(error, false).Some? ==>
      r == BodyField(error, false).value
    ensures error.AxiosFailure? && BodyField(error, true).None? && BodyField(error, false).None? ==>
      r == error.message
    ensures error.ErrorFailure? ==> r == error.message
    ensures error.OtherFailure? ==> r == fallback
  {
    match error
    case AxiosFailure(message, _) =>
      var apiMessage := BodyField(error, true).GetOr(BodyField(error, false).GetOr(""));
      // An empty own message falls through to the `Error` case, which
      // returns that same message.
      if apiMessage != "" then apiMessage else message
    case ErrorFailure(message) => message
    case OtherFailure => fallback
  }

  /** The message is empty only when the failure itself said nothing: an
      error with an empty message and no server text, or an empty fallback. */
  lemma ParseApiErrorEmpty(error: Failure, fallback: string)
    ensures ParseApiError(error, fallback) == "" ==>
      if error.OtherFailure? then fallback == ""
      else error.message == "" && (error.AxiosFailure? ==> BodyField(error, true).None? && BodyField(error, false).None?)
  {
  }

  /** The response interceptor's reaction to a failed call: which handler it
      runs, and whether the failure is passed on. */
  datatype Reaction<H> = Reaction(invoked: Option<H>, rejected: bool)

  /** A 401 response runs the registered handler; the failure is always
      passed on to the caller. */
  function OnResponseError<H>(error: Failure, handler: Option<H>): (r: Reaction<H>)
    ensures r.rejected
    ensures r.invoked.Some? <==>
      handler.Some? && error.AxiosFailure? && error.response.Some? && error.response.value.status == 401
    ensures r.invoked.Some? ==> r.invoked == handler
  {
    var unauthorized := error.AxiosFailure? && error.response.Some? && error.response.value.status == 401;
    Reaction(if unauthorized then handler else None, true)
  }

  /** The client's mutable setting: the one unauthorized handler. */
  datatype Client<H> = Client(onUnauthorized: Option<H>)

  /** `setUnauthorizedHandler`: the new handler (or none) replaces the old. */
  function SetUnauthorizedHandler<H>(c: Client<H>, handler: Option<H>): (r: Client<H>)
    ensures r.onUnauthorized == handler
  {
    Client(handler)
  }

  /** After a handler is registered, a 401 runs exactly that handler,
      whatever was registered before; after clearing, nothing runs. */
  lemma LastHandlerWins<H>(c: Client<H>, handler: Option<H>, body: Option<ErrorBody>, message: string)
    ensures OnResponseError(AxiosFailure(message, Some(HttpResponse(401, body))),
                            SetUnauthorizedHandler(c, handler).onUnauthorized).invoked == handler
  {
  }

  /** The request interceptor: `Authorization: Bearer <token>` (the form of
      section 2.1 of RFC 6750) when a non-empty token is stored; other
      headers are kept. */
  function WithAuthorization(storage: map<string, string>, headers: map<string, string>): (r: map<string, string>)
    ensures TokenStorageKey in storage && storage[TokenStorageKey] != "" ==>
      "Authorization" in r && r["Authorization"] == "Bearer " + storage[TokenStorageKey]
    ensures !(TokenStorageKey in storage && storage[TokenStorageKey] != "") ==> r == headers
    ensures r.Keys == headers.Keys || r.Keys == headers.Keys + {"Authorization"}
    ensures forall h :: h in headers && h != "Authorization" ==> h in r && r[h] == headers[h]
  {
    if TokenStorageKey in storage && storage[TokenStorageKey] != "" then
      headers["Authorization" := "Bearer " + storage[TokenStorageKey]]
    else headers
  }

  /** The stored token can be read back from the header the request carries. */
  lemma BearerCarriesToken(storage: map<string, string>, headers: map<string, string>)
    requires TokenStorageKey in storage && storage[TokenStorageKey] != ""
    ensures var a := WithAuthorization(storage, headers)["Authorization"];
      StartsWith(a, "Bearer ") && a[7..] == storage[TokenStorageKey]
  {
    var a := WithAuthorization(storage, headers)["Authorization"];
    assert a == "Bearer " + storage[TokenStorageKey];
    assert a[..7] == "Bearer ";
  }
}

=== FILE: auth_hooks.dfy ===
/** What the authentication hooks do with a successful answer, how the
    availability query is keyed, and the 401 handler they register. The
    toasts and the debounce timer are not modelled. */
module AuthHooks {
  import opened Options
  import opened Text
  import opened SubdomainText
  import opened Api
  import opened AuthTypes
  import opened AuthStore
  import SubdomainCard

  /** Registration succeeded: the registered address now awaits
      verification; nothing else changes. */
  function OnRegisterSuccess(s: Session, email: string): (r: Session)
    ensures r.state == s.state.(pendingEmail := Some(email))
    ensures email != "" ==> Lookup(r.storage, PendingEmailStorageKey) == Some(email)
  {
    SetPendingEmail(s, Some(email))
  }

  /** Login or Google sign-in succeeded: the store signs in only when the
      answer carries a non-empty token, and then with exactly the answer's
      user. */
  function OnSignInSuccess(s: Session, data: AuthSuccess, encode: AuthUser -> string): (r: Session)
    ensures !Filled(data.token) ==> r == s
    ensures Filled(data.token) ==>
      r.state == s.state.(token := data.token, user := data.user, isAuthenticated := true)
  {
    if Filled(data.token) then Login(s, data.token.value, data.user, encode) else s
  }

  /** Verification succeeded: sign in with a returned token, else adopt a
      returned user; the pending address is cleared in every case. */
  function OnVerifySuccess(s: Session, data: AuthSuccess, encode: AuthUser -> string): (r: Session)
    ensures r.state.pendingEmail.None? && PendingEmailStorageKey !in r.storage
    ensures Filled(data.token) ==>
      r.state.token == data.token && r.state.user == data.user && r.state.isAuthenticated
    ensures !Filled(data.token) && data.user.Some? ==>
      r.state.user == data.user && r.state.token == s.state.token
      && (r.state.isAuthenticated <==> Filled(s.state.token))
    ensures !Filled(data.token) && data.user.None? ==> r.state == s.state.(pendingEmail := None)
  {
    var signedIn := if Filled(data.token) then Login(s, data.token.value, data.user, encode)
                    else if data.user.Some? then SetAuth(s, None, data.user, encode)
                    else s;
    SetPendingEmail(signedIn, None)
  }

  /** Subdomain update succeeded: a returned user replaces the held one;
      otherwise a held user is kept with only its subdomain changed; a
      returned token is then applied. */
  function OnUpdateSubdomainSuccess(s: Session, data: AuthSuccess, subdomain: string,
                                    encode: AuthUser -> string): (r: Session)
    ensures r.state.user ==
      (if data.user.Some? then data.user
       else if s.state.user.Some? then Some(s.state.user.value.(subdomain := Some(subdomain)))
       else None)
    ensures r.state.token == (if Filled(data.token) then data.token else s.state.token)
    ensures r.state.pendingEmail == s.state.pendingEmail
    ensures data.user.None? && s.state.user.None? && !Filled(data.token) ==> r == s
  {
    var withUser := if data.user.Some? then SetAuth(s, None, data.user, encode)
                    else if s.state.user.Some? then
                      SetAuth(s, None, Some(s.state.user.value.(subdomain := Some(subdomain))), encode)
                    else s;
    if Filled(data.token) then SetAuth(withUser, data.token, None, encode) else withUser
  }

  /** Only the subdomain of a held user is changed when the answer carries
      no user. */
  lemma UpdateSubdomainKeepsProfile(s: Session, data: AuthSuccess, subdomain: string,
                                    encode: AuthUser -> string)
    requires data.user.None? && s.state.user.Some?
    ensures var u := OnUpdateSubdomainSuccess(s, data, subdomain, encode).state.user.value;
      && u.subdomain == Some(subdomain)
      && u.(subdomain := s.state.user.value.subdomain) == s.state.user.value
  {
  }

  /** Every success handler keeps the store in agreement with storage. */
  lemma {:induction false} HooksKeepSynced(s: Session, data: AuthSuccess, email: string, subdomain: string,
                                           encode: AuthUser -> string, decode: string -> Option<AuthUser>)
    requires Synced(s, decode) && RoundTrips(encode, decode)
    ensures Synced(OnRegisterSuccess(s, email), decode)
    ensures Synced(OnSignInSuccess(s, data, encode), decode)
    ensures Synced(OnVerifySuccess(s, data, encode), decode)
    ensures Synced(OnUpdateSubdomainSuccess(s, data, subdomain, encode), decode)
  {
    SetPendingEmailKeepsSynced(s, Some(email), decode);
    if Filled(data.token) {
      LoginKeepsSynced(s, data.token.value, data.user, encode, decode);
      SetPendingEmailKeepsSynced(Login(s, data.token.value, data.user, encode), None, decode);
    } else if data.user.Some? {
      SetAuthKeepsSynced(s, None, data.user, encode, decode);
      SetPendingEmailKeepsSynced(SetAuth(s, None, data.user, encode), None, decode);
    } else {
      SetPendingEmailKeepsSynced(s, None, decode);
    }
    var withUser := if data.user.Some? then SetAuth(s, None, data.user, encode)
                    else if s.state.user.Some? then
                      SetAuth(s, None, Some(s.state.user.value.(subdomain := Some(subdomain))), encode)
                    else s;
    if data.user.Some? {
      SetAuthKeepsSynced(s, None, data.user, encode, decode);
    } else if s.state.user.Some? {
      SetAuthKeepsSynced(s, None, Some(s.state.user.value.(subdomain := Some(subdomain))), encode, decode);
    }
    if Filled(data.token) {
      SetAuthKeepsSynced(withUser, data.token, None, encode, decode);
    }
  }

  /** After a verification that returned a token, a reload finds the user
      signed in and nothing awaiting verification. */
  lemma VerifiedSessionSurvivesReload(s: Session, data: AuthSuccess,
                                      encode: AuthUser -> string, decode: string -> Option<AuthUser>)
    requires Synced(s, decode) && RoundTrips(encode, decode)
    requires Filled(data.token)
    ensures var t := Initial(OnVerifySuccess(s, data, encode).storage, decode).state;
      t.isAuthenticated && t.token == data.token && t.pendingEmail.None?
  {
    HooksKeepSynced(s, data, "", "", encode, decode);
  }

  /** The availability query key: the input trimmed and lower-cased. It is
      the lower-cased input with the white space at both ends cut off. */
  function AvailabilityInput(input: string): (r: string)
    ensures |r| <= |input|
    ensures r == "" <==> IsBlank(input)
    ensures forall i :: 0 <= i < |r| ==> !IsUpper(r[i])
    ensures |r| > 0 ==> !IsSpace(r[0]) && !IsSpace(r[|r| - 1])
  {
    TrimEmptyIffBlank(input);
    ToLowerKeepsEnds(Trim(input));
    ToLower(Trim(input))
  }

  /** The key is the middle of the lower-cased input: only white space is cut
      from either end. */
  lemma AvailabilityInputIsSlice(input: string)
    ensures var r := AvailabilityInput(input); var n := LeadingBlank(input);
      && n + |r| <= |input|
      && r == ToLower(input)[n..n + |r|]
      && IsBlank(input[n + |r|..])
  {
    TrimIsSlice(input);
    LowerOfSlice(input, LeadingBlank(input), Trim(input));
  }

  /** Normalising a normalised key changes nothing, so the card's input and
      the query agree once the input is clean. */
  lemma AvailabilityInputIdempotent(input: string)
    ensures AvailabilityInput(AvailabilityInput(input)) == AvailabilityInput(input)
  {
    var r := AvailabilityInput(input);
    TrimOfTrimmed(r);
    ToLowerIdentity(r);
  }

  /** A string with no white space at either end is its own trim. */
  lemma TrimOfTrimmed(s: string)
    requires |s| > 0 ==> !IsSpace(s[0]) && !IsSpace(s[|s| - 1])
    ensures Trim(s) == s
  {
  }

  /** The query runs only for a key of at least three characters. */
  predicate QueryEnabled(key: string) {
    |key| >= 3
  }

  lemma NoSpaceTrims(s: string)
    requires forall i :: 0 <= i < |s| ==> !IsSpace(s[i])
    ensures Trim(s) == s
  {
  }

  /** A name the card has sanitised reaches the query unchanged, so the
      query runs exactly when the card considers the name long enough. */
  lemma SanitizedNameIsQueryKey(typed: string)
    ensures var clean := SubdomainCard.Sanitize(typed);
      AvailabilityInput(clean) == clean && (QueryEnabled(AvailabilityInput(clean)) <==> |clean| >= 3)
  {
    var clean := SubdomainCard.Sanitize(typed);
    assert forall i :: 0 <= i < |clean| ==> IsSubdomainChar(clean[i]);
    NoSpaceTrims(clean);
    LowerOfSubdomainChars(clean);
  }

  /** The interceptor with the hooks mounted (their 401 handler is
      `logout`) or unmounted (no handler): the session after a failed call,
      and whether the failure reaches the caller. */
  function OnApiFailure(s: Session, error: Failure, mounted: bool): (r: (Session, bool))
    ensures r.1
    ensures var unauthorized := error.AxiosFailure? && error.response.Some? && error.response.value.status == 401;
      r.0 == (if mounted && unauthorized then Logout(s) else s)
  {
    var reaction := OnResponseError(error, if mounted then Some(()) else None);
    (if reaction.invoked.Some? then Logout(s) else s, reaction.rejected)
  }

  /** A 401 while the hooks are mounted ends the session, in the store and
      for the next page load alike. */
  lemma UnauthorizedEndsSession(s: Session, body: Option<ErrorBody>, message: string,
                                decode: string -> Option<AuthUser>)
    ensures var r := OnApiFailure(s, AxiosFailure(message, Some(HttpResponse(401, body))), true).0;
      !r.state.isAuthenticated && !Initial(r.storage, decode).state.isAuthenticated
  {
  }
}

=== FILE: auth_service.dfy ===
/** The authentication service's local logic: reading the server's loosely
    shaped answers, and making up a temporary subdomain for a new account
    that did not choose one. The requests themselves are not modelled. */
module AuthService {
  import opened Options
  import opened Text
  import opened SubdomainText
  import opened AuthTypes

  /** The nested `data` object some endpoints wrap their answer in. */
  datatype RawData = RawData(token: Option<string>, accessToken: Option<string>, user: Option<AuthUser>)

  /** An authentication answer as the server may send it. */
  datatype RawAuth = RawAuth(
    message: Option<string>,
    token: Option<string>,
    accessToken: Option<string>,
    user: Option<AuthUser>,
    data: Option<RawData>)

  /** The places a token may come from, in the order they are tried. */
  function TokenCandidates(p: RawAuth): seq<Option<string>> {
    [p.token, p.accessToken,
     if p.data.Some? then p.data.value.token else None,
     if p.data.Some? then p.data.value.accessToken else None]
  }

  /** The first present value (`a ?? b ?? ...`): an empty string counts as present. */
  function FirstPresent(xs: seq<Option<string>>): (r: Option<string>)
    ensures r.None? <==> forall i :: 0 <= i < |xs| ==> xs[i].None?
    ensures r.Some? ==> exists i :: 0 <= i < |xs| && xs[i] == r && AllAbsentBefore(xs, i)
    decreases |xs|
  {
    if |xs| == 0 then None
    else if xs[0].Some? then xs[0]
    else
      var r := FirstPresent(xs[1..]);
      assert r.Some? ==> exists i :: 0 <= i < |xs| && xs[i] == r && AllAbsentBefore(xs, i) by {
        if r.Some? {
          var i :| 0 <= i < |xs[1..]| && xs[1..][i] == r && AllAbsentBefore(xs[1..], i);
          assert xs[i + 1] == r;
          assert AllAbsentBefore(xs, i + 1) by {
            forall j | 0 <= j < i + 1
              ensures xs[j].None?
            {
              if j > 0 {
                assert xs[j] == xs[1..][j - 1];
              }
            }
          }
        }
      }
      r
  }

  predicate AllAbsentBefore(xs: seq<Option<string>>, n: nat)
    requires n <= |xs|
  {
    forall j :: 0 <= j < n ==> xs[j].None?
  }

  /** `normalizeAuthResponse`: the first present token of `token`,
      `accessToken`, `data.token`, `data.accessToken`; the user, else the
      wrapped user; the message from the top level only. */
  function NormalizeAuthResponse(payload: Option<RawAuth>): (r: AuthSuccess)
    ensures payload.None? ==> r == AuthSuccess(None, None, None)
    ensures payload.Some? ==>
      var p := payload.value;
      && r.message == p.message
      && (p.token.Some? ==> r.token == p.token)
      && (p.token.None? && p.accessToken.Some? ==> r.token == p.accessToken)
      && (p.token.None? && p.accessToken.None? ==>
            r.token == (if p.data.Some? && p.data.value.token.Some? then p.data.value.token
                        else if p.data.Some? then p.data.value.accessToken else None))
      && (p.user.Some? ==> r.user == p.user)
      && (p.user.None? ==> r.user == (if p.data.Some? then p.data.value.user else None))
  {
    match payload
    case None => AuthSuccess(None, None, None)
    case Some(p) =>
      var cs := TokenCandidates(p);
      var token := FirstPresent(cs);
      assert |cs| == 4 && cs[0] == p.token && cs[1] == p.accessToken;
      assert p.data.Some? ==> cs[2] == p.data.value.token && cs[3] == p.data.value.accessToken;
      assert p.data.None? ==> cs[2] == None && cs[3] == None;
      assert token.Some? ==>
        (|| token == cs[0]
         || (cs[0].None? && token == cs[1])
         || (cs[0].None? && cs[1].None? && token == cs[2])
         || (cs[0].None? && cs[1].None? && cs[2].None? && token == cs[3])) by {
        if token.Some? {
          var i :| 0 <= i < 4 && cs[i] == token && AllAbsentBefore(cs, i);
          assert i > 0 ==> cs[0].None?;
          assert i > 1 ==> cs[1].None?;
          assert i > 2 ==> cs[2].None?;
        }
      }
      AuthSuccess(p.message, token,
                  if p.user.Some? then p.user else if p.data.Some? then p.data.value.user else None)
  }

  /** A token is found exactly when one of the four places holds one. */
  lemma NormalizedTokenPresence(p: RawAuth)
    ensures NormalizeAuthResponse(Some(p)).token.Some? <==>
      p.token.Some? || p.accessToken.Some?
      || (p.data.Some? && (p.data.value.token.Some? || p.data.value.accessToken.Some?))
  {
    var cs := TokenCandidates(p);
    if p.data.Some? {
      assert cs[2] == p.data.value.token && cs[3] == p.data.value.accessToken;
    }
  }

  /** Drops a leading run of `-`. */
  function DropLeadingHyphens(s: string): (r: string)
    ensures |r| <= |s| && r == s[|s| - |r|..]
    ensures r == "" || r[0] != '-'
    ensures forall i :: 0 <= i < |s| - |r| ==> s[i] == '-'
    decreases |s|
  {
    if |s| > 0 && s[0] == '-' then DropLeadingHyphens(s[1..]) else s
  }

  /** Drops a trailing run of `-`. */
  function DropTrailingHyphens(s: string): (r: string)
    ensures |r| <= |s| && r == s[..|r|]
    ensures r == "" || r[|r| - 1] != '-'
    ensures forall i :: |r| <= i < |s| ==> s[i] == '-'
    decreases |s|
  {
    if |s| > 0 && s[|s| - 1] == '-' then DropTrailingHyphens(s[..|s| - 1]) else s
  }

  const PartLength: nat := 24

  /** `sanitizeSubdomainPart`: lower-cased, reduced to `[a-z0-9-]`, stripped
      of hyphens at both ends, then cut to 24 characters. The cut may leave
      a trailing hyphen behind. */
  function SanitizePart(value: string): (r: string)
    ensures AllSubdomainChars(r)
    ensures |r| <= PartLength
    ensures r == "" || r[0] != '-'
    ensures var inner := DropTrailingHyphens(DropLeadingHyphens(KeepSubdomainChars(ToLower(value))));
      |r| <= |inner| && r == inner[..|r|] && (|r| == PartLength || r == inner)
  {
    var kept := KeepSubdomainChars(ToLower(value));
    var inner := DropTrailingHyphens(DropLeadingHyphens(kept));
    assert AllSubdomainChars(DropLeadingHyphens(kept));
    Take(inner, PartLength)
  }

  /** A part is left as it is exactly when it is already a sanitised part
      with no hyphen at either end. */
  lemma SanitizePartFixedPoint(value: string)
    ensures SanitizePart(value) == value <==>
      AllSubdomainChars(value) && |value| <= PartLength
      && (value == "" || (value[0] != '-' && value[|value| - 1] != '-'))
  {
    var kept := KeepSubdomainChars(ToLower(value));
    var lead := DropLeadingHyphens(kept);
    var inner := DropTrailingHyphens(lead);
    if AllSubdomainChars(value) && |value| <= PartLength
       && (value == "" || (value[0] != '-' && value[|value| - 1] != '-')) {
      LowerOfSubdomainChars(value);
      assert kept == value;
      assert lead == value;
      assert inner == value;
    }
  }

  const FallbackSeed := "user"

  /** `generateTemporarySubdomain` with the time-and-random suffix passed in
      as `nonce`: `temp-<seed>-<nonce>` cut to 48 characters, the seed
      sanitised and replaced by `user` when nothing of it survives. */
  function GenerateTemporary(seed: string, nonce: string): (r: string)
    ensures IsTemporary(r)
    ensures |r| <= 48
    ensures var part := SanitizePart(seed);
      StartsWith(r, TempPrefix + (if part == "" then FallbackSeed else part) + "-")
    ensures var part := SanitizePart(seed);
      var full := TempPrefix + (if part == "" then FallbackSeed else part) + "-" + nonce;
      |r| <= |full| && r == full[..|r|] && (|r| == 48 || r == full)
  {
    var part := SanitizePart(seed);
    var safe := if part == "" then FallbackSeed else part;
    TemporaryShape(safe, nonce);
    Take(TempPrefix + safe + "-" + nonce, 48)
  }

  /** The cut to 48 characters keeps `temp-<safe>-` whole for a safe part
      of at most 24 characters. */
  lemma TemporaryShape(safe: string, nonce: string)
    requires |safe| <= PartLength
    ensures var r := Take(TempPrefix + safe + "-" + nonce, 48);
      StartsWith(r, TempPrefix + safe + "-") && IsTemporary(r)
  {
    var head := TempPrefix + safe + "-";
    var full := head + nonce;
    assert full[..|head|] == head;
    TakeKeepsPrefix(full, head, 48);
    assert head == TempPrefix + (safe + "-");
    StartsWithShorter(Take(full, 48), TempPrefix, safe + "-");
  }

  /** The sign-up form. */
  datatype RegisterPayload = RegisterPayload(
    name: string, email: string, password: string, kind: Option<string>, subdomain: Option<string>)

  /** The seed for a generated sign-up subdomain: the name, else the email,
      else `user`. */
  function RegisterSeed(p: RegisterPayload): (r: string)
    ensures p.name != "" ==> r == p.name
    ensures p.name == "" && p.email != "" ==> r == p.email
    ensures p.name == "" && p.email == "" ==> r == FallbackSeed
  {
    if p.name != "" then p.name else if p.email != "" then p.email else FallbackSeed
  }

  /** A supplied subdomain with something other than white space in it. */
  predicate SuppliedSubdomain(s: Option<string>) {
    s.Some? && !IsBlank(s.value)
  }

  /** The body `register` sends: the form with a subdomain always filled
      in, the supplied one kept verbatim when it is not blank. */
  function RegisterRequest(p: RegisterPayload, nonce: string): (r: RegisterPayload)
    ensures r.name == p.name && r.email == p.email && r.password == p.password && r.kind == p.kind
    ensures r.subdomain.Some?
    ensures SuppliedSubdomain(p.subdomain) ==> r.subdomain == p.subdomain
    ensures !SuppliedSubdomain(p.subdomain) ==>
      IsTemporary(r.subdomain.value) && r.subdomain.value == GenerateTemporary(RegisterSeed(p), nonce)
  {
    var sub := if SuppliedSubdomain(p.subdomain) then p.subdomain.value
               else GenerateTemporary(RegisterSeed(p), nonce);
    p.(subdomain := Some(sub))
  }

  /** The Google sign-in request. */
  datatype GooglePayload = GooglePayload(idToken: string, kind: Option<string>, subdomain: Option<string>)

  const GoogleSeed := "google-user"

  /** The body `googleAuth` sends: as for sign-up, with the fixed seed
      `google-user`. */
  function GoogleRequest(p: GooglePayload, nonce: string): (r: GooglePayload)
    ensures r.idToken == p.idToken && r.kind == p.kind
    ensures r.subdomain.Some?
    ensures SuppliedSubdomain(p.subdomain) ==> r.subdomain == p.subdomain
    ensures !SuppliedSubdomain(p.subdomain) ==>
      IsTemporary(r.subdomain.value) && r.subdomain.value == GenerateTemporary(GoogleSeed, nonce)
  {
    var sub := if SuppliedSubdomain(p.subdomain) then p.subdomain.value
               else GenerateTemporary(GoogleSeed, nonce);
    p.(subdomain := Some(sub))
  }
}

=== FILE: auth_store.dfy ===
/** The session store: the signed-in user, the token, the e-mail waiting
    for verification and the signed-in flag, mirrored into browser storage
    (a map from key to text). How a user is written to and read back from
    storage is passed in as `encode` and `decode`. */
module AuthStore {
  import opened Options
  import opened Api
  import opened AuthTypes

  const UserStorageKey := "auth_user"
  const PendingEmailStorageKey := "pending_verify_email"

  type Storage = map<string, string>

  /** `localStorage.getItem`. */
  function Lookup(storage: Storage, key: string): (r: Option<string>)
    ensures r.Some? <==> key in storage
    ensures r.Some? ==> r.value == storage[key]
  {
    if key in storage then Some(storage[key]) else None
  }

  datatype AuthState = AuthState(
    user: Option<AuthUser>,
    token: Option<string>,
    pendingEmail: Option<string>,
    isAuthenticated: bool)

  /** The store together with the storage it mirrors. */
  datatype Session = Session(state: AuthState, storage: Storage)

  /** Writing a user and reading it back gives the user again; a written
      user is never the empty text. */
  ghost predicate RoundTrips(encode: AuthUser -> string, decode: string -> Option<AuthUser>) {
    forall u :: encode(u) != "" && decode(encode(u)) == Some(u)
  }

  /** `getInitialUser`: nothing for a missing or empty entry, otherwise
      whatever the entry decodes to (nothing when it does not parse). */
  function StoredUser(storage: Storage, decode: string -> Option<AuthUser>): (r: Option<AuthUser>)
    ensures !Filled(Lookup(storage, UserStorageKey)) ==> r.None?
    ensures Filled(Lookup(storage, UserStorageKey)) ==> r == decode(storage[UserStorageKey])
  {
    var raw := Lookup(storage, UserStorageKey);
    if Filled(raw) then decode(raw.value) else None
  }

  /** The store as created on page load: everything read from storage, and
      signed in exactly when a non-empty token is stored. */
  function Initial(storage: Storage, decode: string -> Option<AuthUser>): (s: Session)
    ensures s.storage == storage
    ensures s.state.token == Lookup(storage, TokenStorageKey)
    ensures s.state.pendingEmail == Lookup(storage, PendingEmailStorageKey)
    ensures s.state.user == StoredUser(storage, decode)
    ensures s.state.isAuthenticated <==> TokenStorageKey in storage && storage[TokenStorageKey] != ""
  {
    var token := Lookup(storage, TokenStorageKey);
    Session(AuthState(StoredUser(storage, decode), token, Lookup(storage, PendingEmailStorageKey), Filled(token)),
            storage)
  }

  /** `setAuth`: an omitted token or user keeps the current one; the flag
      follows the token's truthiness; storage is written only for a truthy
      token or a present user and no key is ever removed. The pending
      e-mail is untouched. */
  function SetAuth(s: Session, token: Option<string>, user: Option<AuthUser>,
                   encode: AuthUser -> string): (r: Session)
    ensures r.state.token == (if token.Some? then token else s.state.token)
    ensures r.state.user == (if user.Some? then user else s.state.user)
    ensures r.state.isAuthenticated <==> Filled(r.state.token)
    ensures r.state.pendingEmail == s.state.pendingEmail
    ensures s.storage.Keys <= r.storage.Keys
    ensures Filled(r.state.token) ==> Lookup(r.storage, TokenStorageKey) == r.state.token
    ensures r.state.user.Some? ==> Lookup(r.storage, UserStorageKey) == Some(encode(r.state.user.value))
    ensures forall k :: k != TokenStorageKey && k != UserStorageKey ==>
      Lookup(r.storage, k) == Lookup(s.storage, k)
    ensures !Filled(r.state.token) ==> Lookup(r.storage, TokenStorageKey) == Lookup(s.storage, TokenStorageKey)
    ensures r.state.user.None? ==> Lookup(r.storage, UserStorageKey) == Lookup(s.storage, UserStorageKey)
  {
    var nextToken := if token.Some? then token else s.state.token;
    var nextUser := if user.Some? then user else s.state.user;
    var st1 := if Filled(nextToken) then s.storage[TokenStorageKey := nextToken.value] else s.storage;
    var st2 := if nextUser.Some? then st1[UserStorageKey := encode(nextUser.value)] else st1;
    Session(s.state.(token := nextToken, user := nextUser, isAuthenticated := Filled(nextToken)), st2)
  }

  /** `setPendingEmail`: the state holds exactly the given value; storage
      holds it when it is non-empty and loses the key otherwise. */
  function SetPendingEmail(s: Session, email: Option<string>): (r: Session)
    ensures r.state == s.state.(pendingEmail := email)
    ensures Filled(email) ==> Lookup(r.storage, PendingEmailStorageKey) == email
    ensures !Filled(email) ==> PendingEmailStorageKey !in r.storage
    ensures forall k :: k != PendingEmailStorageKey ==> Lookup(r.storage, k) == Lookup(s.storage, k)
  {
    var storage := if Filled(email) then s.storage[PendingEmailStorageKey := email.value]
                   else s.storage - {PendingEmailStorageKey};
    Session(s.state.(pendingEmail := email), storage)
  }

  /** `login`: the token is stored and held, the user is the given one or
      none, and the session is signed in. A missing user does not clear a
      previously stored one. */
  function Login(s: Session, token: string, user: Option<AuthUser>, encode: AuthUser -> string): (r: Session)
    ensures r.state == s.state.(token := Some(token), user := user, isAuthenticated := true)
    ensures Lookup(r.storage, TokenStorageKey) == Some(token)
    ensures user.Some? ==> Lookup(r.storage, UserStorageKey) == Some(encode(user.value))
    ensures forall k :: k != TokenStorageKey && (user.Some? ==> k != UserStorageKey) ==>
      Lookup(r.storage, k) == Lookup(s.storage, k)
  {
    var st1 := s.storage[TokenStorageKey := token];
    var st2 := if user.Some? then st1[UserStorageKey := encode(user.value)] else st1;
    Session(s.state.(token := Some(token), user := user, isAuthenticated := true), st2)
  }

  /** `logout`: the three keys leave storage, everything else stays, and
      the state is emptied. */
  function Logout(s: Session): (r: Session)
    ensures r.state == AuthState(None, None, None, false)
    ensures TokenStorageKey !in r.storage && UserStorageKey !in r.storage
    ensures PendingEmailStorageKey !in r.storage
    ensures forall k :: k != TokenStorageKey && k != UserStorageKey && k != PendingEmailStorageKey ==>
      Lookup(r.storage, k) == Lookup(s.storage, k)
  {
    Session(AuthState(None, None, None, false),
            s.storage - {TokenStorageKey, UserStorageKey, PendingEmailStorageKey})
  }

  /** Two optional texts that browser storage cannot tell apart: equal, or
      both missing or empty. */
  predicate SameText(a: Option<string>, b: Option<string>) {
    if Filled(a) then a == b else !Filled(b)
  }

  /** The store agrees with its storage: reloading the page would give the
      same token, the same signed-in flag, the same pending e-mail, and the
      held user when there is one. */
  ghost predicate Synced(s: Session, decode: string -> Option<AuthUser>) {
    && Lookup(s.storage, TokenStorageKey) == s.state.token
    && (s.state.isAuthenticated <==> Filled(s.state.token))
    && SameText(Lookup(s.storage, PendingEmailStorageKey), s.state.pendingEmail)
    && (s.state.user.Some? ==> StoredUser(s.storage, decode) == s.state.user)
  }

  /** A freshly loaded store agrees with its storage. */
  lemma InitialSynced(storage: Storage, decode: string -> Option<AuthUser>)
    ensures Synced(Initial(storage, decode), decode)
  {
  }

  /** Reloading an agreeing store restores what it held. */
  lemma ReloadRestores(s: Session, decode: string -> Option<AuthUser>)
    requires Synced(s, decode)
    ensures var t := Initial(s.storage, decode).state;
      && t.token == s.state.token
      && t.isAuthenticated == s.state.isAuthenticated
      && SameText(t.pendingEmail, s.state.pendingEmail)
      && (s.state.user.Some? ==> t.user == s.state.user)
  {
  }

  /** `setAuth` keeps the store in agreement with storage, provided the
      token it is given, if any, is not empty. */
  lemma SetAuthKeepsSynced(s: Session, token: Option<string>, user: Option<AuthUser>,
                           encode: AuthUser -> string, decode: string -> Option<AuthUser>)
    requires Synced(s, decode) && RoundTrips(encode, decode)
    requires token.None? || token.value != ""
    ensures Synced(SetAuth(s, token, user, encode), decode)
  {
    var r := SetAuth(s, token, user, encode);
    if r.state.user.Some? {
      assert decode(encode(r.state.user.value)) == r.state.user;
    }
  }

  /** An empty token given to `setAuth` is held but not written: storage
      still holds the old token, so the store reads signed out while a
      reload signs back in. */
  lemma EmptyTokenSplitsStore(encode: AuthUser -> string, decode: string -> Option<AuthUser>)
    ensures var s := Initial(map[TokenStorageKey := "abc"], decode);
      var r := SetAuth(s, Some(""), None, encode);
      && !r.state.isAuthenticated
      && Initial(r.storage, decode).state.isAuthenticated
  {
  }

  lemma SetPendingEmailKeepsSynced(s: Session, email: Option<string>, decode: string -> Option<AuthUser>)
    requires Synced(s, decode)
    ensures Synced(SetPendingEmail(s, email), decode)
  {
    var r := SetPendingEmail(s, email);
    assert Lookup(r.storage, UserStorageKey) == Lookup(s.storage, UserStorageKey);
  }

  /** `login` keeps the store in agreement with storage for a non-empty
      token. */
  lemma LoginKeepsSynced(s: Session, token: string, user: Option<AuthUser>,
                         encode: AuthUser -> string, decode: string -> Option<AuthUser>)
    requires Synced(s, decode) && RoundTrips(encode, decode)
    requires token != ""
    ensures Synced(Login(s, token, user, encode), decode)
  {
    var r := Login(s, token, user, encode);
    assert Lookup(r.storage, PendingEmailStorageKey) == Lookup(s.storage, PendingEmailStorageKey);
    if user.Some? {
      assert decode(encode(user.value)) == user;
    }
  }

  /** A login whose answer carries no user leaves the previous user in
      storage: the store holds none, yet a reload brings the old one back. */
  lemma LoginWithoutUserKeepsStoredUser(s: Session, token: string, u: AuthUser,
                                        encode: AuthUser -> string, decode: string -> Option<AuthUser>)
    requires RoundTrips(encode, decode)
    requires Lookup(s.storage, UserStorageKey) == Some(encode(u))
    ensures var r := Login(s, token, None, encode);
      r.state.user.None? && Initial(r.storage, decode).state.user == Some(u)
  {
    assert decode(encode(u)) == Some(u);
  }

  lemma LogoutKeepsSynced(s: Session, decode: string -> Option<AuthUser>)
    ensures Synced(Logout(s), decode)
  {
  }

  /** After `logout` a reload finds nobody signed in. */
  lemma LogoutSurvivesReload(s: Session, decode: string -> Option<AuthUser>)
    ensures var t := Initial(Logout(s).storage, decode).state;
      t == AuthState(None, None, None, false)
  {
  }
}

=== FILE: auth_types.dfy ===
/** The session records exchanged with the server. A field that may be
    absent or `null` is an `Option`; absent and `null` are not told apart. */
module AuthTypes {
  import opened Options

  datatype AuthUser = AuthUser(
    id: Option<string>,
    name: Option<string>,
    email: Option<string>,
    kind: Option<string>,
    subdomain: Option<string>,
    isVerified: Option<bool>)

  /** A normalised authentication response. */
  datatype AuthSuccess = AuthSuccess(message: Option<string>, token: Option<string>, user: Option<AuthUser>)

  /** A present, non-empty string: JavaScript truthiness of `string | undefined`. */
  predicate Filled(s: Option<string>) {
    s.Some? && s.value != ""
  }
}

=== FILE: editor_helpers.dfy ===
/** The pure helpers at the top of the section editor: the image path
    resolver, the key and value heuristics that pick a field's control, and
    the default new-item templates. */
module EditorHelpers {
  import opened Text
  import opened Options
  import opened Json

  /** The API origin that server-relative image paths are resolved against. */
  const ApiOrigin := "http://localhost:5000"

  /** Already a fully qualified reference: an absolute URL or a data URI. */
  predicate IsQualified(p: string) {
    StartsWith(p, "http://") || StartsWith(p, "https://") || StartsWith(p, "data:")
  }

  /** `imageFromPath`: the renderable URL for a stored image reference. */
  function ImageFromPath(path: string): (r: string)
    ensures path == "" ==> r == ""
    ensures IsQualified(path) ==> r == path
    ensures StartsWith(path, "/") ==> r == ApiOrigin + path && IsQualified(r)
    ensures !StartsWith(path, "/") ==> r == path
  {
    if path == "" then ""
    else if IsQualified(path) then
      QualifiedIsNotRooted(path);
      path
    else if StartsWith(path, "/") then
      assert (ApiOrigin + path)[..7] == "http://";
      ApiOrigin + path
    else path
  }

  lemma QualifiedIsNotRooted(p: string)
    requires IsQualified(p)
    ensures !StartsWith(p, "/")
  {
    assert p[0] == 'h' || p[0] == 'd' by {
      if StartsWith(p, "http://") {
        assert p[..7][0] == p[0];
      } else if StartsWith(p, "https://") {
        assert p[..8][0] == p[0];
      } else {
        assert p[..5][0] == p[0];
      }
    }
  }

  /** Resolving an already resolved reference changes nothing. */
  lemma ImageFromPathIdempotent(path: string)
    ensures ImageFromPath(ImageFromPath(path)) == ImageFromPath(path)
  {
    var r := ImageFromPath(path);
    if StartsWith(path, "/") {
      assert IsQualified(r);
    }
  }

  /** The key fragments `isImageKey` looks for, case-insensitively. */
  const ImageKeyWords: seq<string> :=
    ["image", "img", "photo", "logo", "avatar", "thumbnail", "banner", "cover", "icon"]

  /** The key fragments `isDateKey` looks for, case-insensitively. */
  const DateKeyWords: seq<string> := ["date", "from", "to", "start", "end"]

  /** The file endings `looksLikeImage` accepts, case-insensitively. */
  const ImageExtensions: seq<string> := [".png", ".jpg", ".jpeg", ".gif", ".webp", ".svg"]

  /** Some word occurs in `s`, ignoring ASCII case (a regex alternation with the `i` flag). */
  predicate MentionsAny(s: string, words: seq<string>) {
    exists w :: w in words && Contains(ToLower(s), w)
  }

  predicate IsImageKey(key: string) {
    MentionsAny(key, ImageKeyWords)
  }

  predicate IsDateKey(key: string) {
    MentionsAny(key, DateKeyWords)
  }

  /** `looksLikeImage` on a string value. */
  predicate LooksLikeImage(value: string) {
    (exists e :: e in ImageExtensions && EndsWith(ToLower(value), e))
    || Contains(value, "/uploads/")
  }

  /** A key that mentions a word keeps mentioning it once something is appended,
      so the element and member paths under an image-ish key are image-ish too. */
  lemma MentionsAnyExtend(s: string, tail: string, words: seq<string>)
    requires MentionsAny(s, words)
    ensures MentionsAny(s + tail, words)
  {
    var w :| w in words && Contains(ToLower(s), w);
    ToLowerAppend(s, tail);
    ContainsExtend(ToLower(s), ToLower(tail), w);
  }

  /** `ensureLocalized`: a value already following the localized-text
      convention is kept, anything else becomes `{ ar: '', en: '' }`. */
  function EnsureLocalized(value: Option<Json>): (r: Json)
    ensures IsLocalized(r)
    ensures value.Some? && IsLocalized(value.value) ==> r == value.value
    ensures !(value.Some? && IsLocalized(value.value)) ==> r == EmptyLocalized
  {
    if value.Some? && IsLocalized(value.value) then value.value else EmptyLocalized
  }

  /** A value a blank template may hold: an empty string, zero, an empty list,
      or an empty localized text. */
  predicate IsBlankValue(j: Json) {
    j == Str("") || j == Num(0) || j == Arr([]) || j == EmptyLocalized
  }

  /** The sections with a bespoke default template. */
  const KnownSections: seq<string> := ["skills", "projects", "services"]

  /** `defaultItemTemplateBySection`: the skeleton for a new item when a
      section has none yet, chosen by the lower-cased section name. */
  function DefaultItemTemplate(sectionName: string): (r: Fields)
    ensures DistinctKeys(r)
    ensures forall i :: 0 <= i < |r| ==> IsBlankValue(r[i].value)
    ensures Get(r, "title") == Some(EmptyLocalized) <==> ToLower(sectionName) != "skills"
    ensures ToLower(sectionName) != "skills" ==> Get(r, "desc") == Some(EmptyLocalized)
    ensures ToLower(sectionName) == "projects" ==>
      Keys(r) == ["title", "desc", "images"] && Get(r, "images") == Some(Arr([]))
    ensures ToLower(sectionName) == "services" ==>
      Keys(r) == ["title", "desc", "image"] && Get(r, "image") == Some(Str(""))
    ensures ToLower(sectionName) !in KnownSections ==> Keys(r) == ["title", "desc"]
  {
    var loc := EnsureLocalized(None);
    match ToLower(sectionName)
    case "skills" => SkillsSkeletonFacts(); SkillsSkeleton(loc)
    case "projects" => ProjectsSkeletonFacts(); ProjectsSkeleton(loc)
    case "services" => ServicesSkeletonFacts(); ServicesSkeleton(loc)
    case _ => PlainSkeletonFacts(); PlainSkeleton(loc)
  }

  function SkillsSkeleton(loc: Json): Fields {
    [Entry("skillName", loc), Entry("skillImage", Str("")),
     Entry("skillRate", Num(0)), Entry("skillCategory", loc)]
  }

  function ProjectsSkeleton(loc: Json): Fields {
    [Entry("title", loc), Entry("desc", loc), Entry("images", Arr([]))]
  }

  function ServicesSkeleton(loc: Json): Fields {
    [Entry("title", loc), Entry("desc", loc), Entry("image", Str(""))]
  }

  function PlainSkeleton(loc: Json): Fields {
    [Entry("title", loc), Entry("desc", loc)]
  }

  /** A skeleton whose keys are distinct and whose values are all blank. */
  ghost predicate BlankSkeleton(r: Fields) {
    DistinctKeys(r) && forall i :: 0 <= i < |r| ==> IsBlankValue(r[i].value)
  }

  lemma SkillsSkeletonFacts()
    ensures var r := SkillsSkeleton(EmptyLocalized);
      && Keys(r) == ["skillName", "skillImage", "skillRate", "skillCategory"]
      && BlankSkeleton(r) && Get(r, "title") == None
      && Get(r, "skillRate") == Some(Num(0))
      && Get(r, "skillName") == Some(EmptyLocalized)
      && Get(r, "skillCategory") == Some(EmptyLocalized)
      && Get(r, "skillImage") == Some(Str(""))
  {
    var r := SkillsSkeleton(EmptyLocalized);
    assert Keys(r) == ["skillName", "skillImage", "skillRate", "skillCategory"];
  }

  lemma ProjectsSkeletonFacts()
    ensures var r := ProjectsSkeleton(EmptyLocalized);
      && Keys(r) == ["title", "desc", "images"]
      && BlankSkeleton(r) && Get(r, "title") == Some(EmptyLocalized)
      && Get(r, "desc") == Some(EmptyLocalized) && Get(r, "images") == Some(Arr([]))
  {
    var r := ProjectsSkeleton(EmptyLocalized);
    assert Keys(r) == ["title", "desc", "images"];
  }

  lemma ServicesSkeletonFacts()
    ensures var r := ServicesSkeleton(EmptyLocalized);
      && Keys(r) == ["title", "desc", "image"]
      && BlankSkeleton(r) && Get(r, "title") == Some(EmptyLocalized)
      && Get(r, "desc") == Some(EmptyLocalized) && Get(r, "image") == Some(Str(""))
  {
    var r := ServicesSkeleton(EmptyLocalized);
    assert Keys(r) == ["title", "desc", "image"];
  }

  lemma PlainSkeletonFacts()
    ensures var r := PlainSkeleton(EmptyLocalized);
      && Keys(r) == ["title", "desc"]
      && BlankSkeleton(r) && Get(r, "title") == Some(EmptyLocalized)
      && Get(r, "desc") == Some(EmptyLocalized)
  {
    var r := PlainSkeleton(EmptyLocalized);
    assert Keys(r) == ["title", "desc"];
  }

  /** The skills skeleton, whatever the letter case of the name. */
  lemma SkillsTemplate(sectionName: string)
    requires ToLower(sectionName) == "skills"
    ensures var r := DefaultItemTemplate(sectionName);
      && Keys(r) == ["skillName", "skillImage", "skillRate", "skillCategory"]
      && Get(r, "skillRate") == Some(Num(0))
      && Get(r, "skillName") == Some(EmptyLocalized)
      && Get(r, "skillCategory") == Some(EmptyLocalized)
      && Get(r, "skillImage") == Some(Str(""))
  {
    SkillsSkeletonFacts();
  }

  /** A camel-case key ending in `Image` (`profileImage`, `coverImage`) is
      an image key, whatever comes before. */
  lemma ImageSuffixedKeys(k: string)
    ensures IsImageKey(k + "Image")
  {
    ToLowerAppend(k, "Image");
    var lowered := ToLower(k) + "image";
    assert ToLower(k + "Image") == lowered;
    assert lowered[|k|..|k| + 5] == "image";
    ContainsAt(lowered, "image", |k|);
    assert "image" in ImageKeyWords;
  }

  /** The date heuristic is a bare substring test, so every key mentioning
      `photo` (which contains `to`) is date-like as well as image-like. */
  lemma PhotoKeysAreDateKeys(k: string)
    requires Contains(ToLower(k), "photo")
    ensures IsImageKey(k) && IsDateKey(k)
  {
    var s := ToLower(k);
    var i := ContainsIndex(s, "photo");
    assert s[i + 3..i + 5] == s[i..i + 5][3..5] == "to";
    ContainsAt(s, "to", i + 3);
    assert "to" in DateKeyWords;
    assert "photo" in ImageKeyWords;
  }

  /** Any file name with an image extension, in any letter case, looks like
      an image. */
  lemma ImageFileNames(name: string, ext: string)
    requires ToLower(ext) in ImageExtensions
    ensures LooksLikeImage(name + ext)
  {
    ToLowerAppend(name, ext);
    var lowered := ToLower(name) + ToLower(ext);
    assert lowered[|lowered| - |ToLower(ext)|..] == ToLower(ext);
  }

  /** Any path through an `/uploads/` directory looks like an image. */
  lemma UploadPathsLookLikeImages(before: string, after: string)
    ensures LooksLikeImage(before + "/uploads/" + after)
  {
    var s := before + "/uploads/" + after;
    assert s[|before|..|before| + 9] == "/uploads/";
    ContainsAt(s, "/uploads/", |before|);
  }
}

=== FILE: editor_page.dfy ===
/** The section editor page: the three forms it keeps (section, new item,
    edited item), the required-field check guarding a save, and the
    registry of uploaded image paths with the reducers that attach them. */
module EditorPage {
  import opened Options
  import opened Text
  import opened Seqs
  import opened Json
  import opened EditorHelpers
  import opened Api
  import FieldEdits

  /** The section form once the section's data has loaded: an object's
      entries without `_id`; anything else leaves the form as it was. */
  function LoadSectionForm(prev: Fields, data: Option<Json>): (r: Fields)
    ensures data.Some? && data.value.Obj? ==>
      && !HasKey(r, "_id")
      && Keys(r) == RemoveAll(Keys(data.value.fields), "_id")
      && forall k :: k != "_id" ==> Get(r, k) == Get(data.value.fields, k)
    ensures !(data.Some? && data.value.Obj?) ==> r == prev
  {
    if data.Some? && data.value.Obj? then Delete(data.value.fields, "_id") else prev
  }

  /** An item without its identifiers `id` and `_id`. */
  function StripIds(item: Fields): (r: Fields)
    ensures !HasKey(r, "id") && !HasKey(r, "_id")
    ensures Keys(r) == RemoveAll(RemoveAll(Keys(item), "id"), "_id")
    ensures forall k :: k != "id" && k != "_id" ==> Get(r, k) == Get(item, k)
    ensures DistinctKeys(item) ==> DistinctKeys(r)
  {
    Delete(Delete(item, "id"), "_id")
  }

  /** The new-item form: the first existing item stripped of its
      identifiers, or the section's default template when there is none. */
  function NewItemTemplate(sectionName: string, items: seq<Fields>): (r: Fields)
    ensures |items| > 0 ==>
      && !HasKey(r, "id") && !HasKey(r, "_id")
      && Keys(r) == RemoveAll(RemoveAll(Keys(items[0]), "id"), "_id")
      && forall k :: k != "id" && k != "_id" ==> Get(r, k) == Get(items[0], k)
    ensures |items| == 0 ==> r == DefaultItemTemplate(sectionName)
    ensures |items| == 0 || DistinctKeys(items[0]) ==> DistinctKeys(r)
  {
    if |items| == 0 then DefaultItemTemplate(sectionName) else StripIds(items[0])
  }

  /** The item list of the loaded data: an array's elements, otherwise none. */
  function ItemsOf(data: Option<Json>): (r: seq<Json>)
    ensures data.Some? && data.value.Arr? ==> r == data.value.items
    ensures !(data.Some? && data.value.Arr?) ==> r == []
  {
    if data.Some? && data.value.Arr? then data.value.items else []
  }

  /** The string entries of a list, in order (`filter(k => typeof k === 'string')`). */
  function Strings(items: seq<Json>): (r: seq<string>)
    ensures |r| <= |items|
    ensures forall i :: 0 <= i < |r| ==> Str(r[i]) in items
    ensures forall i :: 0 <= i < |items| && items[i].Str? ==> items[i].s in r
    ensures (forall i :: 0 <= i < |items| ==> items[i].Str?) ==> |r| == |items|
    decreases |items|
  {
    if |items| == 0 then []
    else (if items[0].Str? then [items[0].s] else []) + Strings(items[1..])
  }

  /** The filter keeps the order of the list: filtering two lists one after
      the other gives the two results one after the other. */
  lemma {:induction false} StringsAppend(a: seq<Json>, b: seq<Json>)
    ensures Strings(a + b) == Strings(a) + Strings(b)
    decreases |a|
  {
    if |a| == 0 {
      assert a + b == b;
    } else {
      assert (a + b)[1..] == a[1..] + b;
      StringsAppend(a[1..], b);
    }
  }

  /** One element at a time: a string is kept as its text, anything else dropped. */
  lemma StringsSingle(j: Json)
    ensures Strings([j]) == if j.Str? then [j.s] else []
  {
    assert [j][1..] == [];
  }

  /** `sectionMeta`: the section's own metadata object, when the metadata
      of all sections is an object and holds one for this section. */
  function SectionMeta(allMeta: Option<Json>, sectionName: string): (r: Option<Fields>)
    ensures r.Some? <==> allMeta.Some? && allMeta.value.Obj?
                         && Get(allMeta.value.fields, sectionName).Some?
                         && Get(allMeta.value.fields, sectionName).value.Obj?
    ensures r.Some? ==> Get(allMeta.value.fields, sectionName) == Some(Obj(r.value))
  {
    if allMeta.Some? && allMeta.value.Obj? then
      match Get(allMeta.value.fields, sectionName)
      case Some(Obj(meta)) => Some(meta)
      case _ => None
    else None
  }

  /** `requiredKeys`: the string entries of the section metadata's
      `required` list, in order; none when there is no such list. */
  function RequiredKeys(allMeta: Option<Json>, sectionName: string): (r: seq<string>)
    ensures SectionMeta(allMeta, sectionName).None? ==> r == []
    ensures SectionMeta(allMeta, sectionName).Some? ==>
      var required := Get(SectionMeta(allMeta, sectionName).value, "required");
      && (required.Some? && required.value.Arr? ==> r == Strings(required.value.items))
      && (!(required.Some? && required.value.Arr?) ==> r == [])
  {
    match SectionMeta(allMeta, sectionName)
    case None => []
    case Some(meta) =>
      match Get(meta, "required")
      case Some(Arr(required)) => Strings(required)
      case _ => []
  }

  /** A required value that counts as not filled in: `payload[key]` is
      `undefined`, `null`, a blank string or an empty list. `false`, `0` and
      objects count as filled, and so does a member every object inherits
      (`constructor`, `toString`, ...) when there is no own one. */
  predicate IsMissing(payload: Fields, key: string) {
    match Get(payload, key)
    case None => key !in InheritedMembers
    case Some(Null) => true
    case Some(Str(s)) => IsBlank(s)
    case Some(Arr(xs)) => xs == []
    case Some(_) => false
  }

  /** The required keys that are missing from `payload`, in their order. */
  function MissingKeys(required: seq<string>, payload: Fields): (r: seq<string>)
    ensures |r| <= |required|
    ensures forall i :: 0 <= i < |r| ==> r[i] in required && IsMissing(payload, r[i])
    ensures forall i :: 0 <= i < |required| && IsMissing(payload, required[i]) ==> required[i] in r
    decreases |required|
  {
    if |required| == 0 then []
    else (if IsMissing(payload, required[0]) then [required[0]] else [])
         + MissingKeys(required[1..], payload)
  }

  /** Validation keeps the order of the required keys: checking two lists one
      after the other reports the two reports one after the other. */
  lemma {:induction false} MissingKeysAppend(a: seq<string>, b: seq<string>, payload: Fields)
    ensures MissingKeys(a + b, payload) == MissingKeys(a, payload) + MissingKeys(b, payload)
    decreases |a|
  {
    if |a| == 0 {
      assert a + b == b;
    } else {
      assert (a + b)[1..] == a[1..] + b;
      MissingKeysAppend(a[1..], b, payload);
    }
  }

  /** One required key is reported exactly when it is missing. */
  lemma MissingKeysSingle(k: string, payload: Fields)
    ensures MissingKeys([k], payload) == if IsMissing(payload, k) then [k] else []
  {
    assert [k][1..] == [];
  }

  datatype Validation = Valid | Invalid(missing: seq<string>, message: string)

  /** `validateRequired`: fails exactly when some required key is missing,
      naming every missing key in the error message. */
  function ValidateRequired(required: seq<string>, payload: Fields): (r: Validation)
    ensures r.Valid? <==> forall i :: 0 <= i < |required| ==> !IsMissing(payload, required[i])
    ensures r.Invalid? ==>
      && |r.missing| > 0
      && (forall i :: 0 <= i < |r.missing| ==> r.missing[i] in required && IsMissing(payload, r.missing[i]))
      && (forall i :: 0 <= i < |required| && IsMissing(payload, required[i]) ==> required[i] in r.missing)
      && r.message == "Required fields missing: " + Join(r.missing, ", ")
    ensures r.Invalid? ==> r.missing == MissingKeys(required, payload)
  {
    if |required| == 0 then Valid
    else
      var missing := MissingKeys(required, payload);
      if |missing| > 0 then
        Invalid(missing, "Required fields missing: " + Join(missing, ", "))
      else Valid
  }

  /** With nothing required every payload passes. */
  lemma NothingRequiredPasses(payload: Fields)
    ensures ValidateRequired([], payload) == Valid
  {
  }

  /** A required flag that is `false`, or a count that is `0`, is filled in. */
  lemma FalseAndZeroArePresent(key: string, v: Json)
    requires v == Bool(false) || v == Num(0)
    ensures ValidateRequired([key], [Entry(key, v)]) == Valid
  {
    assert Get([Entry(key, v)], key) == Some(v);
  }

  /** A required key naming an inherited member is never reported missing
      unless the payload has an own, empty member of that name. */
  lemma InheritedNamesArePresent(key: string, payload: Fields)
    requires key in InheritedMembers && !HasKey(payload, key)
    ensures ValidateRequired([key], payload) == Valid
  {
  }

  /** An own member shadows the inherited one. */
  lemma OwnBlankShadowsInherited(key: string)
    requires key in InheritedMembers
    ensures ValidateRequired([key], [Entry(key, Str(""))]).Invalid?
  {
    assert Get([Entry(key, Str(""))], key) == Some(Str(""));
  }

  /** What pressing Save does. */
  datatype SaveAction = Upsert(payload: Fields) | RejectSave(toast: string)

  /** `onSaveSection`: the upsert is issued only when validation passes,
      and then with the form as it stands. */
  function OnSaveSection(required: seq<string>, form: Fields): (r: SaveAction)
    ensures r.Upsert? <==> forall i :: 0 <= i < |required| ==> !IsMissing(form, required[i])
    ensures r.Upsert? ==> r.payload == form
    ensures r.RejectSave? ==> StartsWith(r.toast, "Required fields missing: ")
    ensures r.RejectSave? ==> r.toast == ValidateRequired(required, form).message
  {
    match ValidateRequired(required, form)
    case Valid => Upsert(form)
    case Invalid(_, message) =>
      assert message[..|"Required fields missing: "|] == "Required fields missing: ";
      RejectSave(message)
  }

  /** An own member whose value is truthy. */
  predicate HasTruthy(item: Fields, k: string) {
    Get(item, k).Some? && Truthy(Get(item, k).value)
  }

  /** `String(item.id || item._id || '')`: the first truthy identifier, as text. */
  function EditItemId(item: Fields): (r: string)
    ensures HasTruthy(item, "id") ==> r == ToDisplayString(Get(item, "id").value)
    ensures !HasTruthy(item, "id") && HasTruthy(item, "_id") ==> r == ToDisplayString(Get(item, "_id").value)
    ensures !HasTruthy(item, "id") && !HasTruthy(item, "_id") ==> r == ""
  {
    if HasTruthy(item, "id") then ToDisplayString(Get(item, "id").value)
    else if HasTruthy(item, "_id") then ToDisplayString(Get(item, "_id").value)
    else ""
  }

  /** A server id string is used as it is. */
  lemma StringIdIsKept(item: Fields, id: string)
    requires Get(item, "_id") == Some(Str(id)) && id != ""
    requires !HasKey(item, "id")
    ensures EditItemId(item) == id
  {
  }

  /** The editing state: the chosen item's id and its form. */
  datatype Editing = Editing(itemId: string, form: Fields)

  /** `onEditItem`: the item's id, and the item without its identifiers as the form. */
  function OnEditItem(item: Fields): (r: Editing)
    ensures r.itemId == EditItemId(item)
    ensures !HasKey(r.form, "id") && !HasKey(r.form, "_id")
    ensures forall k :: k != "id" && k != "_id" ==> Get(r.form, k) == Get(item, k)
    ensures r.form == StripIds(item)
    ensures Keys(r.form) == RemoveAll(RemoveAll(Keys(item), "id"), "_id")
  {
    Editing(EditItemId(item), StripIds(item))
  }

  /** The update call `onUpdateItem` issues: none without a chosen item. */
  datatype UpdateCall = UpdateCall(sectionName: string, itemId: string, payload: Fields)

  function OnUpdateItem(sectionName: string, e: Editing): (r: Option<UpdateCall>)
    ensures r.Some? <==> e.itemId != ""
    ensures r.Some? ==> r.value == UpdateCall(sectionName, e.itemId, e.form)
  {
    if e.itemId == "" then None else Some(UpdateCall(sectionName, e.itemId, e.form))
  }

  /** `appendUniquePath`: each non-empty path not yet listed goes last, in
      the order given; the registry so far is never reordered. */
  function AppendUniquePath(prev: seq<string>, paths: seq<string>): (r: seq<string>)
    ensures |prev| <= |r| && r[..|prev|] == prev
    ensures forall i :: |prev| <= i < |r| ==> r[i] != "" && r[i] in paths && r[i] !in prev
    ensures forall i :: 0 <= i < |paths| && paths[i] != "" ==> paths[i] in r
    ensures NoDup(prev) ==> NoDup(r)
    decreases |paths|
  {
    if |paths| == 0 then prev
    else
      var p := paths[0];
      var next := if p != "" && p !in prev then prev + [p] else prev;
      assert NoDup(prev) ==> NoDup(next) by {
        if NoDup(prev) && p != "" && p !in prev {
          AppendFreshNoDup(prev, p);
        }
      }
      var r := AppendUniquePath(next, paths[1..]);
      assert r[..|prev|] == next[..|prev|];
      assert forall i :: 0 <= i < |paths| && paths[i] != "" ==> paths[i] in r by {
        forall i | 0 <= i < |paths| && paths[i] != ""
          ensures paths[i] in r
        {
          if i == 0 {
            assert p in next;
            var k :| 0 <= k < |next| && next[k] == p;
            assert r[k] == p;
          } else {
            assert paths[i] == paths[1..][i - 1];
          }
        }
      }
      r
  }

  /** Registering a list of paths is registering its parts one after the
      other: the paths are taken in the order given. */
  lemma {:induction false} AppendUniquePathAppend(prev: seq<string>, a: seq<string>, b: seq<string>)
    ensures AppendUniquePath(prev, a + b) == AppendUniquePath(AppendUniquePath(prev, a), b)
    decreases |a|
  {
    if |a| == 0 {
      assert a + b == b;
    } else {
      assert (a + b)[0] == a[0] && (a + b)[1..] == a[1..] + b;
      var p := a[0];
      var next := if p != "" && p !in prev then prev + [p] else prev;
      AppendUniquePathAppend(next, a[1..], b);
    }
  }

  /** One path goes last exactly when it is non-empty and not yet listed. */
  lemma AppendUniquePathSingle(prev: seq<string>, p: string)
    ensures AppendUniquePath(prev, [p]) == if p != "" && p !in prev then prev + [p] else prev
  {
    assert [p][1..] == [];
  }

  /** Registering the same paths again changes nothing. */
  lemma {:induction false} AppendUniquePathIdempotent(prev: seq<string>, paths: seq<string>)
    ensures AppendUniquePath(AppendUniquePath(prev, paths), paths) == AppendUniquePath(prev, paths)
  {
    var r := AppendUniquePath(prev, paths);
    AlreadyListed(r, paths);
  }

  /** Paths that are all listed already (or empty) leave the registry as it is. */
  lemma {:induction false} AlreadyListed(prev: seq<string>, paths: seq<string>)
    requires forall i :: 0 <= i < |paths| && paths[i] != "" ==> paths[i] in prev
    ensures AppendUniquePath(prev, paths) == prev
    decreases |paths|
  {
    if |paths| > 0 {
      assert forall i :: 0 <= i < |paths[1..]| && paths[1..][i] != "" ==> paths[1..][i] in prev by {
        forall i | 0 <= i < |paths[1..]| && paths[1..][i] != ""
          ensures paths[1..][i] in prev
        {
          assert paths[1..][i] == paths[i + 1];
        }
      }
      AlreadyListed(prev, paths[1..]);
    }
  }

  /** The single-upload response; the server may leave either field out. */
  datatype UploadResponse = UploadResponse(filePath: Option<string>, url: Option<string>)

  /** `result.filePath || result.url || ''`. */
  function SinglePath(resp: UploadResponse): (r: string)
    ensures resp.filePath.Some? && resp.filePath.value != "" ==> r == resp.filePath.value
    ensures !(resp.filePath.Some? && resp.filePath.value != "") && resp.url.Some? ==> r == resp.url.value
    ensures !(resp.filePath.Some? && resp.filePath.value != "") && resp.url.None? ==> r == ""
  {
    if resp.filePath.Some? && resp.filePath.value != "" then resp.filePath.value
    else resp.url.GetOr("")
  }

  /** `uploadImageAndGetPath` (and `onUploadSingle`): a completed upload
      registers its path and hands it back; a failed upload changes nothing
      and hands back nothing. */
  function UploadImageAndGetPath(registry: seq<string>, outcome: Outcome<UploadResponse>): (r: (seq<string>, Option<string>))
    ensures outcome.Err? ==> r == (registry, None)
    ensures outcome.Ok? ==>
      var path := SinglePath(outcome.value);
      && (r.1.Some? <==> path != "")
      && (r.1.Some? ==> r.1.value == path && path in r.0)
      && r.0 == AppendUniquePath(registry, if path == "" then [] else [path])
  {
    match outcome
    case Err(_) => (registry, None)
    case Ok(resp) =>
      var path := SinglePath(resp);
      var paths := if path == "" then [] else [path];
      var next := AppendUniquePath(registry, paths);
      if path == "" then (next, None)
      else
        assert paths[0] == path;
        (next, Some(path))
  }

  /** The multiple-upload response. */
  datatype UploadManyResponse = UploadManyResponse(filePaths: Option<seq<string>>, urls: Option<seq<string>>)

  /** `result.filePaths?.length ? result.filePaths : (result.urls ?? [])`. */
  function MultiplePaths(resp: UploadManyResponse): (r: seq<string>)
    ensures resp.filePaths.Some? && |resp.filePaths.value| > 0 ==> r == resp.filePaths.value
    ensures !(resp.filePaths.Some? && |resp.filePaths.value| > 0) ==> r == resp.urls.GetOr([])
  {
    if resp.filePaths.Some? && |resp.filePaths.value| > 0 then resp.filePaths.value
    else resp.urls.GetOr([])
  }

  /** `onUploadMultiple`: nothing happens without files or on failure;
      otherwise every returned path is registered once, after the paths
      already listed. */
  function OnUploadMultiple(registry: seq<string>, fileCount: nat, outcome: Outcome<UploadManyResponse>): (r: seq<string>)
    ensures fileCount == 0 || outcome.Err? ==> r == registry
    ensures fileCount > 0 && outcome.Ok? ==>
      && |registry| <= |r| && r[..|registry|] == registry
      && (forall i :: |registry| <= i < |r| ==> r[i] != "" && r[i] in MultiplePaths(outcome.value) && r[i] !in registry)
      && (forall p :: p in MultiplePaths(outcome.value) && p != "" ==> p in r)
      && r == AppendUniquePath(registry, MultiplePaths(outcome.value))
    ensures NoDup(registry) ==> NoDup(r)
  {
    if fileCount == 0 then registry
    else match outcome
      case Err(_) => registry
      case Ok(resp) =>
        var paths := MultiplePaths(resp);
        var r := AppendUniquePath(registry, paths);
        assert forall p :: p in paths && p != "" ==> p in r by {
          forall p | p in paths && p != ""
            ensures p in r
          {
            var i :| 0 <= i < |paths| && paths[i] == p;
          }
        }
        r
  }

  /** Handling the same completed upload twice registers nothing more. */
  lemma OnUploadMultipleIdempotent(registry: seq<string>, fileCount: nat, outcome: Outcome<UploadManyResponse>)
    ensures var once := OnUploadMultiple(registry, fileCount, outcome);
      OnUploadMultiple(once, fileCount, outcome) == once
  {
    if fileCount > 0 && outcome.Ok? {
      AppendUniquePathIdempotent(registry, MultiplePaths(outcome.value));
    }
  }

  /** The form's `images` when it is a list, otherwise none. */
  function ImagesOf(form: Fields): (r: seq<Json>)
    ensures Get(form, "images").Some? && Get(form, "images").value.Arr? ==> r == Get(form, "images").value.items
    ensures !(Get(form, "images").Some? && Get(form, "images").value.Arr?) ==> r == []
  {
    match Get(form, "images")
    case Some(Arr(xs)) => xs
    case _ => []
  }

  /** `addImageToSection`: a path already among the images changes nothing;
      otherwise it is appended to the images (a non-list counting as empty). */
  function AddImageToSection(form: Fields, path: string): (r: Fields)
    ensures Str(path) in ImagesOf(form) ==> r == form
    ensures Str(path) !in ImagesOf(form) ==> Get(r, "images") == Some(Arr(ImagesOf(form) + [Str(path)]))
    ensures Str(path) in ImagesOf(r)
    ensures forall k :: k != "images" ==> Get(r, k) == Get(form, k)
    ensures Keys(r) == if HasKey(form, "images") then Keys(form) else Keys(form) + ["images"]
    ensures DistinctKeys(form) ==> DistinctKeys(r)
  {
    var images := ImagesOf(form);
    if Str(path) in images then form
    else Put(form, "images", Arr(images + [Str(path)]))
  }

  /** Adding an image twice is adding it once. */
  lemma AddImageToSectionIdempotent(form: Fields, path: string)
    ensures AddImageToSection(AddImageToSection(form, path), path) == AddImageToSection(form, path)
  {
  }

  /** `removeImageFromSection`: every copy of the path dropped from the
      images, the other images kept in order; `images` is always written. */
  function RemoveImageFromSection(form: Fields, path: string): (r: Fields)
    ensures Get(r, "images") == Some(Arr(RemoveAll(ImagesOf(form), Str(path))))
    ensures Str(path) !in ImagesOf(r)
    ensures forall k :: k != "images" ==> Get(r, k) == Get(form, k)
    ensures Keys(r) == if HasKey(form, "images") then Keys(form) else Keys(form) + ["images"]
    ensures DistinctKeys(form) ==> DistinctKeys(r)
  {
    Put(form, "images", Arr(RemoveAll(ImagesOf(form), Str(path))))
  }

  /** Removing an image that was just attached restores a form whose images
      were a list without it. */
  lemma RemoveUndoesAddImage(form: Fields, path: string)
    requires DistinctKeys(form)
    requires Get(form, "images").Some? && Get(form, "images").value.Arr?
    requires Str(path) !in ImagesOf(form)
    ensures RemoveImageFromSection(AddImageToSection(form, path), path) == form
  {
    var images := ImagesOf(form);
    var added := AddImageToSection(form, path);
    assert added == Replace(form, "images", Arr(images + [Str(path)]));
    RemoveAllAppend(images, [Str(path)], Str(path));
    assert RemoveAll([Str(path)], Str(path)) == [];
    assert RemoveAll(images + [Str(path)], Str(path)) == images;
    assert ImagesOf(added) == images + [Str(path)];
    assert RemoveImageFromSection(added, path) == Replace(added, "images", Arr(images));
    FieldEdits.ReplaceTwice(form, "images", Arr(images + [Str(path)]), Arr(images));
    FieldEdits.ReplaceOwnValue(form, "images");
  }

  /** No key before position `n` matches `/image/i`. */
  predicate NoImageKeyBefore(keys: seq<string>, n: nat)
    requires n <= |keys|
  {
    forall j :: 0 <= j < n ==> !Contains(ToLower(keys[j]), "image")
  }

  /** The first key matching `/image/i`, if any. */
  function FirstImageKey(keys: seq<string>): (r: Option<string>)
    ensures r.Some? ==> r.value in keys && Contains(ToLower(r.value), "image")
    ensures r.None? <==> forall i :: 0 <= i < |keys| ==> !Contains(ToLower(keys[i]), "image")
    ensures r.Some? ==> exists i :: 0 <= i < |keys| && keys[i] == r.value && NoImageKeyBefore(keys, i)
    decreases |keys|
  {
    if |keys| == 0 then None
    else if Contains(ToLower(keys[0]), "image") then Some(keys[0])
    else
      var r := FirstImageKey(keys[1..]);
      assert r.Some? ==> exists i :: 0 <= i < |keys| && keys[i] == r.value && NoImageKeyBefore(keys, i) by {
        if r.Some? {
          var i :| 0 <= i < |keys[1..]| && keys[1..][i] == r.value && NoImageKeyBefore(keys[1..], i);
          assert keys[i + 1] == r.value;
          assert NoImageKeyBefore(keys, i + 1) by {
            forall j | 0 <= j < i + 1
              ensures !Contains(ToLower(keys[j]), "image")
            {
              if j > 0 {
                assert keys[j] == keys[1..][j - 1];
              }
            }
          }
        }
      }
      r
  }

  /** The key `addImageToNewItem` writes to. */
  function NewItemImageKey(form: Fields): (k: string)
    ensures (forall i :: 0 <= i < |form| ==> !Contains(ToLower(form[i].key), "image")) ==> k == "image"
    ensures (exists i :: 0 <= i < |form| && Contains(ToLower(form[i].key), "image")) ==>
      exists i :: 0 <= i < |form| && form[i].key == k && Contains(ToLower(k), "image")
                  && NoImageKeyBefore(Keys(form), i)
    ensures k == "image" || (HasKey(form, k) && Contains(ToLower(k), "image"))
  {
    var first := FirstImageKey(Keys(form));
    assert first.None? <==> forall i :: 0 <= i < |form| ==> !Contains(ToLower(form[i].key), "image") by {
      assert forall i :: 0 <= i < |form| ==> Keys(form)[i] == form[i].key;
    }
    first.GetOr("image")
  }

  /** `addImageToNewItem`: the path goes into the item's image field (the
      first key mentioning `image`, else `image`): appended once to a list,
      or replacing any other value. */
  function AddImageToNewItem(form: Fields, path: string): (r: Fields)
    ensures var key := NewItemImageKey(form);
      && (forall k :: k != key ==> Get(r, k) == Get(form, k))
      && (match Get(form, key)
          case Some(Arr(xs)) =>
            if Str(path) in xs then r == form else Get(r, key) == Some(Arr(xs + [Str(path)]))
          case _ => Get(r, key) == Some(Str(path)))
    ensures var key := NewItemImageKey(form);
      Keys(r) == if HasKey(form, key) then Keys(form) else Keys(form) + [key]
    ensures DistinctKeys(form) ==> DistinctKeys(r)
  {
    var key := NewItemImageKey(form);
    match Get(form, key)
    case Some(Arr(xs)) =>
      if Str(path) in xs then form else Put(form, key, Arr(xs + [Str(path)]))
    case _ => Put(form, key, Str(path))
  }

  /** However the form looked, the path ends up in the item's image field. */
  lemma AddImageToNewItemHoldsPath(form: Fields, path: string)
    ensures var r := AddImageToNewItem(form, path);
      var v := Get(r, NewItemImageKey(form));
      v == Some(Str(path)) || (v.Some? && v.value.Arr? && Str(path) in v.value.items)
  {
  }

  /** The editor's upload registry and section form together. */
  datatype Uploads = Uploads(registry: seq<string>, sectionForm: Fields)

  /** `deleteUploaded`: only once the remote delete succeeds is the path
      dropped from the registry and from the section's images. */
  function DeleteUploaded(u: Uploads, path: string, outcome: Outcome<()>): (r: Uploads)
    ensures outcome.Err? ==> r == u
    ensures outcome.Ok? ==>
      && r.registry == RemoveAll(u.registry, path)
      && path !in r.registry
      && Get(r.sectionForm, "images") == Some(Arr(RemoveAll(ImagesOf(u.sectionForm), Str(path))))
      && Str(path) !in ImagesOf(r.sectionForm)
      && (forall k :: k != "images" ==> Get(r.sectionForm, k) == Get(u.sectionForm, k))
      && Keys(r.sectionForm) == if HasKey(u.sectionForm, "images") then Keys(u.sectionForm)
                                else Keys(u.sectionForm) + ["images"]
  {
    match outcome
    case Err(_) => u
    case Ok(_) => Uploads(RemoveAll(u.registry, path), RemoveImageFromSection(u.sectionForm, path))
  }

  /** Deleting an upload that was just registered and attached to the
      section undoes both, given a section whose images were a list without it. */
  lemma DeleteUndoesUpload(registry: seq<string>, form: Fields, path: string)
    requires path != "" && path !in registry
    requires DistinctKeys(form)
    requires Get(form, "images").Some? && Get(form, "images").value.Arr?
    requires Str(path) !in ImagesOf(form)
    ensures DeleteUploaded(Uploads(AppendUniquePath(registry, [path]), AddImageToSection(form, path)), path, Ok(()))
            == Uploads(registry, form)
  {
    assert AppendUniquePath(registry, [path]) == AppendUniquePath(registry + [path], []);
    RemoveAllAppend(registry, [path], path);
    assert RemoveAll([path], path) == [];
    RemoveUndoesAddImage(form, path);
  }

  /** `isSectionActive`: the loaded section is an object whose `active` is `true`. */
  function IsSectionActive(data: Option<Json>): (r: bool)
    ensures r ==> data.Some? && data.value.Obj? && HasKey(data.value.fields, "active")
    ensures r <==> data.Some? && ActiveFlagSet(data.value)
  {
    data.Some? && ActiveFlagSet(data.value)
  }
}

=== FILE: field_edits.dfy ===
/** What one editor field shows and the edits it emits. A field is edited by
    handing its parent the whole next value, so every edit below is a pure
    `previous -> next` function; nesting composes them along a path. */
module FieldEdits {
  import opened Options
  import opened Text
  import opened Seqs
  import opened Json
  import opened EditorHelpers
  import TitleCase

  /** The input a string field is given. */
  datatype StringControl = DateInput | TextArea | TextInput

  /** Date keys always get a date input; otherwise a long (over 80
      characters) or multi-line value gets a text area. */
  function ChooseStringControl(fieldKey: string, value: string): (c: StringControl)
    ensures c.DateInput? <==> IsDateKey(fieldKey)
    ensures c.TextArea? <==> !IsDateKey(fieldKey) && (|value| > 80 || '\n' in value)
    ensures c.TextInput? <==> !IsDateKey(fieldKey) && |value| <= 80 && '\n' !in value
  {
    if IsDateKey(fieldKey) then DateInput
    else if |value| > 80 || '\n' in value then TextArea
    else TextInput
  }

  /** A list under an image-ish key whose entries are all strings. */
  predicate IsImageList(fieldKey: string, items: seq<Json>) {
    IsImageKey(fieldKey) && forall i :: 0 <= i < |items| ==> items[i].Str?
  }

  /** A string field that may hold an image: by its key or by its value. */
  predicate IsImageLike(fieldKey: string, value: string) {
    IsImageKey(fieldKey) || LooksLikeImage(value)
  }

  /** What a field renders, reduced to the decisions the editor takes. */
  datatype Widget =
    | ListEditor(uploadButton: bool, previews: seq<Option<string>>)
    | ObjectEditor
    | Switch
    | NumberInput
    | TextField(control: StringControl, uploadButton: bool, preview: Option<string>)
    | Unsupported

  /** The list preview of element `i`: a non-empty string of an image list. */
  function ElementPreview(fieldKey: string, items: seq<Json>, i: nat): Option<string>
    requires i < |items|
  {
    if IsImageList(fieldKey, items) && items[i].Str? && items[i].s != ""
    then Some(ImageFromPath(items[i].s)) else None
  }

  /** The widget of a field holding `value`; `hasUploader` says whether the
      page passed an upload callback. */
  function Render(fieldKey: string, value: Json, hasUploader: bool): (w: Widget)
    ensures w.Unsupported? <==> value.Null?
    ensures value.Obj? <==> w.ObjectEditor?
    ensures value.Bool? <==> w.Switch?
    ensures value.Num? <==> w.NumberInput?
    ensures value.Arr? <==> w.ListEditor?
    ensures value.Str? <==> w.TextField?
    ensures value.Arr? ==> (
      && (w.uploadButton <==> hasUploader && IsImageList(fieldKey, value.items))
      && |w.previews| == |value.items|
      && forall i :: 0 <= i < |w.previews| ==>
           && (w.previews[i].Some? <==>
                 IsImageList(fieldKey, value.items) && value.items[i] != Str(""))
           && (w.previews[i].Some? ==> w.previews[i].value == ImageFromPath(value.items[i].s)))
    ensures value.Str? ==> (
      && w.control == ChooseStringControl(fieldKey, value.s)
      && (w.control.DateInput? <==> IsDateKey(fieldKey))
      && (w.uploadButton <==> hasUploader && IsImageLike(fieldKey, value.s))
      && (w.preview.Some? <==> value.s != "" && IsImageLike(fieldKey, value.s))
      && (w.preview.Some? ==> w.preview.value == ImageFromPath(value.s)))
  {
    match value
    case Arr(items) =>
      ListEditor(hasUploader && IsImageList(fieldKey, items),
                 seq(|items|, i requires 0 <= i < |items| => ElementPreview(fieldKey, items, i)))
    case Obj(_) => ObjectEditor
    case Bool(_) => Switch
    case Num(_) => NumberInput
    case Str(s) =>
      var imageLike := IsImageLike(fieldKey, s);
      TextField(ChooseStringControl(fieldKey, s), hasUploader && imageLike,
                if imageLike && s != "" then Some(ImageFromPath(s)) else None)
    case Null => Unsupported
  }

  /** A date-ish key outranks an image-ish one: any string field whose
      key mentions `photo` gets a date input, with the upload button beside
      it and a preview once it holds a value. */
  lemma PhotoFieldIsDateInput(fieldKey: string, value: string)
    requires Contains(ToLower(fieldKey), "photo")
    ensures Render(fieldKey, Str(value), true)
         == TextField(DateInput, true, if value == "" then None else Some(ImageFromPath(value)))
  {
    PhotoKeysAreDateKeys(fieldKey);
  }

  /** The element `Add` appends: a copy of an object-like first element, the
      zero of a scalar one, and an empty string for an empty list. */
  function DefaultNext(items: seq<Json>): (r: Json)
    ensures |items| == 0 ==> r == Str("")
    ensures |items| > 0 ==> KindOf(r) == KindOf(items[0])
    ensures |items| > 0 && IsObjectLike(items[0]) ==> r == items[0]
    ensures !IsObjectLike(r) ==> !Truthy(r)
  {
    if |items| == 0 then Str("")
    else match items[0]
      case Num(_) => Num(0)
      case Bool(_) => Bool(false)
      case Str(_) => Str("")
      case _ => items[0]
  }

  /** The list's entries share the first entry's kind. */
  predicate SameKind(items: seq<Json>) {
    forall i :: 0 <= i < |items| ==> KindOf(items[i]) == KindOf(items[0])
  }

  /** `Add`: the old list followed by exactly one new element. */
  function AddItem(items: seq<Json>): (r: seq<Json>)
    ensures |r| == |items| + 1
    ensures r[..|items|] == items
    ensures |items| > 0 ==> KindOf(r[|items|]) == KindOf(items[0])
    ensures r[|items|] == DefaultNext(items)
    ensures |items| == 0 ==> r == [Str("")]
  {
    items + [DefaultNext(items)]
  }

  /** Adding keeps a list of one kind of one kind, and an image list an image list. */
  lemma AddKeepsShape(fieldKey: string, items: seq<Json>)
    ensures SameKind(items) ==> SameKind(AddItem(items))
    ensures IsImageList(fieldKey, items) ==> IsImageList(fieldKey, AddItem(items))
  {
    var r := AddItem(items);
    if |items| > 0 {
      assert r[0] == items[0];
    }
  }

  /** `Remove` on element `i`: one shorter, everyone else in order. */
  function RemoveItem(items: seq<Json>, i: nat): (r: seq<Json>)
    requires i < |items|
    ensures |r| == |items| - 1
    ensures forall j :: 0 <= j < i ==> r[j] == items[j]
    ensures forall j :: i <= j < |r| ==> r[j] == items[j + 1]
  {
    RemoveIndex(items, i)
  }

  /** Removing the element just added gives the list back. */
  lemma RemoveUndoesAdd(items: seq<Json>)
    ensures RemoveItem(AddItem(items), |items|) == items
  {
  }

  /** Editing element `i`: that element replaced, length and every other element kept. */
  function ReplaceItem(items: seq<Json>, i: nat, next: Json): (r: seq<Json>)
    requires i < |items|
    ensures |r| == |items|
    ensures r[i] == next
    ensures forall j :: 0 <= j < |items| && j != i ==> r[j] == items[j]
  {
    items[..i] + [next] + items[i + 1..]
  }

  /** Writing an element's own value back is no change, and the later of two
      edits to one element wins. */
  lemma ReplaceItemLaws(items: seq<Json>, i: nat, a: Json, b: Json)
    requires i < |items|
    ensures ReplaceItem(items, i, items[i]) == items
    ensures ReplaceItem(ReplaceItem(items, i, a), i, b) == ReplaceItem(items, i, b)
  {
  }

  /** A file uploaded into an image list: the returned path appended, if any. */
  function UploadIntoList(items: seq<Json>, path: Option<string>): (r: seq<Json>)
    ensures path.Some? && path.value != "" ==> r == items + [Str(path.value)]
    ensures !(path.Some? && path.value != "") ==> r == items
  {
    if path.Some? && path.value != "" then items + [Str(path.value)] else items
  }

  /** An upload keeps an image list an image list. */
  lemma UploadKeepsImageList(fieldKey: string, items: seq<Json>, path: Option<string>)
    requires IsImageList(fieldKey, items)
    ensures IsImageList(fieldKey, UploadIntoList(items, path))
  {
  }

  /** A file uploaded into a string field: the field becomes the returned path, if any. */
  function UploadIntoString(value: string, path: Option<string>): (r: string)
    ensures path.Some? && path.value != "" ==> r == path.value
    ensures !(path.Some? && path.value != "") ==> r == value
  {
    if path.Some? && path.value != "" then path.value else value
  }

  /** Editing member `k` of an object field. */
  function SetMember(fields: Fields, k: string, next: Json): (r: Fields)
    ensures HasKey(fields, k) ==> Keys(r) == Keys(fields)
    ensures Get(r, k) == Some(next)
    ensures forall k' :: k' != k ==> Get(r, k') == Get(fields, k')
    ensures DistinctKeys(fields) ==> DistinctKeys(r)
  {
    Put(fields, k, next)
  }

  /** Writing a member's own value back leaves an object unchanged. */
  lemma {:induction false} SetMemberOwnValue(fields: Fields, k: string)
    requires DistinctKeys(fields) && HasKey(fields, k)
    ensures SetMember(fields, k, Get(fields, k).value) == fields
  {
    ReplaceOwnValue(fields, k);
  }

  lemma {:induction false} ReplaceOwnValue(fields: Fields, k: string)
    requires DistinctKeys(fields) && HasKey(fields, k)
    ensures Replace(fields, k, Get(fields, k).value) == fields
    decreases |fields|
  {
    var v := Get(fields, k).value;
    assert Keys(fields) == [fields[0].key] + Keys(fields[1..]);
    NoDupTail(Keys(fields));
    var rest := Replace(fields[1..], k, v);
    if fields[0].key == k {
      assert forall j :: 0 <= j < |fields| - 1 ==> Keys(fields[1..])[j] == Keys(fields)[j + 1];
      assert k !in Keys(fields[1..]);
      ReplaceAbsent(fields[1..], k, v);
    } else {
      ReplaceOwnValue(fields[1..], k);
    }
  }

  /** Of two writes to one member the later wins. */
  lemma {:induction false} ReplaceTwice(fields: Fields, k: string, a: Json, b: Json)
    ensures Replace(Replace(fields, k, a), k, b) == Replace(fields, k, b)
    decreases |fields|
  {
    if |fields| > 0 {
      ReplaceTwice(fields[1..], k, a, b);
      assert Replace(fields, k, a)[1..] == Replace(fields[1..], k, a);
    }
  }

  lemma {:induction false} ReplaceAbsent(fields: Fields, k: string, v: Json)
    requires !HasKey(fields, k)
    ensures Replace(fields, k, v) == fields
    decreases |fields|
  {
    if |fields| > 0 {
      assert Keys(fields) == [fields[0].key] + Keys(fields[1..]);
      ReplaceAbsent(fields[1..], k, v);
    }
  }

  /** The key of element `i` of the field keyed `fieldKey`. */
  function ElementKey(fieldKey: string, i: nat): string {
    fieldKey + "[" + NatToString(i) + "]"
  }

  /** The key of member `k` of the field keyed `fieldKey`. */
  function MemberKey(fieldKey: string, k: string): string {
    fieldKey + "." + k
  }

  /** Element `i` is labelled with its one-based position. */
  function ElementLabel(parentLabel: string, i: nat): string {
    parentLabel + " #" + NatToString(i + 1)
  }

  /** A member is labelled with its title-cased key. */
  function MemberLabel(k: string): string {
    TitleCase.TitleCase(k)
  }

  /** Children inherit the key heuristics: every element and member under an
      image-ish (date-ish) key is image-ish (date-ish) too. */
  lemma ChildrenInheritHeuristics(fieldKey: string, i: nat, k: string)
    ensures IsImageKey(fieldKey) ==> IsImageKey(ElementKey(fieldKey, i)) && IsImageKey(MemberKey(fieldKey, k))
    ensures IsDateKey(fieldKey) ==> IsDateKey(ElementKey(fieldKey, i)) && IsDateKey(MemberKey(fieldKey, k))
  {
    var tailI := "[" + NatToString(i) + "]";
    var tailK := "." + k;
    assert ElementKey(fieldKey, i) == fieldKey + tailI;
    assert MemberKey(fieldKey, k) == fieldKey + tailK;
    if IsImageKey(fieldKey) {
      MentionsAnyExtend(fieldKey, tailI, ImageKeyWords);
      MentionsAnyExtend(fieldKey, tailK, ImageKeyWords);
    }
    if IsDateKey(fieldKey) {
      MentionsAnyExtend(fieldKey, tailI, DateKeyWords);
      MentionsAnyExtend(fieldKey, tailK, DateKeyWords);
    }
  }

  /** One step from a field to a child: an element index or a member key. */
  datatype Step = Index(i: nat) | Key(k: string)

  /** The child one step below `j`, if that step exists. */
  function Child(j: Json, step: Step): Option<Json> {
    if j.Arr? && step.Index? then
      if step.i < |j.items| then Some(j.items[step.i]) else None
    else if j.Obj? && step.Key? then Get(j.fields, step.k)
    else None
  }

  /** The value at `path` below `j`, if the path exists. */
  function GetAt(j: Json, path: seq<Step>): Option<Json>
    decreases |path|
  {
    if |path| == 0 then Some(j)
    else match Child(j, path[0])
      case Some(c) => GetAt(c, path[1..])
      case None => None
  }

  /** `j` with the child at `step` replaced by `next`, the way the list and
      object editors hand a child's edit up to their own parent. */
  function WithChild(j: Json, step: Step, next: Json): (r: Json)
    requires Child(j, step).Some?
    ensures r.Arr? == j.Arr? && r.Obj? == j.Obj?
    ensures Child(r, step) == Some(next)
    ensures j.Arr? ==> |r.items| == |j.items|
    ensures j.Obj? ==> Keys(r.fields) == Keys(j.fields)
  {
    match j
    case Arr(items) => Arr(ReplaceItem(items, step.i, next))
    case Obj(fields) => Obj(SetMember(fields, step.k, next))
  }

  /** Replacing one child leaves every sibling as it was. */
  lemma WithChildLeavesSiblings(j: Json, step: Step, next: Json, other: Step)
    requires Child(j, step).Some? && other != step
    ensures Child(WithChild(j, step, next), other) == Child(j, other)
  {
    if j.Arr? && other.Index? && other.i < |j.items| {
      assert other.i != step.i;
    }
  }

  /** The edit a nested field emits, composed up to the root: each level
      replaces its own child and hands the result to its parent. */
  function SetAt(j: Json, path: seq<Step>, v: Json): (r: Option<Json>)
    ensures r.Some? <==> GetAt(j, path).Some?
    ensures r.Some? ==> GetAt(r.value, path) == Some(v)
    ensures r.Some? && |path| > 0 ==> r.value.Arr? == j.Arr? && r.value.Obj? == j.Obj?
    decreases |path|
  {
    if |path| == 0 then Some(v)
    else match Child(j, path[0])
      case None => None
      case Some(c) =>
        match SetAt(c, path[1..], v)
        case None => None
        case Some(n) => Some(WithChild(j, path[0], n))
  }

  /** An edit at a path keeps the outline of the root: a list keeps its
      length, an object its keys in order. */
  lemma SetAtKeepsOutline(j: Json, path: seq<Step>, v: Json)
    requires |path| > 0 && SetAt(j, path, v).Some?
    ensures j.Arr? ==> |SetAt(j, path, v).value.items| == |j.items|
    ensures j.Obj? ==> Keys(SetAt(j, path, v).value.fields) == Keys(j.fields)
  {
  }

  /** Two paths that part ways at some step. */
  predicate Diverge(p: seq<Step>, q: seq<Step>)
    decreases |p|
  {
    |p| > 0 && |q| > 0 && (p[0] != q[0] || Diverge(p[1..], q[1..]))
  }

  /** An edit at one path leaves whatever sits at a diverging path as it was. */
  lemma {:induction false} SetAtLeavesOthers(j: Json, p: seq<Step>, q: seq<Step>, v: Json)
    requires Diverge(p, q) && SetAt(j, p, v).Some?
    ensures GetAt(SetAt(j, p, v).value, q) == GetAt(j, q)
    decreases |p|
  {
    var c := Child(j, p[0]).value;
    var n := SetAt(c, p[1..], v).value;
    if p[0] == q[0] {
      SetAtLeavesOthers(c, p[1..], q[1..], v);
    } else {
      WithChildLeavesSiblings(j, p[0], n, q[0]);
    }
  }
}

=== FILE: json.dfy ===
/** The schema-less JSON values the section editor works on. Objects are
    ordered entry lists because the editor renders them in `Object.entries`
    order; the JavaScript object's own key uniqueness is the predicate
    `DistinctKeys`, kept by every update below. */
module Json {
  import opened Options
  import opened Text
  import opened Seqs

  datatype Json =
    | Null
    | Bool(b: bool)
    | Num(n: int)
    | Str(s: string)
    | Arr(items: seq<Json>)
    | Obj(fields: seq<Entry>)

  datatype Entry = Entry(key: string, value: Json)

  /** A plain object's own entries (`Record<string, JsonValue>`). */
  type Fields = seq<Entry>

  /** The result of `typeof`, with arrays and `null` told apart. */
  datatype Kind = NullKind | BoolKind | NumKind | StrKind | ArrKind | ObjKind

  function KindOf(j: Json): Kind {
    match j
    case Null => NullKind
    case Bool(_) => BoolKind
    case Num(_) => NumKind
    case Str(_) => StrKind
    case Arr(_) => ArrKind
    case Obj(_) => ObjKind
  }

  /** `typeof v === 'object'`: true of objects, arrays and `null`. */
  predicate IsObjectLike(j: Json) {
    j.Null? || j.Arr? || j.Obj?
  }

  /** JavaScript truthiness of a JSON value. */
  predicate Truthy(j: Json) {
    match j
    case Null => false
    case Bool(b) => b
    case Num(n) => n != 0
    case Str(s) => s != ""
    case Arr(_) => true
    case Obj(_) => true
  }

  function Keys(fields: Fields): (ks: seq<string>)
    ensures |ks| == |fields|
    ensures forall i :: 0 <= i < |fields| ==> ks[i] == fields[i].key
    decreases |fields|
  {
    if |fields| == 0 then [] else [fields[0].key] + Keys(fields[1..])
  }

  lemma {:induction false} KeysAppend(a: Fields, b: Fields)
    ensures Keys(a + b) == Keys(a) + Keys(b)
  {
    assert |Keys(a + b)| == |Keys(a) + Keys(b)|;
  }

  predicate HasKey(fields: Fields, k: string) {
    k in Keys(fields)
  }

  ghost predicate DistinctKeys(fields: Fields) {
    NoDup(Keys(fields))
  }

  /** `obj[k]` for an own key: the first entry with that key. */
  function Get(fields: Fields, k: string): (r: Option<Json>)
    ensures r.Some? <==> HasKey(fields, k)
    ensures r.Some? ==> Entry(k, r.value) in fields
    decreases |fields|
  {
    if |fields| == 0 then None
    else if fields[0].key == k then Some(fields[0].value)
    else Get(fields[1..], k)
  }

  lemma {:induction false} GetAppend(fields: Fields, e: Entry, k: string)
    ensures Get(fields + [e], k) ==
      if HasKey(fields, k) then Get(fields, k)
      else if e.key == k then Some(e.value)
      else None
    decreases |fields|
  {
    if |fields| > 0 {
      assert (fields + [e])[1..] == fields[1..] + [e];
      assert Keys(fields) == [fields[0].key] + Keys(fields[1..]);
      GetAppend(fields[1..], e, k);
    }
  }

  /** Every entry keyed `k` gets the value `v`; order and other entries kept. */
  function Replace(fields: Fields, k: string, v: Json): (r: Fields)
    ensures Keys(r) == Keys(fields)
    ensures HasKey(fields, k) ==> Get(r, k) == Some(v)
    ensures forall k' :: k' != k ==> Get(r, k') == Get(fields, k')
    decreases |fields|
  {
    if |fields| == 0 then []
    else
      var rest := Replace(fields[1..], k, v);
      var head := if fields[0].key == k then Entry(k, v) else fields[0];
      assert ([head] + rest)[1..] == rest;
      [head] + rest
  }

  /** `{ ...fields, [k]: v }`: an existing key keeps its position, a new key
      goes last, and nothing else changes. */
  function Put(fields: Fields, k: string, v: Json): (r: Fields)
    ensures HasKey(fields, k) ==> Keys(r) == Keys(fields)
    ensures !HasKey(fields, k) ==> Keys(r) == Keys(fields) + [k]
    ensures Get(r, k) == Some(v)
    ensures forall k' :: k' != k ==> Get(r, k') == Get(fields, k')
    ensures DistinctKeys(fields) ==> DistinctKeys(r)
  {
    if HasKey(fields, k) then Replace(fields, k, v)
    else
      var r := fields + [Entry(k, v)];
      KeysAppend(fields, [Entry(k, v)]);
      assert forall k' :: Get(r, k') == (if k' == k then Some(v) else Get(fields, k')) by {
        forall k' ensures Get(r, k') == (if k' == k then Some(v) else Get(fields, k')) {
          GetAppend(fields, Entry(k, v), k');
        }
      }
      assert DistinctKeys(fields) ==> DistinctKeys(r) by {
        if DistinctKeys(fields) {
          AppendFreshNoDup(Keys(fields), k);
        }
      }
      r
  }

  /** `delete obj[k]`: every entry keyed `k` dropped, the rest in order. */
  function Delete(fields: Fields, k: string): (r: Fields)
    ensures Keys(r) == RemoveAll(Keys(fields), k)
    ensures !HasKey(r, k)
    ensures forall k' :: k' != k ==> Get(r, k') == Get(fields, k')
    ensures DistinctKeys(fields) ==> DistinctKeys(r)
    decreases |fields|
  {
    if |fields| == 0 then []
    else if fields[0].key == k then
      assert DistinctKeys(fields) ==> DistinctKeys(fields[1..]) by {
        if DistinctKeys(fields) {
          NoDupTail(Keys(fields));
        }
      }
      Delete(fields[1..], k)
    else
      var rest := Delete(fields[1..], k);
      var r := [fields[0]] + rest;
      assert r[1..] == rest;
      assert DistinctKeys(fields) ==> DistinctKeys(r) by {
        if DistinctKeys(fields) {
          RemoveAllNoDup(Keys(fields), k);
        }
      }
      r
  }

  /** JavaScript's `String(v)`; an array joins its elements with `,`, a
      `null` element contributing nothing. */
  function ToDisplayString(j: Json): (r: string)
    ensures j.Null? ==> r == "null"
    ensures j.Bool? ==> r == if j.b then "true" else "false"
    ensures j.Str? ==> r == j.s
    ensures j.Num? ==> |r| > 0 && (r[0] == '-' <==> j.n < 0)
    ensures j.Num? && j.n >= 0 ==> AllDigits(r) && DigitsValue(r) == j.n && (r[0] == '0' ==> r == "0")
    ensures j.Num? && j.n < 0 ==> AllDigits(r[1..]) && DigitsValue(r[1..]) == -j.n
    ensures j.Arr? && |j.items| == 0 ==> r == ""
    ensures j.Arr? && |j.items| == 1 && j.items[0].Str? ==> r == j.items[0].s
    ensures j.Obj? ==> r == "[object Object]"
    decreases j
  {
    match j
    case Null => "null"
    case Bool(b) => if b then "true" else "false"
    case Num(n) => IntToString(n)
    case Str(s) => s
    case Arr(items) =>
      Join(seq(|items|, i requires 0 <= i < |items| =>
        if items[i].Null? then "" else ToDisplayString(items[i])), ",")
    case Obj(_) => "[object Object]"
  }

  /** What one array element contributes to its array's text: nothing for
      `null`, otherwise its own text. */
  function ElementText(j: Json): (r: string)
    ensures j.Null? ==> r == ""
    ensures !j.Null? ==> r == ToDisplayString(j)
  {
    if j.Null? then "" else ToDisplayString(j)
  }

  /** A one-element array reads as its element. */
  lemma ArrayTextSingle(x: Json)
    ensures ToDisplayString(Arr([x])) == ElementText(x)
  {
  }

  /** One more element adds `,` and that element's text, so an array reads as
      its elements' texts joined by `,` in order. */
  lemma ArrayTextSnoc(items: seq<Json>, x: Json)
    requires |items| > 0
    ensures ToDisplayString(Arr(items + [x])) == ToDisplayString(Arr(items)) + "," + ElementText(x)
  {
    var all := items + [x];
    var texts := seq(|items|, i requires 0 <= i < |items| =>
      if items[i].Null? then "" else ToDisplayString(items[i]));
    var allTexts := seq(|all|, i requires 0 <= i < |all| =>
      if all[i].Null? then "" else ToDisplayString(all[i]));
    assert allTexts == texts + [ElementText(x)];
    JoinSnoc(texts, ElementText(x), ",");
  }

  /** The members every plain object inherits from `Object.prototype`:
      `obj[k]` finds one of them (a function, or the prototype itself for
      `__proto__`) when `obj` has no own member `k`. */
  const InheritedMembers: set<string> := {
    "constructor", "hasOwnProperty", "isPrototypeOf", "propertyIsEnumerable",
    "toLocaleString", "toString", "valueOf", "__proto__",
    "__defineGetter__", "__defineSetter__", "__lookupGetter__", "__lookupSetter__"
  }

  /** `{ ar: '', en: '' }`: an empty localized text. */
  const EmptyLocalized: Json := Obj([Entry("ar", Str("")), Entry("en", Str(""))])

  /** The localized-text convention: an object holding `ar` or `en`. */
  predicate IsLocalized(j: Json) {
    j.Obj? && (HasKey(j.fields, "ar") || HasKey(j.fields, "en"))
  }

  /** `'active' in v && typeof v.active === 'boolean' && v.active` for an object `v`. */
  predicate ActiveFlagSet(j: Json) {
    j.Obj? && Get(j.fields, "active") == Some(Bool(true))
  }
}

=== FILE: language.dfy ===
/** The interface language: Arabic or English, the text direction that
    follows from it, and the translation lookup. The dictionaries' contents
    are a parameter. */
module Language {

  datatype Lang = Ar | En

  datatype Direction = Rtl | Ltr

  /** The language a visit starts in. */
  const InitialLang: Lang := Ar

  /** The page's direction: right-to-left exactly for Arabic. */
  function Dir(lang: Lang): (d: Direction)
    ensures d == Rtl <==> lang == Ar
    ensures d == Ltr <==> lang == En
  {
    match lang
    case Ar => Rtl
    case En => Ltr
  }

  /** One dictionary per language. */
  datatype Translations = Translations(ar: map<string, string>, en: map<string, string>)

  function Table(tr: Translations, lang: Lang): map<string, string> {
    match lang
    case Ar => tr.ar
    case En => tr.en
  }

  /** `t(key)`: the current language's entry when it is present and not
      empty, otherwise the key itself. */
  function T(tr: Translations, lang: Lang, key: string): (r: string)
    ensures key in Table(tr, lang) && Table(tr, lang)[key] != "" ==> r == Table(tr, lang)[key]
    ensures !(key in Table(tr, lang) && Table(tr, lang)[key] != "") ==> r == key
    ensures r == "" ==> key == ""
  {
    var table := Table(tr, lang);
    if key in table && table[key] != "" then table[key] else key
  }

  /** The dictionaries with `text` entered for `key` in language `lang`. */
  function WithEntry(tr: Translations, lang: Lang, key: string, text: string): (r: Translations)
    ensures Table(r, lang) == Table(tr, lang)[key := text]
    ensures forall other: Lang :: other != lang ==> Table(r, other) == Table(tr, other)
  {
    match lang
    case Ar => tr.(ar := tr.ar[key := text])
    case En => tr.(en := tr.en[key := text])
  }

  /** Entering a non-empty translation changes what that key reads as in
      that language and nothing else; entering an empty one makes the key
      read as itself. */
  lemma EnteringTranslation(tr: Translations, lang: Lang, key: string, text: string)
    ensures var tr2 := WithEntry(tr, lang, key, text);
      && T(tr2, lang, key) == (if text != "" then text else key)
      && (forall k :: k != key ==> T(tr2, lang, k) == T(tr, lang, k))
      && (forall other: Lang, k :: other != lang ==> T(tr2, other, k) == T(tr, other, k))
  {
  }

  /** A visit starts right-to-left. */
  lemma StartsRightToLeft()
    ensures Dir(InitialLang) == Rtl
  {
  }
}

=== FILE: onboarding.dfy ===
/** The onboarding gate: which page a visitor may see and where each page
    sends them instead. Signed out, then a chosen (non-`temp-`) subdomain,
    then a language mode, then the dashboard. Each decision is a function
    of what the stores hold when the page renders. */
module Onboarding {
  import opened Options
  import opened Text
  import opened SubdomainText
  import opened Api
  import opened Json
  import opened AuthTypes
  import opened PortfolioStore
  import AuthService
  import SubdomainCard

  datatype Route =
    | Home
    | LoginPage
    | SignupPage
    | VerifyEmailPage
    | ChooseSubdomainPage
    | SelectLanguageModePage
    | DashboardPage
    | ProfilePage
    | SectionEditorPage(sectionName: string)
    | OtherPage(path: string)

  /** What a page does when it renders: show itself, show nothing yet, or
      navigate elsewhere. Every redirect here replaces the history entry;
      `from` is the location state a redirect to the login page carries. */
  datatype Decision =
    | Render
    | RenderNothing
    | Redirect(to: Route, replace: bool, from: Option<string>)

  /** What the pages read from the stores and queries. */
  datatype Context = Context(
    isAuthenticated: bool,
    user: Option<AuthUser>,
    portfolio: Option<Portfolio>,
    portfolioLoading: bool)

  function UserSubdomain(ctx: Context): Option<string> {
    if ctx.user.Some? then ctx.user.value.subdomain else None
  }

  function LanguageMode(ctx: Context): Option<string> {
    if ctx.portfolio.Some? then ctx.portfolio.value.languageMode else None
  }

  /** A subdomain the user chose: present, not empty, not `temp-`. */
  predicate IsConfigured(subdomain: Option<string>) {
    Filled(subdomain) && !IsTemporary(subdomain.value)
  }

  /** No generated subdomain ever counts as chosen, whatever its seed. */
  lemma GeneratedIsNeverConfigured(seed: string, nonce: string)
    ensures !IsConfigured(Some(AuthService.GenerateTemporary(seed, nonce)))
  {
  }

  /** Login and sign-up are for visitors only: a signed-in user goes to the
      dashboard once a subdomain is chosen, else to choose one. */
  function GuestOnly(ctx: Context): (d: Decision)
    ensures d == Render <==> !ctx.isAuthenticated
    ensures ctx.isAuthenticated && IsConfigured(UserSubdomain(ctx)) ==>
      d == Redirect(DashboardPage, true, None)
    ensures ctx.isAuthenticated && !IsConfigured(UserSubdomain(ctx)) ==>
      d == Redirect(ChooseSubdomainPage, true, None)
  {
    if ctx.isAuthenticated then
      Redirect(if IsConfigured(UserSubdomain(ctx)) then DashboardPage else ChooseSubdomainPage, true, None)
    else Render
  }

  /** Protected pages send a signed-out visitor to the login page,
      remembering where they came from; the page itself is untouched
      otherwise. */
  function RequireAuth(ctx: Context, pathname: string, page: Decision): (d: Decision)
    ensures !ctx.isAuthenticated ==> d == Redirect(LoginPage, true, Some(pathname))
    ensures ctx.isAuthenticated ==> d == page
  {
    if !ctx.isAuthenticated then Redirect(LoginPage, true, Some(pathname)) else page
  }

  /** The subdomain page: a visitor with no session and no user goes to log
      in; a user with a chosen subdomain waits for the portfolio and then
      moves on to the dashboard or the language choice; everyone else sees
      the picker. */
  function ChooseSubdomain(ctx: Context): (d: Decision)
    ensures !ctx.isAuthenticated && ctx.user.None? ==> d == Redirect(LoginPage, true, None)
    ensures (ctx.isAuthenticated || ctx.user.Some?) && IsConfigured(UserSubdomain(ctx)) ==>
      d == (if ctx.portfolioLoading then RenderNothing
            else if Filled(LanguageMode(ctx)) then Redirect(DashboardPage, true, None)
            else Redirect(SelectLanguageModePage, true, None))
    ensures d == Render <==> (ctx.isAuthenticated || ctx.user.Some?) && !IsConfigured(UserSubdomain(ctx))
  {
    if !ctx.isAuthenticated && ctx.user.None? then Redirect(LoginPage, true, None)
    else if IsConfigured(UserSubdomain(ctx)) then
      if ctx.portfolioLoading then RenderNothing
      else Redirect(if Filled(LanguageMode(ctx)) then DashboardPage else SelectLanguageModePage, true, None)
    else Render
  }

  /** The language page, in order: signed out goes to log in, no subdomain
      goes to choose one, a loaded portfolio with a mode goes to the
      dashboard. A `temp-` subdomain is not checked here. */
  function SelectLanguageMode(ctx: Context): (d: Decision)
    ensures !ctx.isAuthenticated ==> d == Redirect(LoginPage, true, None)
    ensures ctx.isAuthenticated && !Filled(UserSubdomain(ctx)) ==> d == Redirect(ChooseSubdomainPage, true, None)
    ensures ctx.isAuthenticated && Filled(UserSubdomain(ctx)) && !ctx.portfolioLoading && Filled(LanguageMode(ctx)) ==>
      d == Redirect(DashboardPage, true, None)
    ensures d == Render <==>
      ctx.isAuthenticated && Filled(UserSubdomain(ctx)) && (ctx.portfolioLoading || !Filled(LanguageMode(ctx)))
  {
    if !ctx.isAuthenticated then Redirect(LoginPage, true, None)
    else if !Filled(UserSubdomain(ctx)) then Redirect(ChooseSubdomainPage, true, None)
    else if !ctx.portfolioLoading && Filled(LanguageMode(ctx)) then Redirect(DashboardPage, true, None)
    else Render
  }

  /** The verification page sends a signed-in user on: to the dashboard
      with any subdomain, else to choose one. */
  function VerifyEmail(ctx: Context): (d: Decision)
    ensures d == Render <==> !ctx.isAuthenticated
    ensures ctx.isAuthenticated ==>
      d == Redirect(if Filled(UserSubdomain(ctx)) then DashboardPage else ChooseSubdomainPage, true, None)
  {
    if ctx.isAuthenticated then
      Redirect(if Filled(UserSubdomain(ctx)) then DashboardPage else ChooseSubdomainPage, true, None)
    else Render
  }

  /** The subdomain the dashboard goes by: the user's, else the portfolio's. */
  function EffectiveSubdomain(ctx: Context): (r: Option<string>)
    ensures Filled(UserSubdomain(ctx)) ==> r == UserSubdomain(ctx)
    ensures !Filled(UserSubdomain(ctx)) ==> r == (if ctx.portfolio.Some? then ctx.portfolio.value.subdomain else None)
  {
    if Filled(UserSubdomain(ctx)) then UserSubdomain(ctx)
    else if ctx.portfolio.Some? then ctx.portfolio.value.subdomain
    else None
  }

  /** The dashboard, in order: signed out goes to log in; no usable
      subdomain goes to choose one; a loaded portfolio without a mode goes
      to the language choice. */
  function Dashboard(ctx: Context): (d: Decision)
    ensures !ctx.isAuthenticated ==> d == Redirect(LoginPage, true, None)
    ensures ctx.isAuthenticated && !IsConfigured(EffectiveSubdomain(ctx)) ==>
      d == Redirect(ChooseSubdomainPage, true, None)
    ensures ctx.isAuthenticated && IsConfigured(EffectiveSubdomain(ctx)) ==>
      d == (if !ctx.portfolioLoading && !Filled(LanguageMode(ctx)) then Redirect(SelectLanguageModePage, true, None)
            else Render)
  {
    if !ctx.isAuthenticated then Redirect(LoginPage, true, None)
    else if !IsConfigured(EffectiveSubdomain(ctx)) then Redirect(ChooseSubdomainPage, true, None)
    else if !ctx.portfolioLoading && !Filled(LanguageMode(ctx)) then Redirect(SelectLanguageModePage, true, None)
    else Render
  }

  /** A sign-up that left the subdomain blank gets a generated `temp-` one,
      so once signed in the visitor is sent to choose a real one. */
  lemma GeneratedSubdomainMustBeChosen(p: AuthService.RegisterPayload, nonce: string, ctx: Context)
    requires !AuthService.SuppliedSubdomain(p.subdomain)
    requires ctx.isAuthenticated && UserSubdomain(ctx) == AuthService.RegisterRequest(p, nonce).subdomain
    ensures GuestOnly(ctx) == Redirect(ChooseSubdomainPage, true, None)
    ensures Dashboard(ctx) == Redirect(ChooseSubdomainPage, true, None)
  {
  }

  /** The dashboard shows only to a signed-in user with a chosen subdomain
      whose language mode is set or still loading. */
  lemma DashboardShowsOnlyWhenOnboarded(ctx: Context)
    requires Dashboard(ctx) == Render
    ensures ctx.isAuthenticated && IsConfigured(EffectiveSubdomain(ctx))
    ensures ctx.portfolioLoading || Filled(LanguageMode(ctx))
  {
  }

  function PathOf(route: Route): string {
    match route
    case Home => "/"
    case LoginPage => "/login"
    case SignupPage => "/signup"
    case VerifyEmailPage => "/verify-email"
    case ChooseSubdomainPage => "/choose-subdomain"
    case SelectLanguageModePage => "/select-language-mode"
    case DashboardPage => "/dashboard"
    case ProfilePage => "/profile"
    case SectionEditorPage(name) => "/section/" + name + "/editor"
    case OtherPage(path) => path
  }

  /** What the router shows at a route, with the guards each route is
      wrapped in. */
  function Page(ctx: Context, route: Route): (d: Decision)
    ensures d.Redirect? ==> d.replace
    ensures route.OtherPage? || route == Home ==> d == Render
  {
    match route
    case LoginPage => GuestOnly(ctx)
    case SignupPage => GuestOnly(ctx)
    case VerifyEmailPage => VerifyEmail(ctx)
    case ChooseSubdomainPage => ChooseSubdomain(ctx)
    case SelectLanguageModePage => RequireAuth(ctx, PathOf(route), SelectLanguageMode(ctx))
    case DashboardPage => RequireAuth(ctx, PathOf(route), Dashboard(ctx))
    case ProfilePage => RequireAuth(ctx, PathOf(route), Render)
    case SectionEditorPage(_) => RequireAuth(ctx, PathOf(route), Render)
    case Home => Render
    case OtherPage(_) => Render
  }

  /** Follows redirects for at most `hops` steps while nothing changes. */
  function Follow(ctx: Context, route: Route, hops: nat): Decision
    decreases hops
  {
    var d := Page(ctx, route);
    if d.Redirect? && hops > 0 then Follow(ctx, d.to, hops - 1) else d
  }

  /** The guards never chase each other: from any route, whatever the
      stores hold, at most two redirects lead to a page that renders (or
      waits). */
  lemma {:induction false} RedirectsSettle(ctx: Context, route: Route)
    ensures !Follow(ctx, route, 2).Redirect?
  {
    var d0 := Page(ctx, route);
    if d0.Redirect? {
      var d1 := Page(ctx, d0.to);
      if d1.Redirect? {
        var d2 := Page(ctx, d1.to);
        assert Follow(ctx, d1.to, 0) == d2;
        assert Follow(ctx, d0.to, 1) == Follow(ctx, d1.to, 0);
        SettlesWithinTwo(ctx, route);
      }
    }
  }

  lemma SettlesWithinTwo(ctx: Context, route: Route)
    requires Page(ctx, route).Redirect? && Page(ctx, Page(ctx, route).to).Redirect?
    ensures !Page(ctx, Page(ctx, Page(ctx, route).to).to).Redirect?
  {
  }

  /** The effects of choosing a language mode, in order. */
  datatype SelectEffect = Bootstrap | UpdateLanguageMode(mode: string) | GoTo(route: Route)

  /** `handleSelect`: create the portfolio first when there is none, then
      save the mode, then go to the dashboard; a failed step ends the
      sequence and the page stays. */
  function HandleSelect(portfolio: Option<Portfolio>, mode: string,
                        bootstrap: Outcome<()>, update: Outcome<()>): (effects: seq<SelectEffect>)
    ensures Bootstrap in effects <==> portfolio.None?
    ensures portfolio.None? ==> effects[0] == Bootstrap
    ensures UpdateLanguageMode(mode) in effects <==> portfolio.Some? || bootstrap.Ok?
    ensures GoTo(DashboardPage) in effects <==> (portfolio.Some? || bootstrap.Ok?) && update.Ok?
    ensures GoTo(DashboardPage) in effects ==> effects[|effects| - 1] == GoTo(DashboardPage)
    ensures forall i, j :: 0 <= i < |effects| && 0 <= j < |effects| && effects[i] == Bootstrap && effects[j].UpdateLanguageMode? ==> i < j
    ensures forall e :: e in effects ==> e == Bootstrap || e == UpdateLanguageMode(mode) || e == GoTo(DashboardPage)
    ensures |effects| == (if portfolio.None? then 1 else 0)
                         + (if portfolio.Some? || bootstrap.Ok? then 1 else 0)
                         + (if (portfolio.Some? || bootstrap.Ok?) && update.Ok? then 1 else 0)
  {
    var first := if portfolio.None? then [Bootstrap] else [];
    if portfolio.None? && bootstrap.Err? then first
    else
      var saved := first + [UpdateLanguageMode(mode)];
      if update.Ok? then saved + [GoTo(DashboardPage)] else saved
  }

  /** Every step of choosing a language mode, for a run in which none fails. */
  function SelectSteps(portfolio: Option<Portfolio>, mode: string): seq<SelectEffect> {
    (if portfolio.None? then [Bootstrap] else []) + [UpdateLanguageMode(mode), GoTo(DashboardPage)]
  }

  /** A failure only cuts the sequence short: what happens is always a
      prefix of the full run, the full run exactly when no step fails, and
      a cut run leaves the user on the page. */
  lemma HandleSelectIsPrefix(portfolio: Option<Portfolio>, mode: string,
                             bootstrap: Outcome<()>, update: Outcome<()>)
    ensures var effects := HandleSelect(portfolio, mode, bootstrap, update);
      && |effects| <= |SelectSteps(portfolio, mode)|
      && effects == SelectSteps(portfolio, mode)[..|effects|]
      && (effects == SelectSteps(portfolio, mode) <==> (portfolio.Some? || bootstrap.Ok?) && update.Ok?)
      && (effects != SelectSteps(portfolio, mode) ==> forall e :: e in effects ==> !e.GoTo?)
  {
  }

  /** The address the verification page works with: the one handed over
      by the previous page, else the one awaiting verification, else what
      was typed. */
  function EmailToUse(stateEmail: Option<string>, pendingEmail: Option<string>, typed: string): (r: string)
    ensures Filled(stateEmail) ==> r == stateEmail.value
    ensures !Filled(stateEmail) && Filled(pendingEmail) ==> r == pendingEmail.value
    ensures !Filled(stateEmail) && !Filled(pendingEmail) ==> r == typed
  {
    if Filled(stateEmail) then stateEmail.value
    else if Filled(pendingEmail) then pendingEmail.value
    else typed
  }

  /** `onResend`: no request without an address. */
  function OnResend(email: string): (request: Option<string>)
    ensures request.None? <==> email == ""
    ensures request.Some? ==> request.value == email
  {
    if email == "" then None else Some(email)
  }

  /** The effects of submitting the verification form. */
  datatype VerifyEffect = CallVerify(email: string, code: string) | Navigate(route: Route)

  /** `onVerify`: the request, and the move to the subdomain page only once
      it has succeeded. */
  function OnVerify<T>(email: string, code: string, outcome: Outcome<T>): (effects: seq<VerifyEffect>)
    ensures |effects| >= 1 && effects[0] == CallVerify(email, code)
    ensures Navigate(ChooseSubdomainPage) in effects <==> outcome.Ok?
    ensures forall e :: e in effects && e.Navigate? ==> e == Navigate(ChooseSubdomainPage)
    ensures |effects| == if outcome.Ok? then 2 else 1
  {
    [CallVerify(email, code)] + (if outcome.Ok? then [Navigate(ChooseSubdomainPage)] else [])
  }

  /** The subdomain page's picker: it starts from no current subdomain and
      moves on to the language choice once the update has succeeded. The
      card's guard is the one as written, so a stale availability answer
      lets it through. */
  function ChooseSubdomainSubmit<T>(clean: string, view: SubdomainCard.AvailabilityView,
                                    outcome: Outcome<T>): (next: Option<Route>)
    ensures next.Some? <==> SubdomainCard.CanUpdateAsWritten(clean, None, view) && outcome.Ok?
    ensures next.Some? ==> next.value == SelectLanguageModePage
  {
    var effects := SubdomainCard.HandleUpdate(clean, None, view, outcome, true);
    if SubdomainCard.CallOnSuccess in effects then Some(SelectLanguageModePage) else None
  }

  /** One card on the dashboard: the section's name and its metadata. */
  datatype SectionEntry = SectionEntry(name: string, value: Json)

  const InactiveFlag: Json := Obj([Entry("active", Bool(false))])

  /** `sectionEntries`: a list of names becomes `(name, {active: false})`
      pairs, an object its entries in order; a string yields one entry per
      character (`Object.entries` of a string), anything else none. */
  function SectionEntries(sections: Option<Json>): (r: seq<SectionEntry>)
    ensures sections.Some? && sections.value.Arr? ==>
      |r| == |sections.value.items|
      && forall i :: 0 <= i < |r| ==>
           r[i] == SectionEntry(ToDisplayString(sections.value.items[i]), InactiveFlag)
    ensures sections.Some? && sections.value.Obj? ==>
      |r| == |sections.value.fields|
      && forall i :: 0 <= i < |r| ==>
           r[i] == SectionEntry(sections.value.fields[i].key, sections.value.fields[i].value)
    ensures sections.Some? && sections.value.Str? ==>
      |r| == |sections.value.s|
      && forall i :: 0 <= i < |r| ==> r[i] == SectionEntry(NatToString(i), Str([sections.value.s[i]]))
    ensures sections.None? || sections.value.Null? || sections.value.Num? || sections.value.Bool? ==> r == []
  {
    match sections
    case None => []
    case Some(j) =>
      match j
      case Arr(items) => seq(|items|, i requires 0 <= i < |items| => SectionEntry(ToDisplayString(items[i]), InactiveFlag))
      case Obj(fields) => seq(|fields|, i requires 0 <= i < |fields| => SectionEntry(fields[i].key, fields[i].value))
      case Str(s) => seq(|s|, i requires 0 <= i < |s| => SectionEntry(NatToString(i), Str([s[i]])))
      case _ => []
  }

  /** No section from a plain list of names is shown as switched on. */
  lemma ListedSectionsStartClosed(sections: Option<Json>, i: nat)
    requires sections.Some? && sections.value.Arr?
    requires i < |SectionEntries(sections)|
    ensures !ActiveFlagSet(SectionEntries(sections)[i].value)
  {
  }

  /** The switch of a section: on only when its metadata is an object whose
      `active` is the boolean `true`. */
  function SectionActive(e: SectionEntry): (r: bool)
    ensures r ==> e.value.Obj?
    ensures r <==> ActiveFlagSet(e.value)
  {
    ActiveFlagSet(e.value)
  }

  /** The pending toggle request, if any. */
  datatype ToggleRequest = ToggleRequest(sectionName: string, active: bool)

  /** A card shows "Updating..." only for the section the request in
      flight names. */
  function IsToggling(pending: Option<ToggleRequest>, sectionName: string): (r: bool)
    ensures r <==> pending.Some? && pending.value.sectionName == sectionName
  {
    pending.Some? && pending.value.sectionName == sectionName
  }

  /** On a dashboard whose sections come as an object, at most one card
      shows "Updating..." at a time: the object's keys are distinct and the
      request in flight names one of them. */
  lemma OneCardToggling(sections: Json, pending: Option<ToggleRequest>, i: nat, j: nat)
    requires sections.Obj? && DistinctKeys(sections.fields)
    requires i < j < |SectionEntries(Some(sections))|
    ensures !(IsToggling(pending, SectionEntries(Some(sections))[i].name)
              && IsToggling(pending, SectionEntries(Some(sections))[j].name))
  {
    var r := SectionEntries(Some(sections));
    assert r[i].name == Keys(sections.fields)[i] && r[j].name == Keys(sections.fields)[j];
  }

  /** A list of names may repeat a name, and then two cards show
      "Updating..." together. */
  lemma RepeatedNameTogglesTwice()
    ensures var r := SectionEntries(Some(Arr([Str("about"), Str("about")])));
      |r| == 2 && IsToggling(Some(ToggleRequest("about", true)), r[0].name)
      && IsToggling(Some(ToggleRequest("about", true)), r[1].name)
  {
  }
}

=== FILE: options.dfy ===
/** Optional values: the model's stand-in for JavaScript's `null` and `undefined`. */
module Options {

  datatype Option<+T> = None | Some(value: T) {

    /** The wrapped value, or `default` when absent (the `??` operator). */
    function GetOr(default: T): T {
      match this
      case Some(v) => v
      case None => default
    }
  }
}

=== FILE: portfolio_store.dfy ===
/** The portfolio store: the loaded portfolio and the list of sections the
    user has switched on. */
module PortfolioStore {
  import opened Options
  import opened Seqs

  /** The fields of a portfolio the onboarding pages read. */
  datatype Portfolio = Portfolio(subdomain: Option<string>, languageMode: Option<string>, isPublished: Option<bool>)

  datatype PortfolioState = PortfolioState(portfolio: Option<Portfolio>, activeSections: seq<string>)

  const InitialState := PortfolioState(None, [])

  /** `setPortfolio`: the portfolio replaced, the section list untouched. */
  function SetPortfolio(s: PortfolioState, p: Option<Portfolio>): (r: PortfolioState)
    ensures r.portfolio == p && r.activeSections == s.activeSections
  {
    s.(portfolio := p)
  }

  /** `setActiveSections`: the list replaced wholesale, the portfolio
      untouched. */
  function SetActiveSections(s: PortfolioState, sections: seq<string>): (r: PortfolioState)
    ensures r.activeSections == sections && r.portfolio == s.portfolio
  {
    s.(activeSections := sections)
  }

  /** `toggleSection`: an absent key is appended at the end; a present one
      is removed everywhere, the rest kept in order. Only that key's
      membership changes. */
  function Toggle(s: PortfolioState, key: string): (r: PortfolioState)
    ensures r.portfolio == s.portfolio
    ensures key in r.activeSections <==> key !in s.activeSections
    ensures forall x :: x != key ==> (x in r.activeSections <==> x in s.activeSections)
    ensures key !in s.activeSections ==> r.activeSections == s.activeSections + [key]
    ensures key in s.activeSections ==> r.activeSections == RemoveAll(s.activeSections, key)
  {
    var active := s.activeSections;
    var next := if key in active then RemoveAll(active, key) else active + [key];
    assert forall x :: x != key && x in active ==> x in next by {
      forall x | x != key && x in active ensures x in next {
        var i :| 0 <= i < |active| && active[i] == x;
      }
    }
    s.(activeSections := next)
  }

  /** Switching a section on and off again restores the list exactly. */
  lemma ToggleTwiceRestores(s: PortfolioState, key: string)
    requires key !in s.activeSections
    ensures Toggle(Toggle(s, key), key) == s
  {
    RemoveAllAppend(s.activeSections, [key], key);
    assert RemoveAll([key], key) == [];
  }

  /** Switching a listed section off and on moves it to the end. */
  lemma ToggleTwiceMovesLast(s: PortfolioState, key: string)
    requires key in s.activeSections
    ensures Toggle(Toggle(s, key), key).activeSections == RemoveAll(s.activeSections, key) + [key]
  {
  }

  /** A list without repeats keeps having none. */
  lemma ToggleKeepsNoDup(s: PortfolioState, key: string)
    requires NoDup(s.activeSections)
    ensures NoDup(Toggle(s, key).activeSections)
  {
    if key in s.activeSections {
      RemoveAllNoDup(s.activeSections, key);
    } else {
      AppendFreshNoDup(s.activeSections, key);
    }
  }

  /** `clearPortfolio`: back to the state a visit starts in. */
  function Clear(s: PortfolioState): (r: PortfolioState)
    ensures r.portfolio.None? && r.activeSections == []
  {
    InitialState
  }
}

=== FILE: seqs.dfy ===
/** Sequence helpers shared by the stores and the editor: removing every
    occurrence of a value (`Array.prototype.filter` with `!==`), removing one
    index, and duplicate-freedom. */
module Seqs {

  /** No value occurs twice. */
  ghost predicate NoDup<T>(s: seq<T>) {
    forall i, j :: 0 <= i < j < |s| ==> s[i] != s[j]
  }

  /** `s.filter(y => y !== x)`: every occurrence of `x` dropped, the rest in order. */
  function RemoveAll<T(==)>(s: seq<T>, x: T): (r: seq<T>)
    ensures |r| <= |s|
    ensures x !in r
    ensures forall i :: 0 <= i < |r| ==> r[i] in s && r[i] != x
    ensures forall i :: 0 <= i < |s| && s[i] != x ==> s[i] in r
    ensures x !in s ==> r == s
    decreases |s|
  {
    if |s| == 0 then []
    else (if s[0] == x then [] else [s[0]]) + RemoveAll(s[1..], x)
  }

  lemma {:induction false} RemoveAllAppend<T>(a: seq<T>, b: seq<T>, x: T)
    ensures RemoveAll(a + b, x) == RemoveAll(a, x) + RemoveAll(b, x)
    decreases |a|
  {
    if |a| == 0 {
      assert a + b == b;
    } else {
      assert (a + b)[1..] == a[1..] + b;
      RemoveAllAppend(a[1..], b, x);
    }
  }

  /** Removing a value that occurs exactly once shortens the sequence by one. */
  lemma {:induction false} RemoveAllNoDup<T>(s: seq<T>, x: T)
    requires NoDup(s)
    ensures NoDup(RemoveAll(s, x))
    ensures x in s ==> |RemoveAll(s, x)| == |s| - 1
    decreases |s|
  {
    if |s| > 0 {
      var t := s[1..];
      NoDupTail(s);
      HeadNotInTail(s);
      RemoveAllNoDup(t, x);
      var rest := RemoveAll(t, x);
      if s[0] != x {
        ConsFreshNoDup(s[0], rest);
        assert x in s ==> x in t;
      }
    }
  }

  /** In a duplicate-free sequence the head does not recur. */
  lemma HeadNotInTail<T>(s: seq<T>)
    requires NoDup(s) && |s| > 0
    ensures s[0] !in s[1..]
  {
    var t := s[1..];
    forall i | 0 <= i < |t| ensures t[i] != s[0] {
      assert t[i] == s[i + 1];
    }
  }

  /** Putting a fresh value in front keeps a sequence duplicate-free. */
  lemma ConsFreshNoDup<T>(a: T, rest: seq<T>)
    requires NoDup(rest) && a !in rest
    ensures NoDup([a] + rest)
  {
    var r := [a] + rest;
    forall i, j | 0 <= i < j < |r| ensures r[i] != r[j] {
      assert r[j] == rest[j - 1];
      if i > 0 {
        assert r[i] == rest[i - 1];
      }
    }
  }

  lemma NoDupTail<T>(s: seq<T>)
    requires NoDup(s) && |s| > 0
    ensures NoDup(s[1..])
  {
    var t := s[1..];
    forall i, j | 0 <= i < j < |t| ensures t[i] != t[j] {
      assert t[i] == s[i + 1] && t[j] == s[j + 1];
    }
  }

  /** Appending a fresh value keeps a sequence duplicate-free. */
  lemma AppendFreshNoDup<T>(s: seq<T>, x: T)
    requires NoDup(s) && x !in s
    ensures NoDup(s + [x])
  {
    var r := s + [x];
    forall i, j | 0 <= i < j < |r| ensures r[i] != r[j] {
      if j == |s| {
        assert r[i] == s[i];
        assert s[i] in s;
      } else {
        assert r[i] == s[i] && r[j] == s[j];
      }
    }
  }

  /** `s.filter((_, j) => j !== i)`: the element at index `i` (if any) dropped. */
  function RemoveIndex<T>(s: seq<T>, i: int): (r: seq<T>)
    ensures 0 <= i < |s| ==> r == s[..i] + s[i + 1..]
    ensures !(0 <= i < |s|) ==> r == s
    decreases |s|
  {
    if |s| == 0 then []
    else (if i == 0 then [] else [s[0]]) + RemoveIndex(s[1..], i - 1)
  }
}

=== FILE: subdomain_card.dfy ===
/** The subdomain picker card: the typed name is sanitised, its
    availability reported, and the update sent only when it may succeed. */
module SubdomainCard {
  import opened Options
  import opened Text
  import opened SubdomainText
  import opened Api

  const MaxLength: nat := 40

  /** `sanitizeSubdomain`: lower-cased, reduced to `[a-z0-9-]`, cut to 40. */
  function Sanitize(value: string): (r: string)
    ensures AllSubdomainChars(r)
    ensures |r| <= MaxLength
    ensures var kept := KeepSubdomainChars(ToLower(value));
      |r| <= |kept| && r == kept[..|r|] && (|r| == MaxLength || r == kept)
  {
    Take(KeepSubdomainChars(ToLower(value)), MaxLength)
  }

  /** A name is left as it is exactly when it is already a sanitised name. */
  lemma SanitizeFixedPoint(value: string)
    ensures Sanitize(value) == value <==> AllSubdomainChars(value) && |value| <= MaxLength
  {
    if AllSubdomainChars(value) && |value| <= MaxLength {
      LowerOfSubdomainChars(value);
    }
  }

  /** Sanitising twice is sanitising once. */
  lemma SanitizeIdempotent(value: string)
    ensures Sanitize(Sanitize(value)) == Sanitize(value)
  {
    SanitizeFixedPoint(Sanitize(value));
  }

  /** The last availability answer, and for which name it was given. */
  datatype Answer = Answer(forName: string, available: bool)

  /** The availability query as the card sees it. */
  datatype AvailabilityView = AvailabilityView(answer: Option<Answer>, fetching: bool)

  /** `availability.data?.available === true`. */
  predicate ReportsAvailable(view: AvailabilityView) {
    view.answer.Some? && view.answer.value.available
  }

  /** `canUpdate` as written: long enough, reported available, and different
      from the current subdomain. It does not ask which name the answer was
      for. */
  predicate CanUpdateAsWritten(clean: string, current: Option<string>, view: AvailabilityView) {
    |clean| >= 3 && ReportsAvailable(view) && clean != current.GetOr("")
  }

  /** `canUpdate` with the answer required to be about the name on screen. */
  predicate CanUpdate(clean: string, current: Option<string>, view: AvailabilityView) {
    CanUpdateAsWritten(clean, current, view) && view.answer.value.forName == clean
  }

  /** While the query still carries the answer for the previously typed
      name (the query key trails the input by its debounce delay and is
      not fetching yet), the card enables the update for a name nobody
      has checked. */
  lemma StaleAnswerEnablesUpdate()
    ensures var view := AvailabilityView(Some(Answer("abc", true)), false);
      && CanUpdateAsWritten("abd", None, view) && !CanUpdate("abd", None, view)
      && HandleUpdate("abd", None, view, Ok(()), true) == [CallUpdate("abd"), CallOnSuccess]
      && HandleUpdateChecked("abd", None, view, Ok(()), true) == []
  {
    var view := AvailabilityView(Some(Answer("abc", true)), false);
    assert "abd" != "abc" by { assert "abd"[2] != "abc"[2]; }
    assert !CanUpdate("abd", None, view);
  }

  /** The corrected rule only ever enables a name the server called available. */
  lemma CanUpdateIsChecked(clean: string, current: Option<string>, view: AvailabilityView)
    requires CanUpdate(clean, current, view)
    ensures view.answer == Some(Answer(clean, true))
  {
  }

  datatype Message = TypeToCheck | MinimumLength | Checking | Available | Unavailable

  function MessageText(m: Message): string {
    match m
    case TypeToCheck => "Type your subdomain to check availability."
    case MinimumLength => "Minimum 3 characters."
    case Checking => "Checking availability..."
    case Available => "Available. You can use this subdomain."
    case Unavailable => "Unavailable. Try another one."
  }

  /** The availability line, by strict priority: nothing typed, too short,
      check in flight, available, unavailable. */
  function AvailabilityMessage(clean: string, view: AvailabilityView): (m: Message)
    ensures m == TypeToCheck <==> |clean| == 0
    ensures m == MinimumLength <==> 0 < |clean| < 3
    ensures m == Checking <==> |clean| >= 3 && view.fetching
    ensures m == Available <==> |clean| >= 3 && !view.fetching && ReportsAvailable(view)
    ensures m == Unavailable <==> |clean| >= 3 && !view.fetching && !ReportsAvailable(view)
  {
    if |clean| == 0 then TypeToCheck
    else if |clean| < 3 then MinimumLength
    else if view.fetching then Checking
    else if ReportsAvailable(view) then Available
    else Unavailable
  }

  datatype Tone = Muted | Success | Destructive

  /** The colour of the availability line. */
  function AvailabilityTone(clean: string, view: AvailabilityView): (t: Tone)
    ensures t == Muted <==> |clean| < 3 || view.fetching
    ensures t == Success ==> ReportsAvailable(view)
    ensures t == Destructive ==> !ReportsAvailable(view)
  {
    if |clean| < 3 || view.fetching then Muted
    else if ReportsAvailable(view) then Success
    else Destructive
  }

  /** The colour agrees with the words: green exactly for "Available", red
      exactly for "Unavailable", muted for the three neutral lines. */
  lemma ToneMatchesMessage(clean: string, view: AvailabilityView)
    ensures AvailabilityTone(clean, view) == Success <==> AvailabilityMessage(clean, view) == Available
    ensures AvailabilityTone(clean, view) == Destructive <==> AvailabilityMessage(clean, view) == Unavailable
    ensures AvailabilityTone(clean, view) == Muted <==>
      AvailabilityMessage(clean, view) in {TypeToCheck, MinimumLength, Checking}
  {
  }

  /** An enabled update is shown either as available or as a check in
      flight: a new check does not hide the last answer. */
  lemma UpdateEnabledMessage(clean: string, current: Option<string>, view: AvailabilityView)
    requires CanUpdateAsWritten(clean, current, view)
    ensures AvailabilityMessage(clean, view) in {Checking, Available}
  {
  }

  /** What submitting the card does. */
  datatype CardEffect = CallUpdate(subdomain: string) | CallOnSuccess

  /** The effects of a submission once the guard has been evaluated. */
  function Submit<T>(allowed: bool, clean: string, outcome: Outcome<T>, hasOnSuccess: bool): seq<CardEffect> {
    if !allowed then []
    else [CallUpdate(clean)] + (if outcome.Ok? && hasOnSuccess then [CallOnSuccess] else [])
  }

  /** `handleUpdate` as written: nothing unless `canUpdate` holds; then the
      update call, and the success callback only once it has succeeded. */
  function HandleUpdate<T>(clean: string, current: Option<string>, view: AvailabilityView,
                           outcome: Outcome<T>, hasOnSuccess: bool): (effects: seq<CardEffect>)
    ensures !CanUpdateAsWritten(clean, current, view) ==> effects == []
    ensures CanUpdateAsWritten(clean, current, view) ==> |effects| >= 1 && effects[0] == CallUpdate(clean)
    ensures CallOnSuccess in effects <==> CanUpdateAsWritten(clean, current, view) && outcome.Ok? && hasOnSuccess
    ensures CallOnSuccess in effects ==> effects == [CallUpdate(clean), CallOnSuccess]
    ensures |effects| <= 2
    ensures forall e :: e in effects ==> e == CallUpdate(clean) || e == CallOnSuccess
  {
    Submit(CanUpdateAsWritten(clean, current, view), clean, outcome, hasOnSuccess)
  }

  /** `handleUpdate` guarded by the corrected rule: a name is only ever sent
      after the server has called that very name available. */
  function HandleUpdateChecked<T>(clean: string, current: Option<string>, view: AvailabilityView,
                                  outcome: Outcome<T>, hasOnSuccess: bool): (effects: seq<CardEffect>)
    ensures CallUpdate(clean) in effects <==> CanUpdate(clean, current, view)
    ensures CallUpdate(clean) in effects ==> view.answer == Some(Answer(clean, true))
    ensures !CanUpdate(clean, current, view) ==> effects == []
    ensures CallOnSuccess in effects <==> CanUpdate(clean, current, view) && outcome.Ok? && hasOnSuccess
    ensures |effects| <= 2
    ensures forall e :: e in effects ==> e == CallUpdate(clean) || e == CallOnSuccess
    ensures CanUpdate(clean, current, view) ==> effects[0] == CallUpdate(clean)
  {
    Submit(CanUpdate(clean, current, view), clean, outcome, hasOnSuccess)
  }

  /** The card as written and the corrected card act alike except when the
      last answer is about another name than the one on screen. */
  lemma HandlersDifferOnlyOnStaleAnswer<T>(clean: string, current: Option<string>, view: AvailabilityView,
                                          outcome: Outcome<T>, hasOnSuccess: bool)
    ensures HandleUpdate(clean, current, view, outcome, hasOnSuccess)
            != HandleUpdateChecked(clean, current, view, outcome, hasOnSuccess)
        <==> CanUpdateAsWritten(clean, current, view) && view.answer.value.forName != clean
  {
    if CanUpdateAsWritten(clean, current, view) && view.answer.value.forName != clean {
      assert HandleUpdate(clean, current, view, outcome, hasOnSuccess)[0] == CallUpdate(clean);
    }
  }
}

=== FILE: subdomain_text.dfy ===
/** The character class both subdomain sanitisers keep (`[a-z0-9-]`) and
    the `temp-` marker of a generated subdomain. */
module SubdomainText {
  import opened Text

  predicate IsSubdomainChar(c: char) {
    IsLowerLetter(c) || IsDigit(c) || c == '-'
  }

  predicate AllSubdomainChars(s: string) {
    forall i :: 0 <= i < |s| ==> IsSubdomainChar(s[i])
  }

  /** `replace(/[^a-z0-9-]/g, '')`: every other character dropped, the kept
      ones in order. */
  function KeepSubdomainChars(s: string): (r: string)
    ensures |r| <= |s|
    ensures AllSubdomainChars(r)
    ensures AllSubdomainChars(s) ==> r == s
    ensures forall c :: c in r <==> c in s && IsSubdomainChar(c)
    decreases |s|
  {
    if |s| == 0 then ""
    else
      var rest := KeepSubdomainChars(s[1..]);
      assert forall c :: c in s <==> c == s[0] || c in s[1..];
      (if IsSubdomainChar(s[0]) then [s[0]] else []) + rest
  }

  /** Keeping the subdomain characters keeps the kept ones in order and
      drops exactly the others: a string made of one disallowed character
      comes out empty, an allowed one comes out as itself. */
  lemma KeepSingle(c: char)
    ensures KeepSubdomainChars([c]) == if IsSubdomainChar(c) then [c] else []
  {
    assert [c][1..] == [];
  }

  /** Filtering works piecewise, so it is fixed by what it does to a single
      character. */
  lemma {:induction false} KeepAppend(a: string, b: string)
    ensures KeepSubdomainChars(a + b) == KeepSubdomainChars(a) + KeepSubdomainChars(b)
    decreases |a|
  {
    if |a| == 0 {
      assert a + b == b;
    } else {
      assert (a + b)[1..] == a[1..] + b;
      KeepAppend(a[1..], b);
    }
  }

  /** Lower-casing leaves subdomain characters alone. */
  lemma LowerOfSubdomainChars(s: string)
    requires AllSubdomainChars(s)
    ensures ToLower(s) == s
  {
    ToLowerIdentity(s);
  }

  /** The prefix marking a generated, not yet chosen, subdomain. */
  const TempPrefix := "temp-"

  predicate IsTemporary(s: string) {
    StartsWith(s, TempPrefix)
  }
}

=== FILE: text.dfy ===
/** Character classes and string operations of the JavaScript runtime, as the
    rest of the model uses them. Strings are sequences of Unicode scalar
    values; letter case is ASCII-only (see the README). */
module Text {

  /** The characters matched by `\s` and removed by `String.prototype.trim`:
      ECMAScript WhiteSpace and LineTerminator. */
  predicate IsSpace(c: char) {
    || c == ' ' || c == '\t' || c == '\n' || c == '\U{000B}' || c == '\U{000C}' || c == '\r'
    || c == '\U{00A0}' || c == '\U{1680}' || ('\U{2000}' <= c <= '\U{200A}')
    || c == '\U{2028}' || c == '\U{2029}' || c == '\U{202F}' || c == '\U{205F}'
    || c == '\U{3000}' || c == '\U{FEFF}'
  }

  /** The characters a regular-expression `.` does not match. */
  predicate IsLineTerminator(c: char) {
    c == '\n' || c == '\r' || c == '\U{2028}' || c == '\U{2029}'
  }

  predicate IsUpper(c: char) { 'A' <= c <= 'Z' }

  predicate IsLowerLetter(c: char) { 'a' <= c <= 'z' }

  predicate IsDigit(c: char) { '0' <= c <= '9' }

  function ToLowerChar(c: char): char {
    if IsUpper(c) then (c as int + 32) as char else c
  }

  function ToUpperChar(c: char): char {
    if IsLowerLetter(c) then (c as int - 32) as char else c
  }

  /** `toLowerCase()` restricted to ASCII letters. */
  function ToLower(s: string): (r: string)
    ensures |r| == |s|
    ensures forall i :: 0 <= i < |s| ==> r[i] == ToLowerChar(s[i])
  {
    seq(|s|, i requires 0 <= i < |s| => ToLowerChar(s[i]))
  }

  /** Lower-casing a slice is slicing the lower-cased string. */
  lemma ToLowerSlice(s: string, a: nat, b: nat)
    requires a <= b <= |s|
    ensures ToLower(s[a..b]) == ToLower(s)[a..b]
  {
  }

  /** Lower-casing a piece of `s` gives the same piece of the lower-cased `s`. */
  lemma LowerOfSlice(s: string, n: nat, t: string)
    requires n + |t| <= |s| && t == s[n..n + |t|]
    ensures |ToLower(t)| == |t| && ToLower(t) == ToLower(s)[n..n + |t|]
  {
    ToLowerSlice(s, n, n + |t|);
  }

  /** Lower-casing a character keeps it white space or not, and leaves no capital. */
  lemma ToLowerCharKeepsSpace(c: char)
    ensures IsSpace(ToLowerChar(c)) == IsSpace(c) && !IsUpper(ToLowerChar(c))
  {
  }

  /** Lower-casing a string with no white space at either end keeps it so,
      and leaves no capital behind. */
  lemma ToLowerKeepsEnds(s: string)
    requires |s| > 0 ==> !IsSpace(s[0]) && !IsSpace(s[|s| - 1])
    ensures |ToLower(s)| > 0 ==> !IsSpace(ToLower(s)[0]) && !IsSpace(ToLower(s)[|ToLower(s)| - 1])
    ensures forall i :: 0 <= i < |s| ==> !IsUpper(ToLower(s)[i])
  {
    var r := ToLower(s);
    if |s| > 0 {
      ToLowerCharKeepsSpace(s[0]);
      ToLowerCharKeepsSpace(s[|s| - 1]);
    }
    forall i | 0 <= i < |s| ensures !IsUpper(r[i]) {
      ToLowerCharKeepsSpace(s[i]);
    }
  }

  lemma ToLowerAppend(a: string, b: string)
    ensures ToLower(a + b) == ToLower(a) + ToLower(b)
  {
  }

  /** A string with no upper-case ASCII letter is its own lower-case form. */
  lemma ToLowerIdentity(s: string)
    requires forall i :: 0 <= i < |s| ==> !IsUpper(s[i])
    ensures ToLower(s) == s
  {
  }

  predicate StartsWith(s: string, prefix: string) {
    |prefix| <= |s| && s[..|prefix|] == prefix
  }

  predicate EndsWith(s: string, suffix: string) {
    |suffix| <= |s| && s[|s| - |suffix|..] == suffix
  }

  /** `s.includes(w)`. */
  predicate Contains(s: string, w: string)
    decreases |s|
  {
    StartsWith(s, w) || (|s| > 0 && Contains(s[1..], w))
  }

  lemma {:induction false} ContainsExtend(a: string, b: string, w: string)
    requires Contains(a, w)
    ensures Contains(a + b, w)
    decreases |a|
  {
    if StartsWith(a, w) {
      assert (a + b)[..|w|] == a[..|w|];
    } else {
      assert (a + b)[1..] == a[1..] + b;
      ContainsExtend(a[1..], b, w);
    }
  }

  /** `w` occurring at position `i` makes `s.includes(w)` true. */
  lemma {:induction false} ContainsAt(s: string, w: string, i: nat)
    requires i + |w| <= |s| && s[i..i + |w|] == w
    ensures Contains(s, w)
    decreases i
  {
    if i == 0 {
      assert s[..|w|] == w;
    } else {
      assert s[1..][i - 1..i - 1 + |w|] == s[i..i + |w|];
      ContainsAt(s[1..], w, i - 1);
    }
  }

  /** Where `s.includes(w)` finds `w`. */
  lemma {:induction false} ContainsIndex(s: string, w: string) returns (i: nat)
    requires Contains(s, w)
    ensures i + |w| <= |s| && s[i..i + |w|] == w
    decreases |s|
  {
    if StartsWith(s, w) {
      i := 0;
    } else {
      var j := ContainsIndex(s[1..], w);
      i := j + 1;
      assert s[i..i + |w|] == s[1..][j..j + |w|];
    }
  }

  /** Every character is white space (so `trim()` yields the empty string). */
  predicate IsBlank(s: string) {
    forall i :: 0 <= i < |s| ==> IsSpace(s[i])
  }

  /** `trimStart()`: the suffix left once leading white space is dropped. */
  function TrimStart(s: string): (r: string)
    ensures |r| <= |s| && r == s[|s| - |r|..]
    ensures |r| > 0 ==> !IsSpace(r[0])
    ensures forall i :: 0 <= i < |s| - |r| ==> IsSpace(s[i])
    decreases |s|
  {
    if |s| > 0 && IsSpace(s[0]) then
      var r := TrimStart(s[1..]);
      TrimStartStep(s, s[1..], r);
      r
    else s
  }

  /** `trimEnd()`: the prefix left once trailing white space is dropped. */
  function TrimEnd(s: string): (r: string)
    ensures |r| <= |s| && r == s[..|r|]
    ensures |r| > 0 ==> !IsSpace(r[|r| - 1])
    ensures forall i :: |r| <= i < |s| ==> IsSpace(s[i])
    decreases |s|
  {
    if |s| > 0 && IsSpace(s[|s| - 1]) then
      var r := TrimEnd(s[..|s| - 1]);
      TrimEndStep(s, s[..|s| - 1], r);
      r
    else s
  }

  /** One step of `TrimStart`: a blank head joins the blank run before `r`. */
  lemma TrimStartStep(s: string, t: string, r: string)
    requires |s| > 0 && IsSpace(s[0]) && t == s[1..]
    requires |r| <= |t| && r == t[|t| - |r|..]
    requires forall i :: 0 <= i < |t| - |r| ==> IsSpace(t[i])
    ensures r == s[|s| - |r|..]
    ensures forall i :: 0 <= i < |s| - |r| ==> IsSpace(s[i])
  {
    forall i | 0 < i < |s| - |r| ensures IsSpace(s[i]) {
      assert s[i] == t[i - 1];
    }
  }

  /** One step of `TrimEnd`: a blank last character joins the blank run after `r`. */
  lemma TrimEndStep(s: string, t: string, r: string)
    requires |s| > 0 && IsSpace(s[|s| - 1]) && t == s[..|s| - 1]
    requires |r| <= |t| && r == t[..|r|]
    requires forall i :: |r| <= i < |t| ==> IsSpace(t[i])
    ensures r == s[..|r|]
    ensures forall i :: |r| <= i < |s| ==> IsSpace(s[i])
  {
    forall i | |r| <= i < |s| - 1 ensures IsSpace(s[i]) {
      assert s[i] == t[i];
    }
  }

  /** `trim()`. */
  function Trim(s: string): string {
    TrimEnd(TrimStart(s))
  }

  /** How many white-space characters `trim()` cuts off the front. */
  function LeadingBlank(s: string): (n: nat)
    ensures n <= |s|
    ensures IsBlank(s[..n])
    ensures n < |s| ==> !IsSpace(s[n])
  {
    var t := TrimStart(s);
    assert forall i :: 0 <= i < |s| - |t| ==> s[..|s| - |t|][i] == s[i];
    |s| - |t|
  }

  /** `trim()` cuts a run of white space off each end and keeps the middle. */
  lemma TrimIsSlice(s: string)
    ensures LeadingBlank(s) + |Trim(s)| <= |s|
    ensures Trim(s) == s[LeadingBlank(s)..LeadingBlank(s) + |Trim(s)|]
    ensures IsBlank(s[LeadingBlank(s) + |Trim(s)|..])
    ensures |Trim(s)| > 0 ==> !IsSpace(Trim(s)[0]) && !IsSpace(Trim(s)[|Trim(s)| - 1])
  {
    var t0 := TrimStart(s);
    var t := TrimEnd(t0);
    assert LeadingBlank(s) == |s| - |t0| && Trim(s) == t;
    SliceOfSuffix(s, |s| - |t0|, t0, t);
  }

  /** A blank-tailed prefix of a suffix of `s` is a middle slice of `s`. */
  lemma SliceOfSuffix(s: string, n: nat, t0: string, t: string)
    requires n <= |s| && t0 == s[n..]
    requires |t| <= |t0| && t == t0[..|t|]
    requires forall i :: |t| <= i < |t0| ==> IsSpace(t0[i])
    ensures n + |t| <= |s| && t == s[n..n + |t|]
    ensures IsBlank(s[n + |t|..])
    ensures |t| > 0 ==> t[0] == t0[0]
  {
    var tail := s[n + |t|..];
    forall i | 0 <= i < |tail| ensures IsSpace(tail[i]) {
      assert tail[i] == t0[|t| + i];
    }
  }

  /** `s.trim() === ''` exactly when `s` is all white space. */
  lemma TrimEmptyIffBlank(s: string)
    ensures Trim(s) == "" <==> IsBlank(s)
  {
    var t := TrimStart(s);
    if IsBlank(s) {
      BlankTrimStart(s);
    } else {
      var i :| 0 <= i < |s| && !IsSpace(s[i]);
      assert i >= |s| - |t|;
      assert |t| > 0 && !IsSpace(t[0]);
      assert Trim(s) == TrimEnd(t);
    }
  }

  lemma {:induction false} BlankTrimStart(s: string)
    requires IsBlank(s)
    ensures TrimStart(s) == ""
    decreases |s|
  {
    if |s| > 0 {
      BlankTrimStart(s[1..]);
    }
  }

  /** `parts.join(sep)`. */
  function Join(parts: seq<string>, sep: string): string
    decreases |parts|
  {
    if |parts| == 0 then ""
    else if |parts| == 1 then parts[0]
    else parts[0] + sep + Join(parts[1..], sep)
  }

  /** One more part adds the separator and that part at the end. */
  lemma {:induction false} JoinSnoc(parts: seq<string>, last: string, sep: string)
    requires |parts| > 0
    ensures Join(parts + [last], sep) == Join(parts, sep) + sep + last
    decreases |parts|
  {
    var all := parts + [last];
    assert all[0] == parts[0] && all[1..] == parts[1..] + [last];
    if |parts| > 1 {
      JoinSnoc(parts[1..], last, sep);
    } else {
      assert all[1..] == [last];
    }
  }

  /** `s.slice(0, n)`. */
  function Take(s: string, n: nat): (r: string)
    ensures |r| <= n && |r| <= |s|
    ensures r == s[..|r|]
    ensures |s| <= n ==> r == s
    ensures |s| > n ==> |r| == n
  {
    if |s| <= n then s else s[..n]
  }

  /** Cutting a string no shorter than a prefix keeps the prefix. */
  lemma TakeKeepsPrefix(s: string, prefix: string, n: nat)
    requires StartsWith(s, prefix) && |prefix| <= n
    ensures StartsWith(Take(s, n), prefix)
  {
    var r := Take(s, n);
    if |s| > n {
      assert r[..|prefix|] == s[..n][..|prefix|] == s[..|prefix|];
    }
  }

  /** A string starting with `a + b` starts with `a`. */
  lemma StartsWithShorter(s: string, a: string, b: string)
    requires StartsWith(s, a + b)
    ensures StartsWith(s, a)
  {
    assert s[..|a|] == s[..|a + b|][..|a|] == (a + b)[..|a|] == a;
  }

  function DigitChar(d: nat): char
    requires d < 10
  {
    ('0' as int + d) as char
  }

  /** The number a string of decimal digits denotes, most significant first. */
  function DigitsValue(s: string): int
    decreases |s|
  {
    if |s| == 0 then 0 else DigitsValue(s[..|s| - 1]) * 10 + (s[|s| - 1] as int - '0' as int)
  }

  predicate AllDigits(s: string) {
    forall i :: 0 <= i < |s| ==> IsDigit(s[i])
  }

  /** Decimal rendering of a natural number (`String(n)`): the digits that
      denote `n`, with no leading zero. */
  function NatToString(n: nat): (r: string)
    ensures |r| > 0 && AllDigits(r)
    ensures DigitsValue(r) == n
    ensures r[0] == '0' ==> r == "0"
    decreases n
  {
    if n < 10 then
      var r := [DigitChar(n)];
      assert r[..0] == [];
      r
    else
      var high := NatToString(n / 10);
      var r := high + [DigitChar(n % 10)];
      assert r[..|r| - 1] == high;
      r
  }

  /** Decimal rendering of an integer: a `-` exactly for a negative number,
      then the digits of its magnitude. */
  function IntToString(n: int): (r: string)
    ensures |r| > 0 && (r[0] == '-' <==> n < 0)
    ensures n < 0 ==> r[1..] == NatToString(-n)
    ensures n >= 0 ==> r == NatToString(n)
  {
    if n < 0 then "-" + NatToString(-n) else NatToString(n)
  }

  /** Different numbers get different texts, so the text can be read back. */
  lemma NatToStringInjective(a: nat, b: nat)
    ensures NatToString(a) == NatToString(b) <==> a == b
  {
  }

  lemma IntToStringInjective(a: int, b: int)
    ensures IntToString(a) == IntToString(b) <==> a == b
  {
    if IntToString(a) == IntToString(b) {
      if a < 0 {
        NatToStringInjective(-a, -b);
      } else {
        NatToStringInjective(a, b);
      }
    }
  }
}

=== FILE: title_case.dfy ===
/** Field labels: `titleCase` turns a JSON key such as `skillName` or
    `cover_image` into the label "Skill Name" / "Cover image". It is a
    pipeline of five string rewrites; each is modelled as its own function
    and `TitleCaseShape` states what the pipeline guarantees. */
module TitleCase {
  import opened Text

  /** The label for a key: `key.replace(/([A-Z])/g, ' $1').replace(/[_-]/g, ' ')
      .replace(/\s+/g, ' ').trim()` with its first character upper-cased. */
  function TitleCase(key: string): string {
    CapitalizeFirst(Trim(CollapseSpaces(Marked(key))))
  }

  /** The first two rewrites: a space before each capital, then every `_`
      and `-` turned into a space. */
  function Marked(key: string): string {
    SeparatorsToSpaces(SpaceBeforeCapitals(key))
  }

  // ---- what the pipeline is measured against ----

  /** The non-white-space characters of `s`, in order. */
  function Solid(s: string): (r: string)
    ensures |r| <= |s|
    decreases |s|
  {
    if |s| == 0 then ""
    else (if IsSpace(s[0]) then "" else [s[0]]) + Solid(s[1..])
  }

  predicate IsSeparator(c: char) { c == '_' || c == '-' }

  /** The characters of a key that survive as label text: everything except
      white space, `_` and `-`, in order. */
  function WordChars(s: string): (r: string)
    decreases |s|
  {
    if |s| == 0 then ""
    else (if IsSpace(s[0]) || IsSeparator(s[0]) then "" else [s[0]]) + WordChars(s[1..])
  }

  /** Every white-space character is a plain space. */
  predicate PlainSpaced(s: string) {
    forall i :: 0 <= i < |s| && IsSpace(s[i]) ==> s[i] == ' '
  }

  /** No two spaces in a row. */
  predicate SingleSpaced(s: string) {
    forall i :: 0 < i < |s| && s[i] == ' ' ==> s[i - 1] != ' '
  }

  /** Every upper-case letter past the first position starts a word. */
  predicate CapitalsStartWords(s: string) {
    forall i :: 0 < i < |s| && IsUpper(s[i]) ==> IsSpace(s[i - 1])
  }

  // ---- the five rewrites ----

  /** `replace(/([A-Z])/g, ' $1')`. */
  function SpaceBeforeCapitals(s: string): (r: string)
    ensures |s| <= |r|
    ensures |r| > 0 ==> !IsUpper(r[0])
    decreases |s|
  {
    if |s| == 0 then ""
    else (if IsUpper(s[0]) then [' ', s[0]] else [s[0]]) + SpaceBeforeCapitals(s[1..])
  }

  /** After the first rewrite every inner capital follows white space, and
      the word characters are those of the key. */
  lemma {:induction false} SpaceBeforeCapitalsShape(s: string)
    ensures CapitalsStartWords(SpaceBeforeCapitals(s))
    ensures WordChars(SpaceBeforeCapitals(s)) == WordChars(s)
    decreases |s|
  {
    if |s| > 0 {
      SpaceBeforeCapitalsShape(s[1..]);
      var rest := SpaceBeforeCapitals(s[1..]);
      var head := if IsUpper(s[0]) then [' ', s[0]] else [s[0]];
      var r := head + rest;
      assert r == SpaceBeforeCapitals(s);
      assert r[|head|..] == rest;
      assert CapitalsStartWords(r) by {
        forall i | 0 < i < |r| && IsUpper(r[i]) ensures IsSpace(r[i - 1]) {
          if i >= |head| + 1 {
            assert r[i] == rest[i - |head|] && r[i - 1] == rest[i - 1 - |head|];
          }
        }
      }
      WordCharsAppend(head, rest);
      assert WordChars(s) == WordChars([s[0]]) + WordChars(s[1..]) by {
        assert s == [s[0]] + s[1..];
        WordCharsAppend([s[0]], s[1..]);
      }
      assert WordChars(head) == WordChars([s[0]]) by {
        if IsUpper(s[0]) {
          assert head[1..] == [s[0]];
        }
      }
    }
  }

  /** `replace(/[_-]/g, ' ')`. */
  function SeparatorsToSpaces(s: string): (r: string)
    ensures |r| == |s|
    ensures forall i :: 0 <= i < |s| ==> r[i] == if IsSeparator(s[i]) then ' ' else s[i]
  {
    seq(|s|, i requires 0 <= i < |s| => if IsSeparator(s[i]) then ' ' else s[i])
  }

  /** `replace(/\s+/g, ' ')`: every run of white space becomes one space. */
  function CollapseSpaces(s: string): (r: string)
    ensures |r| == 0 <==> |s| == 0
    ensures |r| > 0 ==> r[0] == (if IsSpace(s[0]) then ' ' else s[0])
    decreases |s|
  {
    if |s| == 0 then ""
    else if IsSpace(s[0]) then " " + CollapseSpaces(TrimStart(s))
    else [s[0]] + CollapseSpaces(s[1..])
  }

  /** After collapsing, all white space is plain spaces, never two in a row. */
  lemma {:induction false} CollapseShape(s: string)
    ensures PlainSpaced(CollapseSpaces(s)) && SingleSpaced(CollapseSpaces(s))
    decreases |s|
  {
    if |s| > 0 && IsSpace(s[0]) {
      CollapseShape(TrimStart(s));
      PrependShape(' ', CollapseSpaces(TrimStart(s)));
    } else if |s| > 0 {
      CollapseShape(s[1..]);
      PrependShape(s[0], CollapseSpaces(s[1..]));
    }
  }

  /** Collapsing white space keeps the word characters as they were, and a
      capital that started a word still does. */
  lemma {:induction false} CollapseKeepsWords(s: string)
    ensures Solid(CollapseSpaces(s)) == Solid(s)
    ensures CapitalsStartWords(s) ==> CapitalsStartWords(CollapseSpaces(s))
    decreases |s|
  {
    if |s| > 0 && IsSpace(s[0]) {
      var t := TrimStart(s);
      CollapseKeepsWords(t);
      var rest := CollapseSpaces(t);
      CollapseShape(t);
      SolidDropsSpaces(s, |s| - |t|);
      if CapitalsStartWords(s) {
        CapitalsStartWordsSuffix(s, |s| - |t|);
      }
      PrependShape(' ', rest);
      SolidAppend(" ", rest);
    } else if |s| > 0 {
      CollapseKeepsWords(s[1..]);
      var rest := CollapseSpaces(s[1..]);
      CollapseShape(s[1..]);
      PrependShape(s[0], rest);
      SolidAppend([s[0]], rest);
      assert s == [s[0]] + s[1..];
      SolidAppend([s[0]], s[1..]);
      if CapitalsStartWords(s) {
        CapitalsStartWordsSuffix(s, 1);
      }
    }
  }

  /** Putting one character in front of a collapsed string: a plain space
      before a non-space, or any non-space character, keeps it plain and
      single spaced, and keeps capitals at word starts when the character
      is a space or the string does not open with a capital. */
  lemma PrependShape(c: char, rest: string)
    requires IsSpace(c) ==> c == ' ' && (|rest| == 0 || rest[0] != ' ')
    requires PlainSpaced(rest) && SingleSpaced(rest)
    ensures PlainSpaced([c] + rest) && SingleSpaced([c] + rest)
    ensures CapitalsStartWords(rest) && (|rest| > 0 && IsUpper(rest[0]) ==> IsSpace(c))
      ==> CapitalsStartWords([c] + rest)
  {
    var r := [c] + rest;
    assert r[1..] == rest;
    forall i | 0 < i < |r| ensures r[i] == rest[i - 1] { }
  }

  /** `replace(/^./, c => c.toUpperCase())`, with ASCII upper-casing. */
  function CapitalizeFirst(s: string): (r: string)
    ensures |r| == |s|
    ensures |s| > 0 ==> r[1..] == s[1..]
    ensures |s| > 0 && !IsLineTerminator(s[0]) ==> r[0] == ToUpperChar(s[0])
    ensures |s| == 0 || IsLineTerminator(s[0]) ==> r == s
  {
    if |s| > 0 && !IsLineTerminator(s[0]) then [ToUpperChar(s[0])] + s[1..] else s
  }

  // ---- the guarantee ----

  /** A label has no white space at either end, only single plain spaces
      between words, no `_` or `-`, a space in front of every capital that
      came from a camel-case boundary, and exactly the key's word characters
      in their original order, the first one capitalised. */
  lemma TitleCaseShape(key: string)
    ensures var r := TitleCase(key);
      && (|r| > 0 ==> !IsSpace(r[0]) && !IsSpace(r[|r| - 1]))
      && WellSpaced(r)
      && (forall i :: 0 <= i < |r| ==> !IsSeparator(r[i]))
      && Solid(r) == CapitalizeFirst(WordChars(key))
  {
    var a := SpaceBeforeCapitals(key);
    SpaceBeforeCapitalsShape(key);
    var b := Marked(key);
    SeparatorsKeepCapitals(a);
    SolidOfSeparators(a);
    var c := CollapseSpaces(b);
    CollapseShape(b);
    CollapseKeepsWords(b);
    var t := Trim(c);
    TrimKeepsShape(c);
    var r := CapitalizeFirst(t);
    CapitalizeKeepsShape(t);
    assert r == TitleCase(key);
    NoSeparatorInCapitalizedWordChars(key);
    SolidFreeOfSeparators(r);
  }

  // ---- where the spaces go ----

  /** The spacing of a label read off the key in one pass. `pending` says
      that a run of white space, `_` or `-` has been seen and not yet
      written: it becomes one space in front of the next character, a
      capital always gets one space in front (which absorbs a pending run),
      and a run at the very end leaves one space. */
  function Spacing(s: string, pending: bool): string
    decreases |s|
  {
    if |s| == 0 then (if pending then " " else "")
    else if IsSpace(s[0]) || IsSeparator(s[0]) then Spacing(s[1..], true)
    else if IsUpper(s[0]) then [' ', s[0]] + Spacing(s[1..], false)
    else (if pending then [' ', s[0]] else [s[0]]) + Spacing(s[1..], false)
  }

  /** The rewrites agree with the one-pass reading: after any blank `w`,
      collapsing the marked key is `Spacing` with a run pending exactly when
      `w` is non-empty. */
  lemma {:induction false} CollapseMarked(w: string, s: string)
    requires IsBlank(w)
    ensures CollapseSpaces(w + Marked(s)) == Spacing(s, |w| > 0)
    decreases |s|
  {
    if |s| == 0 {
      assert w + Marked(s) == w;
      if |w| > 0 {
        CollapseOfBlank(w);
      }
    } else {
      var c := s[0];
      var rest := Marked(s[1..]);
      MarkedCons(s);
      assert w + Marked(s) == (w + MarkOf(c)) + rest;
      if IsSpace(c) || IsSeparator(c) {
        BlankSnoc(w, c);
        CollapseMarked(w + MarkOf(c), s[1..]);
      } else {
        CollapseMarked("", s[1..]);
        assert "" + rest == rest;
        CollapseWordStep(w, c, rest);
      }
    }
  }

  /** What the first two rewrites make of one character. */
  function MarkOf(c: char): string {
    if IsUpper(c) then [' ', c] else if IsSeparator(c) then " " else [c]
  }

  /** A blank run stays blank when a white-space or separator character is
      marked onto it. */
  lemma BlankSnoc(w: string, c: char)
    requires IsBlank(w) && (IsSpace(c) || IsSeparator(c))
    ensures IsBlank(w + MarkOf(c)) && |w + MarkOf(c)| > 0
  {
    var m := MarkOf(c);
    assert |m| == 1 && IsSpace(m[0]);
    assert forall i :: 0 <= i < |w| ==> (w + m)[i] == w[i];
  }

  /** A word character after a blank run: one space then the character, and
      the same for a capital, whose mark carries its own space. */
  lemma CollapseWordStep(w: string, c: char, rest: string)
    requires IsBlank(w) && !IsSpace(c) && !IsSeparator(c)
    ensures CollapseSpaces((w + MarkOf(c)) + rest)
         == (if |w| > 0 || IsUpper(c) then [' ', c] else [c]) + CollapseSpaces(rest)
  {
    if IsUpper(c) {
      assert MarkOf(c) == [' ', c];
      CapitalAfterBlank(w, c, rest);
    } else if |w| > 0 {
      assert MarkOf(c) == [c];
      WordAfterRun(w, c, rest);
    } else {
      assert (w + MarkOf(c)) + rest == [c] + rest;
      CollapseCons(c, rest);
    }
  }

  lemma CapitalAfterBlank(w: string, c: char, rest: string)
    requires IsBlank(w) && IsUpper(c)
    ensures CollapseSpaces((w + [' ', c]) + rest) == [' ', c] + CollapseSpaces(rest)
  {
    var w' := w + [' '];
    assert (w + [' ', c]) + rest == (w' + [c]) + rest;
    assert IsBlank(w') by {
      assert forall i :: 0 <= i < |w| ==> w'[i] == w[i];
    }
    WordAfterRun(w', c, rest);
  }

  lemma WordAfterRun(w: string, c: char, rest: string)
    requires |w| > 0 && IsBlank(w) && !IsSpace(c)
    ensures CollapseSpaces((w + [c]) + rest) == [' ', c] + CollapseSpaces(rest)
  {
    var x := [c] + rest;
    var y := CollapseSpaces(rest);
    assert CollapseSpaces((w + [c]) + rest) == " " + CollapseSpaces(TrimStart(x)) by {
      assert (w + [c]) + rest == w + x;
      CollapseBlankPrefix(w, x);
    }
    assert CollapseSpaces(TrimStart(x)) == [c] + y by {
      TrimStartOfWord(x);
      CollapseCons(c, rest);
    }
    SpaceThen(c, y);
  }

  lemma SpaceThen(c: char, y: string)
    ensures " " + ([c] + y) == [' ', c] + y
  {
  }

  lemma TrimStartOfWord(s: string)
    requires |s| > 0 && !IsSpace(s[0])
    ensures TrimStart(s) == s
  {
  }

  /** The label is the trimmed one-pass spacing, first character capitalised. */
  lemma TitleCaseBySpacing(key: string)
    ensures TitleCase(key) == CapitalizeFirst(Trim(Spacing(key, false)))
  {
    CollapseMarkedFromStart(key);
  }

  lemma CollapseMarkedFromStart(key: string)
    ensures CollapseSpaces(Marked(key)) == Spacing(key, false)
  {
    EmptyPrefix(Marked(key));
    CollapseMarked("", key);
  }

  lemma EmptyPrefix(x: string)
    ensures "" + x == x
  {
  }

  lemma ConsTail(c: char, x: string)
    ensures ([c] + x)[1..] == x
  {
  }

  /** The marks of a key are the marks of its first character followed by
      those of the rest. */
  lemma MarkedCons(s: string)
    requires |s| > 0
    ensures Marked(s) == MarkOf(s[0]) + Marked(s[1..])
  {
    var head := if IsUpper(s[0]) then [' ', s[0]] else [s[0]];
    SeparatorsAppend(head, SpaceBeforeCapitals(s[1..]));
    assert SeparatorsToSpaces(head) == MarkOf(s[0]);
  }

  lemma SeparatorsAppend(a: string, b: string)
    ensures SeparatorsToSpaces(a + b) == SeparatorsToSpaces(a) + SeparatorsToSpaces(b)
  {
    var l := SeparatorsToSpaces(a + b);
    var r := SeparatorsToSpaces(a) + SeparatorsToSpaces(b);
    assert forall i :: 0 <= i < |l| ==> l[i] == r[i];
  }

  /** A word character in front is kept as it is. */
  lemma CollapseCons(c: char, s: string)
    requires !IsSpace(c)
    ensures CollapseSpaces([c] + s) == [c] + CollapseSpaces(s)
  {
    assert ([c] + s)[1..] == s;
  }

  /** A run of white space in front becomes one space, and the white space
      that follows it is swallowed too. */
  lemma CollapseBlankPrefix(w: string, s: string)
    requires |w| > 0 && IsBlank(w)
    ensures CollapseSpaces(w + s) == " " + CollapseSpaces(TrimStart(s))
  {
    assert (w + s)[0] == w[0];
    TrimStartBlankPrefix(w, s);
  }

  /** A non-empty run of white space alone collapses to one space. */
  lemma CollapseOfBlank(w: string)
    requires |w| > 0 && IsBlank(w)
    ensures CollapseSpaces(w) == " "
  {
    BlankTrimStart(w);
  }

  /** Collapsing works piece by piece when the first piece does not end in
      white space: no run crosses the join. */
  lemma {:induction false} CollapseSpacesAppend(a: string, b: string)
    requires |a| == 0 || !IsSpace(a[|a| - 1])
    ensures CollapseSpaces(a + b) == CollapseSpaces(a) + CollapseSpaces(b)
    decreases |a|
  {
    if |a| == 0 {
      assert a + b == b;
    } else if IsSpace(a[0]) {
      var t := TrimStart(a);
      assert 0 < |t| < |a| && t[|t| - 1] == a[|a| - 1];
      CollapseAfterLeadingRun(a, b);
      CollapseSpacesAppend(t, b);
      SpaceAssoc(CollapseSpaces(t), CollapseSpaces(b));
    } else {
      assert (a + b)[1..] == a[1..] + b;
      CollapseSpacesAppend(a[1..], b);
      assert (a + b)[0] == a[0];
    }
  }

  /** A leading run of `a` stays a leading run of `a + b` when `a` goes on
      past it. */
  lemma CollapseAfterLeadingRun(a: string, b: string)
    requires |a| > 0 && IsSpace(a[0]) && !IsSpace(a[|a| - 1])
    ensures CollapseSpaces(a) == " " + CollapseSpaces(TrimStart(a))
    ensures CollapseSpaces(a + b) == " " + CollapseSpaces(TrimStart(a) + b)
  {
    TrimStartAppend(a, b);
    assert (a + b)[0] == a[0];
  }

  lemma SpaceAssoc(x: string, y: string)
    ensures " " + (x + y) == (" " + x) + y
  {
  }

  lemma {:induction false} TrimStartBlankPrefix(w: string, s: string)
    requires IsBlank(w)
    ensures TrimStart(w + s) == TrimStart(s)
    decreases |w|
  {
    if |w| > 0 {
      assert (w + s)[1..] == w[1..] + s;
      TrimStartBlankPrefix(w[1..], s);
    } else {
      assert w + s == s;
    }
  }

  lemma {:induction false} TrimStartAppend(a: string, b: string)
    requires |a| > 0 && !IsSpace(a[|a| - 1])
    ensures TrimStart(a + b) == TrimStart(a) + b
    decreases |a|
  {
    if IsSpace(a[0]) {
      assert (a + b)[1..] == a[1..] + b;
      TrimStartAppend(a[1..], b);
    }
  }

  /** A word: no white space, no separator, no capital. */
  predicate PlainWord(w: string) {
    forall i :: 0 <= i < |w| ==> !IsSpace(w[i]) && !IsSeparator(w[i]) && !IsUpper(w[i])
  }

  /** A non-empty run of white space, `_` and `-`. */
  predicate IsGap(g: string) {
    |g| > 0 && forall i :: 0 <= i < |g| ==> IsSpace(g[i]) || IsSeparator(g[i])
  }

  lemma {:induction false} SpacingOfPlain(u: string, rest: string, pending: bool)
    requires |u| > 0 && PlainWord(u)
    ensures Spacing(u + rest, pending) == (if pending then " " + u else u) + Spacing(rest, false)
    decreases |u|
  {
    assert (u + rest)[1..] == u[1..] + rest;
    if |u| > 1 {
      SpacingOfPlain(u[1..], rest, false);
      assert u == [u[0]] + u[1..];
    } else {
      assert u[1..] + rest == rest;
    }
  }

  lemma {:induction false} SpacingOfGap(g: string, rest: string, pending: bool)
    requires IsGap(g)
    ensures Spacing(g + rest, pending) == Spacing(rest, true)
    decreases |g|
  {
    assert (g + rest)[1..] == g[1..] + rest;
    if |g| > 1 {
      SpacingOfGap(g[1..], rest, true);
    } else {
      assert g[1..] + rest == rest;
    }
  }

  /** A string with a word character at each end is its own trim. */
  lemma TrimOfSolidEnds(s: string)
    requires |s| > 0 && !IsSpace(s[0]) && !IsSpace(s[|s| - 1])
    ensures Trim(s) == s
  {
  }

  /** Two words joined by any run of white space, `_` or `-` read as the
      two words with one space between, the first capitalised: `a_b` gives
      `A b` and `cover--image` gives `Cover image`. */
  lemma TitleCaseOfSeparatedWords(u: string, g: string, v: string)
    requires |u| > 0 && PlainWord(u) && IsGap(g) && |v| > 0 && PlainWord(v)
    ensures TitleCase(u + g + v) == CapitalizeFirst(u + " " + v)
  {
    TitleCaseBySpacing(u + g + v);
    SpacingOfSeparatedWords(u, g, v);
    TrimOfSolidEnds(u + " " + v);
  }

  lemma SpacingOfSeparatedWords(u: string, g: string, v: string)
    requires |u| > 0 && PlainWord(u) && IsGap(g) && |v| > 0 && PlainWord(v)
    ensures Spacing(u + g + v, false) == u + " " + v
  {
    Assoc(u, g, v);
    SpacingOfPlain(u, g + v, false);
    SpacingOfGapThenWord(g, v);
    Assoc(u, " ", v);
  }

  lemma Assoc(a: string, b: string, c: string)
    ensures a + b + c == a + (b + c)
  {
  }

  /** A run followed by a final word is one space and the word. */
  lemma SpacingOfGapThenWord(g: string, v: string)
    requires IsGap(g) && |v| > 0 && PlainWord(v)
    ensures Spacing(g + v, false) == " " + v
  {
    SpacingOfGap(g, v, false);
    SpacingOfLastWord(v, true);
  }

  /** A word at the end of the key, after a run or not. */
  lemma SpacingOfLastWord(v: string, pending: bool)
    requires |v| > 0 && PlainWord(v)
    ensures Spacing(v, pending) == if pending then " " + v else v
  {
    assert v + "" == v;
    SpacingOfPlain(v, "", pending);
  }

  /** A capital inside a key starts a new word: `skillName` gives `Skill Name`. */
  lemma TitleCaseOfCamelWords(u: string, c: char, v: string)
    requires |u| > 0 && PlainWord(u) && IsUpper(c) && PlainWord(v)
    ensures TitleCase(u + [c] + v) == CapitalizeFirst(u + " " + [c] + v)
  {
    TitleCaseBySpacing(u + [c] + v);
    SpacingOfCamelWords(u, c, v);
    TrimOfSolidEnds(u + " " + [c] + v);
  }

  lemma SpacingOfCamelWords(u: string, c: char, v: string)
    requires |u| > 0 && PlainWord(u) && IsUpper(c) && PlainWord(v)
    ensures Spacing(u + [c] + v, false) == u + " " + [c] + v
  {
    Assoc(u, [c], v);
    SpacingOfPlain(u, [c] + v, false);
    SpacingOfCapitalThenWord(c, v);
    Assoc(u, " ", [c] + v);
    Assoc(" ", [c], v);
    Assoc(u + " ", [c], v);
  }

  /** A capital followed by the rest of a final word. */
  lemma SpacingOfCapitalThenWord(c: char, v: string)
    requires IsUpper(c) && PlainWord(v)
    ensures Spacing([c] + v, false) == " " + [c] + v
  {
    ConsTail(c, v);
    if |v| > 0 {
      SpacingOfLastWord(v, false);
    }
  }

  lemma SeparatorsKeepCapitals(a: string)
    requires CapitalsStartWords(a)
    ensures CapitalsStartWords(SeparatorsToSpaces(a))
  {
  }

  /** When the solid characters hold no separator, neither does the string. */
  lemma SolidFreeOfSeparators(r: string)
    requires forall c :: c in Solid(r) ==> !IsSeparator(c)
    ensures forall i :: 0 <= i < |r| ==> !IsSeparator(r[i])
  {
    forall i | 0 <= i < |r| ensures !IsSeparator(r[i]) {
      if !IsSpace(r[i]) {
        SolidKeeps(r, i);
      }
    }
  }

  /** Plain single spaces, and a space before every inner capital. */
  predicate WellSpaced(s: string) {
    PlainSpaced(s) && SingleSpaced(s) && CapitalsStartWords(s)
  }

  lemma WellSpacedSuffix(s: string, n: nat)
    requires n <= |s| && WellSpaced(s)
    ensures WellSpaced(s[n..])
  {
    var t := s[n..];
    assert forall i :: 0 <= i < |t| ==> t[i] == s[i + n];
  }

  lemma WellSpacedPrefix(s: string, n: nat)
    requires n <= |s| && WellSpaced(s)
    ensures WellSpaced(s[..n])
  {
  }

  /** A well-spaced string stays well-spaced when trimmed, and loses only white space. */
  lemma TrimKeepsShape(c: string)
    requires WellSpaced(c)
    ensures var t := Trim(c);
      && (|t| > 0 ==> !IsSpace(t[0]) && !IsSpace(t[|t| - 1]))
      && WellSpaced(t)
      && Solid(t) == Solid(c)
  {
    var t0 := TrimStart(c);
    var t := TrimEnd(t0);
    WellSpacedSuffix(c, |c| - |t0|);
    WellSpacedPrefix(t0, |t|);
    SolidDropsSpaces(c, |c| - |t0|);
    SolidDropsTrailingSpaces(t0, |t|);
    if |t| > 0 {
      assert t[0] == t0[0];
    }
  }

  /** Capitalising the first character of a trimmed, well-spaced string keeps its shape. */
  lemma CapitalizeKeepsShape(t: string)
    requires |t| > 0 ==> !IsSpace(t[0]) && !IsSpace(t[|t| - 1])
    requires WellSpaced(t)
    ensures var r := CapitalizeFirst(t);
      && (|r| > 0 ==> !IsSpace(r[0]) && !IsSpace(r[|r| - 1]))
      && WellSpaced(r)
      && Solid(r) == CapitalizeFirst(Solid(t))
  {
    SolidCapitalize(t);
    var r := CapitalizeFirst(t);
    if |t| > 0 {
      assert forall i :: 0 < i < |r| ==> r[i] == t[i];
      assert IsSpace(r[0]) == IsSpace(t[0]);
      assert PlainSpaced(r);
      assert SingleSpaced(r) by {
        forall i | 0 < i < |r| && r[i] == ' ' ensures r[i - 1] != ' ' {
          assert t[i] == ' ';
        }
      }
      assert CapitalsStartWords(r) by {
        forall i | 0 < i < |r| && IsUpper(r[i]) ensures IsSpace(r[i - 1]) {
          assert IsUpper(t[i]);
        }
      }
    }
  }

  // ---- helper lemmas ----

  lemma {:induction false} SolidAppend(a: string, b: string)
    ensures Solid(a + b) == Solid(a) + Solid(b)
    decreases |a|
  {
    if |a| > 0 {
      assert (a + b)[1..] == a[1..] + b;
      SolidAppend(a[1..], b);
    } else {
      assert a + b == b;
    }
  }

  lemma {:induction false} WordCharsAppend(a: string, b: string)
    ensures WordChars(a + b) == WordChars(a) + WordChars(b)
    decreases |a|
  {
    if |a| > 0 {
      assert (a + b)[1..] == a[1..] + b;
      WordCharsAppend(a[1..], b);
    } else {
      assert a + b == b;
    }
  }

  /** Dropping a prefix made only of white space leaves `Solid` unchanged. */
  lemma {:induction false} SolidDropsSpaces(s: string, n: nat)
    requires n <= |s|
    requires forall i :: 0 <= i < n ==> IsSpace(s[i])
    ensures Solid(s[n..]) == Solid(s)
    decreases n
  {
    if n > 0 {
      assert s[1..][n - 1..] == s[n..];
      SolidDropsSpaces(s[1..], n - 1);
    }
  }

  /** Dropping a suffix made only of white space leaves `Solid` unchanged. */
  lemma SolidDropsTrailingSpaces(s: string, n: nat)
    requires n <= |s|
    requires forall i :: n <= i < |s| ==> IsSpace(s[i])
    ensures Solid(s[..n]) == Solid(s)
  {
    assert s == s[..n] + s[n..];
    SolidAppend(s[..n], s[n..]);
    SolidOfBlank(s[n..]);
  }

  lemma {:induction false} SolidOfBlank(s: string)
    requires IsBlank(s)
    ensures Solid(s) == ""
    decreases |s|
  {
    if |s| > 0 {
      SolidOfBlank(s[1..]);
    }
  }

  lemma {:induction false} SolidOfSeparators(s: string)
    ensures Solid(SeparatorsToSpaces(s)) == WordChars(s)
    decreases |s|
  {
    if |s| > 0 {
      assert SeparatorsToSpaces(s)[1..] == SeparatorsToSpaces(s[1..]);
      SolidOfSeparators(s[1..]);
    }
  }

  lemma CapitalsStartWordsSuffix(s: string, n: nat)
    requires n <= |s|
    requires CapitalsStartWords(s)
    ensures CapitalsStartWords(s[n..])
  {
    var t := s[n..];
    forall i | 0 < i < |t| && IsUpper(t[i]) ensures IsSpace(t[i - 1]) {
      assert t[i] == s[i + n] && t[i - 1] == s[i + n - 1];
    }
  }

  lemma SolidCapitalize(t: string)
    requires |t| > 0 ==> !IsSpace(t[0])
    ensures Solid(CapitalizeFirst(t)) == CapitalizeFirst(Solid(t))
  {
    if |t| > 0 {
      assert t == [t[0]] + t[1..];
      SolidAppend([t[0]], t[1..]);
      var u := [ToUpperChar(t[0])];
      SolidAppend(u, t[1..]);
      assert CapitalizeFirst(t) == u + t[1..];
    }
  }

  /** A non-space character of `s` is a character of `Solid(s)`. */
  lemma {:induction false} SolidKeeps(s: string, i: nat)
    requires i < |s| && !IsSpace(s[i])
    ensures s[i] in Solid(s)
    decreases i
  {
    assert s == [s[0]] + s[1..];
    SolidAppend([s[0]], s[1..]);
    if i > 0 {
      SolidKeeps(s[1..], i - 1);
    }
  }

  lemma NoSeparatorInCapitalizedWordChars(key: string)
    ensures forall c :: c in CapitalizeFirst(WordChars(key)) ==> !IsSeparator(c)
  {
    var w := WordChars(key);
    WordCharsHaveNoSeparator(key);
    var r := CapitalizeFirst(w);
    forall c | c in r ensures !IsSeparator(c) {
      var i :| 0 <= i < |r| && r[i] == c;
      if i > 0 || |w| == 0 || IsLineTerminator(w[0]) {
        assert r[i] == w[i];
      }
    }
  }

  lemma {:induction false} WordCharsHaveNoSeparator(s: string)
    ensures forall i :: 0 <= i < |WordChars(s)| ==> !IsSeparator(WordChars(s)[i])
    decreases |s|
  {
    if |s| > 0 {
      WordCharsHaveNoSeparator(s[1..]);
    }
  }
}
